=== FILE: README.md ===
# otunnel and its `es` multiplexing library, modelled in Dafny

otunnel forwards TCP ports between a client and a server over a single
connection, the *link*. The link is provided by the `es` library. It frames
messages on the socket, runs request/response *sessions* over it, and
carries *tunnels*. A tunnel forwards one port, and each accepted or dialled
connection on it becomes a *channel*.

This project models, as pure functions over immutable state:

- the wire codecs:
  - the session EMSG (big-endian ID);
  - the tunnel TMSG (little-endian IDs);
  - otunnel's legacy EMSG (little-endian ID);
  - the 14-byte reliable-UDP segment header (big-endian);
- the two framings: `BaseConn`'s 2-byte big-endian length, and the legacy `emsg.Conn`'s 4-byte little-endian length;
- the session, tunnel and channel pools with their ID allocators;
- the process-wide listen pool;
- the session layer: one-slot response delivery, regex routes and the manager's dispatch;
- the tunnel layer: mirrored configurations, listen-versus-dial, channel close handling, and rollback of a failed tunnel creation;
- the TCP channel;
- the link: kind-byte dispatch, ping registry, configuration defaults, `Close`/`Stop`, and one keep-alive step;
- `OpenTunnel` across two endpoints;
- the tunnel-specification parsers of both client generations;
- the server's and clients' connection-type selection;
- reliable-UDP segmentation and reassembly (`msgSending`/`msgRecving`).

Conventions:

- Go's blocking, runtime panics and fatal exits are explicit. A statement
  that may block forever on a channel, panic, or end the process through
  `logrus.Fatalln` yields `Step<T>`: `Done(value)`, `Blocks` or
  `Panics(reason)`.
- Go's `(value, error)` is `Result<T>`, and a nil-or-value return is `Option<T>`.
- The link's outbound channel is a queue of byte sequences that only grows.
  A cursor records how far the send loop has taken from it.
- Fixed-width integers are subset types of `int`. Every wrap-around
  (`uint16`/`uint32` counters and ID cursors) and every truncating cast is
  written out with `%`.
- Sockets, clocks, JSON and the regular-expression engine are parameters:
  - a socket operation's outcome is an input;
  - JSON is a `Codec` record of encoders and decoders;
  - regex compilation and matching of patterns with metacharacters are a `Regex` record.
- The kind bytes `es.LinkMsgType*` and the channel message types are declared
  in files not modelled. They are a `Kinds` parameter whose values are only
  assumed pairwise distinct.

The files follow the source's packages:

- `bytes`, `wrappers`, `kinds`, `json`, `decimal`: shared vocabulary.
- `es_conn`, `stream`: `es/conn.go`.
- `session_msg`, `session`, `session_pool`, `session_manager`, `router`: `es/session`.
- `tunnel_msg`, `tunnel_config`, `tunnel`, `tunnel_pool`, `tunnel_manager`, `listen_pool`, `channel`, `channel_pool`: `es/tunnel`.
- `id_alloc`: the ID search loop shared by the pools.
- `link`, `handler`, `open_tunnel`: `es/link`.
- `legacy_msg`, `legacy_conn`: `common/emsg`.
- `tunnel_spec`, `conn_config`: the clients and the server.
- `udp_segment`, `udp_message`, `udp_util`: `es/proto/udp`.

## Model

| member | source | states |
|---|---|---|
| Bytes.BE16 | vendor/github.com/ooclab/es/conn.go:52-58 | the 2-byte big-endian header of a frame is exactly two bytes |
| Bytes.BE32 | vendor/github.com/ooclab/es/session/msg.go:28-31 | the big-endian session ID takes exactly four bytes |
| Bytes.LE32 | common/emsg/msg.go:41-44 | the little-endian ID takes exactly four bytes |
| Bytes.BE16RoundTrip | vendor/github.com/ooclab/es/conn.go:47-58 | the length `Send` writes big-endian is the length `Recv` reads back |
| Bytes.BE16Inverse | vendor/github.com/ooclab/es/conn.go:42-48 | any 2-byte header read as a length and written again is the same two bytes |
| Bytes.BE32RoundTrip | vendor/github.com/ooclab/es/session/msg.go:28-48 | a session ID written big-endian reads back unchanged |
| Bytes.BE32Inverse | vendor/github.com/ooclab/es/session/msg.go:40-48 | any four ID bytes read and rewritten are the same bytes |
| Bytes.LE32RoundTrip | common/emsg/msg.go:41-62 | an ID written little-endian reads back unchanged |
| Bytes.LE32Inverse | common/emsg/conn.go:32-40 | any four length bytes read and rewritten are the same bytes |
| Bytes.BE32Injective | vendor/github.com/ooclab/es/session/msg.go:28-38 | different session IDs never share an encoding |
| Bytes.LE32Injective | vendor/github.com/ooclab/es/tunnel/common/msg.go:37-48 | different tunnel or channel IDs never share an encoding |
| EsConn.Send | vendor/github.com/ooclab/es/conn.go:51-70 | as written: always accepted; the header holds the length modulo 65536, followed by the message |
| EsConn.SendChecked | vendor/github.com/ooclab/es/conn.go:51-70 | refused with "max length limit" exactly when the message exceeds 65535 bytes; an accepted frame unframes to the message whatever follows it |
| EsConn.Unframe | vendor/github.com/ooclab/es/conn.go:42-48 | a frame read off the stream accounts for every byte: header, body and rest |
| EsConn.FrameRoundTrip | vendor/github.com/ooclab/es/conn.go:42-70 | a message of at most 65535 bytes survives `Send` then `Recv`, which consumes exactly its frame |
| EsConn.FramesInOrder | vendor/github.com/ooclab/es/conn.go:42-70 | back-to-back frames come out one by one in the order they were sent |
| EsConn.OversizeMessageMisframed | vendor/github.com/ooclab/es/conn.go:52-55 | a 65536-byte message passes the guard and is announced as empty, so the peer reads an empty message and then garbage |
| EsConn.Recv | vendor/github.com/ooclab/es/conn.go:42-87 | a successful read is the first frame of the stream; a reliable stream holding a frame is read; a read error is passed back unchanged |
| SessionMsg.Encode | vendor/github.com/ooclab/es/session/msg.go:28-38 | type byte, big-endian ID, then the payload, five bytes plus the payload |
| SessionMsg.Decode | vendor/github.com/ooclab/es/session/msg.go:40-49 | rejected as too short exactly below five bytes; otherwise the type is byte 0, the ID is the one whose big-endian encoding is bytes 1 to 4, and the payload is the rest |
| SessionMsg.DecodeEncode | vendor/github.com/ooclab/es/session/msg.go:28-49 | decoding an encoded message gives the message back |
| SessionMsg.EncodeDecode | vendor/github.com/ooclab/es/session/msg.go:28-49 | every input of at least five bytes decodes and re-encodes to itself |
| SessionMsg.EmptyPayloadLength | vendor/github.com/ooclab/es/session/msg.go:33-35 | an empty payload writes nothing after the ID |
| TunnelMsg.Len | vendor/github.com/ooclab/es/tunnel/common/msg.go:29-31 | `Len` is the length of the encoding |
| TunnelMsg.Encode | vendor/github.com/ooclab/es/tunnel/common/msg.go:37-48 | type byte, tunnel ID and channel ID little-endian, then the payload |
| TunnelMsg.Decode | vendor/github.com/ooclab/es/tunnel/common/msg.go:50-60 | rejected as too short exactly below nine bytes; otherwise the fields are the bytes at their offsets |
| TunnelMsg.DecodeEncode | vendor/github.com/ooclab/es/tunnel/common/msg.go:37-60 | decoding an encoded message gives it back |
| TunnelMsg.EncodeDecode | vendor/github.com/ooclab/es/tunnel/common/msg.go:37-60 | every input of at least nine bytes decodes and re-encodes to itself |
| LegacyMsg.Len | common/emsg/msg.go:33-35 | `Len` is the length of the encoding |
| LegacyMsg.Encode | common/emsg/msg.go:41-51 | type byte, little-endian ID, then the payload |
| LegacyMsg.Decode | common/emsg/msg.go:53-62 | rejected as too short exactly below five bytes; otherwise the fields are the bytes at their offsets |
| LegacyMsg.DecodeEncode | common/emsg/msg.go:41-62 | decoding an encoded message gives it back |
| LegacyMsg.EncodeDecode | common/emsg/msg.go:41-62 | every input of at least five bytes decodes and re-encodes to itself |
| LegacyConn.Send | common/emsg/conn.go:53-75 | a 4-byte little-endian length (modulo 2^32), then the message bytes |
| LegacyConn.Unframe | common/emsg/conn.go:28-51 | a complete frame whose length is below five bytes is rejected as too short |
| LegacyConn.SendRecvRoundTrip | common/emsg/conn.go:28-75 | with no cipher a sent message is received unchanged and only its frame is consumed |
| LegacyConn.Recv | common/emsg/conn.go:28-51 | a successful read is the first frame; a reliable stream holding a frame is read; a short body and a read error are reported |
| IdAlloc.NextFree | vendor/github.com/ooclab/es/session/pool.go:29-42 | the ID found is unused, nonzero when zero is skipped, and of the cursor's parity for an even step |
| IdAlloc.AddU32Parity | vendor/github.com/ooclab/es/session/pool.go:33 | adding an even step to a `uint32` keeps its parity, wrap-around included |
| IdAlloc.NextParityID | vendor/github.com/ooclab/es/session/pool.go:29-42 | the allocated ID is nonzero, unused and of the cursor's parity, so the two sides never collide |
| IdAlloc.NextParityIDImmediate | vendor/github.com/ooclab/es/session/pool.go:32-39 | when the cursor plus two is free it is the ID allocated |
| IdAlloc.NextFreeFirstFit | vendor/github.com/ooclab/es/tunnel/channel/pool.go:24-31 | without wrap-around, every ID skipped between the cursor and the result is in use |
| ChannelPool.NewPool | vendor/github.com/ooclab/es/tunnel/channel/pool.go:16-22 | an empty pool with the cursor at 1 |
| ChannelPool.NewID | vendor/github.com/ooclab/es/tunnel/channel/pool.go:24-31 | the ID found is not in the pool |
| ChannelPool.NewByID | vendor/github.com/ooclab/es/tunnel/channel/pool.go:69-81 | a fresh channel is registered under the ID, replacing any there, the cursor untouched |
| ChannelPool.New | vendor/github.com/ooclab/es/tunnel/channel/pool.go:64-67 | the new channel's ID was unused; it is registered and the cursor left at it |
| ChannelPool.FirstChannelID | vendor/github.com/ooclab/es/tunnel/channel/pool.go:16-31 | the first channel of a fresh pool has ID 2 |
| ChannelPool.NewFirstFit | vendor/github.com/ooclab/es/tunnel/channel/pool.go:24-31 | `New` takes the first free ID above the cursor unless it wrapped |
| ChannelPool.Get | vendor/github.com/ooclab/es/tunnel/channel/pool.go:40-49 | found exactly when registered, and then it is the registered channel |
| ChannelPool.Delete | vendor/github.com/ooclab/es/tunnel/channel/pool.go:51-62 | fails with "delete failed: channel not exist" exactly when the ID is absent; otherwise the entry is dropped and the channel closed |
| ChannelPool.NewGetDelete | vendor/github.com/ooclab/es/tunnel/channel/pool.go:40-67 | a channel made by `New` is found, then deleted, leaving the pool as it was apart from the cursor |
| Channel.NewChannel | vendor/github.com/ooclab/es/tunnel/channel/pool.go:69-78 | the channel carries its IDs, is open and has zero counters |
| Channel.Close | vendor/github.com/ooclab/es/tunnel/channel/tcp.go:43-55 | closed afterwards; the socket is closed only on the first call; nothing else changes |
| Channel.CloseIdempotent | vendor/github.com/ooclab/es/tunnel/channel/tcp.go:43-52 | closing twice is closing once, and the socket is closed at most once |
| Channel.SetClosedByRemote | vendor/github.com/ooclab/es/tunnel/channel/tcp.go:57-67 | the flag reads back as set and nothing else changes |
| Channel.HandleIn | vendor/github.com/ooclab/es/tunnel/channel/tcp.go:69-84 | an error exactly when the write fails ("write payload error"); otherwise the send counter grows by the bytes written, modulo 2^64 |
| Channel.ForwardFrame | vendor/github.com/ooclab/es/tunnel/channel/tcp.go:116-123 | the tunnel kind byte, then a message that decodes to a ChannelForward with this channel's IDs and the bytes read; ten bytes longer than the read |
| Channel.Serve | vendor/github.com/ooclab/es/tunnel/channel/tcp.go:86-126 | on return the channel is closed and keeps its IDs and remote flag. On an open queue `Serve` returns exactly when some read fails; the new messages are the forward frames of the reads, in order, up to the first failing read, and none exceeds a 16 KiB read's frame; that read's error decides the result (nil when the channel was already closed or the connection reports closed, the error otherwise, EOF included); and the recv counter has grown by the bytes of the reads before it, modulo 2^64. On a closed queue nothing is queued, and a first successful read ends `Serve` with nil through the recovered panic |
| Channel.ServeStep | vendor/github.com/ooclab/es/tunnel/channel/tcp.go:100-125 | one read of at most 16 KiB followed by the rest of the loop: its frame comes first, then the rest's frames |
| Channel.ServeFailureStep | vendor/github.com/ooclab/es/tunnel/channel/tcp.go:100-125 | a successful read does not end the loop: whether a later read fails is all that decides termination |
| Channel.ServeCountStep | vendor/github.com/ooclab/es/tunnel/channel/tcp.go:124 | counting one read's bytes and then the rest's is counting them all, modulo 2^64 |
| Channel.ServeReadError | vendor/github.com/ooclab/es/tunnel/channel/tcp.go:103-114 | a read error ends the loop, whether the queue is open or closed: no error when already closed or the connection reports closed, otherwise that error |
| Decimal.DigitChar | vendor/github.com/ooclab/es/tunnel/listen_pool.go:25 | the character printed for a digit is the ASCII digit of that value |
| Decimal.NatStr | vendor/github.com/ooclab/es/tunnel/listen_pool.go:25 | `%d` of a natural number: all digits, at least one, no leading zero |
| Decimal.IntStr | vendor/github.com/ooclab/es/tunnel/listen_pool.go:25 | `%d` of an integer: a minus sign exactly for negatives, digits otherwise |
| Decimal.NatStrValue | vendor/github.com/ooclab/es/tunnel/listen_pool.go:25 | the digits printed read back as the number |
| Decimal.IntStrInjective | vendor/github.com/ooclab/es/tunnel/listen_pool.go:76-78 | different port numbers print differently |
| Decimal.ParseDigits | client/client.go:326-333 | `strconv.ParseUint` from a position: a result means every character is a digit, and it is their value, within the `uint64` range; the only errors are syntax and range |
| Decimal.PrefixValueLe | client/client.go:326-333 | a longer run of digits never denotes less |
| Decimal.ParseDigitsAll | client/client.go:326-333 | digits whose value fits `uint64` are read in full |
| Decimal.ParseDigitsRange | client/client.go:326-333 | digits past the `uint64` range are a range error, whatever follows them |
| Decimal.ParseDigitsSyntax | client/client.go:326-333 | a non-digit reached before any overflow is a syntax error |
| Decimal.Atoi | client/client.go:326-333 | `strconv.Atoi`: a result is in the 64-bit range and is the signed value of the digits after an optional sign; the empty string is a syntax error; the only errors are syntax and range |
| Decimal.AtoiAccepts | client/client.go:326-333 | a sign, digits, and a value in the 64-bit range are read back as that value |
| Decimal.AtoiIntStr | client/client.go:326-333 | every 64-bit number `%d` prints is read back by `Atoi` |
| Decimal.AtoiRejectsNonDigit | client/client.go:326-333 | a non-digit after the sign, with no overflow among the digits before it, is a syntax error |
| Decimal.AtoiRangeFirst | client/client.go:326-333 | digits after the sign that run past the `uint64` range are a range error, even when a non-digit follows |
| ListenPool.Addr | vendor/github.com/ooclab/es/tunnel/listen_pool.go:21-29 | `host:port`: the host, one colon, then the decimal port |
| ListenPool.NewTarget | vendor/github.com/ooclab/es/tunnel/listen_pool.go:21-29 | a new TCP target records its address and is open |
| ListenPool.TCPKey | vendor/github.com/ooclab/es/tunnel/listen_pool.go:76-78 | "tcp:" followed by the address |
| ListenPool.UDPKey | vendor/github.com/ooclab/es/tunnel/listen_pool.go:80-82 | as written: also "tcp:" followed by the address |
| ListenPool.UDPKeyCollides | vendor/github.com/ooclab/es/tunnel/listen_pool.go:76-82 | the UDP key of an address equals its TCP key |
| ListenPool.ListenKey | vendor/github.com/ooclab/es/tunnel/listen_pool.go:76-82 | the intended key: the protocol's own name, a colon, the address |
| ListenPool.ListenKeySeparatesProtocols | vendor/github.com/ooclab/es/tunnel/listen_pool.go:76-82 | a TCP key never equals a UDP key, and the TCP key is unchanged |
| ListenPool.TCPKeyInjective | vendor/github.com/ooclab/es/tunnel/listen_pool.go:76-78 | two addresses share a TCP key only when host and port are equal |
| ListenPool.TCPKeyParts | vendor/github.com/ooclab/es/tunnel/listen_pool.go:76-78 | the last colon of a key separates the host from the port digits |
| ListenPool.Exist | vendor/github.com/ooclab/es/tunnel/listen_pool.go:84-89 | true exactly for a key in the pool |
| ListenPool.Add | vendor/github.com/ooclab/es/tunnel/listen_pool.go:91-95 | the target is stored under the key, replacing any, and found there |
| ListenPool.Get | vendor/github.com/ooclab/es/tunnel/listen_pool.go:97-106 | found exactly for a key in the pool, and then it is the stored target |
| ListenPool.CloseTarget | vendor/github.com/ooclab/es/tunnel/listen_pool.go:40-62 | closed afterwards with its address kept; the listener is closed only on the first call |
| ListenPool.CloseTargetIdempotent | vendor/github.com/ooclab/es/tunnel/listen_pool.go:45-51 | closing a target twice is closing it once |
| ListenPool.Delete | vendor/github.com/ooclab/es/tunnel/listen_pool.go:108-120 | "delete failed: listen port not exist" exactly for a missing key; otherwise the key is dropped and its target closed |
| ListenPool.AddDelete | vendor/github.com/ooclab/es/tunnel/listen_pool.go:91-120 | adding a new key then deleting it restores the pool and hands back the target closed |
| ListenPool.Elems | vendor/github.com/ooclab/es/tunnel/listen_pool.go:129-147 | the keys an enumeration lists, as a set |
| ListenPool.DeleteAllKeys | vendor/github.com/ooclab/es/tunnel/manager.go:82-87 | deleting along an enumeration removes exactly the listed keys and closes exactly those |
| ListenPool.DeleteAllValues | vendor/github.com/ooclab/es/tunnel/manager.go:82-87 | every target handed back is the pool's target closed; every target kept is unchanged |
| ListenPool.CloseEmptiesPool | vendor/github.com/ooclab/es/tunnel/manager.go:82-87 | deleting along an enumeration of every key empties the pool with every listener closed |
| Session.NewSession | vendor/github.com/ooclab/es/session/session.go:15-21 | a session with its ID, an empty one-slot inbound and the slot open |
| Session.Close | vendor/github.com/ooclab/es/session/session.go:23-25 | closing panics exactly when already closed; otherwise only the closed flag changes |
| Session.HandleResponse | vendor/github.com/ooclab/es/session/session.go:27-31 | panics on a closed slot, blocks on a full one, otherwise fills the slot with the payload |
| Session.RequestFrame | vendor/github.com/ooclab/es/session/session.go:36-41 | the session kind byte, then a request EMSG with the session's ID and the payload |
| Session.Wait | vendor/github.com/ooclab/es/session/session.go:44 | takes a buffered payload, gets nothing from a closed empty slot, and blocks exactly on an open empty slot |
| Session.SendAndWait | vendor/github.com/ooclab/es/session/session.go:33-46 | panics exactly when the outbound queue is closed, queueing nothing; otherwise the request frame is queued, and a response already in the slot is returned |
| Session.ResponseBeforeWait | vendor/github.com/ooclab/es/session/session.go:27-46 | a response that arrives before the wait is the one returned |
| Session.WaitAfterClose | vendor/github.com/ooclab/es/session/session.go:23-46 | a waiter on a closed session gets an empty payload and no error |
| SessionPool.NewPool | vendor/github.com/ooclab/es/session/pool.go:15-27 | an empty pool whose cursor is odd on the server side and even on the client side |
| SessionPool.NewID | vendor/github.com/ooclab/es/session/pool.go:29-42 | the ID is nonzero, unused and of the cursor's parity |
| SessionPool.New | vendor/github.com/ooclab/es/session/pool.go:51-61 | a fresh session is registered under an unused ID, the pool grows by one and the cursor moves to the ID |
| SessionPool.Get | vendor/github.com/ooclab/es/session/pool.go:63-72 | found exactly when registered, and then it is the registered session |
| SessionPool.Delete | vendor/github.com/ooclab/es/session/pool.go:74-84 | "delete failed: session not exist" exactly when absent; otherwise only that entry is dropped |
| SessionPool.ServerClientDisjoint | vendor/github.com/ooclab/es/session/pool.go:15-42 | server and client IDs never coincide; the first IDs are 3 and 4 |
| SessionManager.NewManager | vendor/github.com/ooclab/es/session/manager.go:16-22 | a manager with an empty valid pool |
| SessionManager.New | vendor/github.com/ooclab/es/session/manager.go:57-59 | a fresh session under an unused ID is added and nothing else changes |
| SessionManager.HandleIn | vendor/github.com/ooclab/es/session/manager.go:28-55 | too short is rejected; a request queues exactly the handler's reply; a response fills only its session's slot or is "no such session"; any other type is an error |
| SessionManager.Close | vendor/github.com/ooclab/es/session/manager.go:61-69 | every session is closed and dropped, keeping its ID and buffered response |
| SessionManager.CloseReleasesWaiters | vendor/github.com/ooclab/es/session/manager.go:61-69 | after `Close` a waiter on any session gets an empty payload |
| TunnelConfig.RemoteConfig | vendor/github.com/ooclab/es/tunnel/tunnel.go:26-35 | the far side's configuration: same protocol, local and remote swapped, direction flipped, ID cleared |
| TunnelConfig.RemoteConfigInvolution | vendor/github.com/ooclab/es/tunnel/tunnel.go:26-35 | mirroring twice gives the configuration back, apart from the ID |
| TunnelConfig.ExactlyOneListens | vendor/github.com/ooclab/es/tunnel/tunnel.go:26-35 | of a configuration and its mirror exactly one is forward, so exactly one side listens |
| Tunnel.NewTunnel | vendor/github.com/ooclab/es/tunnel/tunnel.go:56-76 | the tunnel has the configuration's ID and an empty channel pool, and is valid for "tcp" or "udp" |
| Tunnel.WriteTo | vendor/github.com/ooclab/es/tunnel/tunnel.go:104 | writing to a known channel keeps the channel set and fails exactly when the write fails |
| Tunnel.HandleIn | vendor/github.com/ooclab/es/tunnel/tunnel.go:86-105 | a known channel gets the data; a forward tunnel rejects an unknown channel with "no such channel"; a reverse tunnel dials and registers it under the far side's ID, or returns the dial error |
| Tunnel.NewChannelByConn | vendor/github.com/ooclab/es/tunnel/tunnel.go:155-161 | a reverse tunnel gives nil; a forward one registers a channel under a fresh ID |
| Tunnel.CloseFrame | vendor/github.com/ooclab/es/tunnel/tunnel.go:174-190 | the tunnel kind byte, then a ChannelClose message for the tunnel and channel with no payload |
| Tunnel.ServeChannel | vendor/github.com/ooclab/es/tunnel/tunnel.go:163-190 | the channel leaves the pool; a close is queued exactly when serving failed, the far side did not close the channel, and the outbound queue is open (on a closed queue the panic is recovered and nothing is queued) |
| Tunnel.HandleChannelClose | vendor/github.com/ooclab/es/tunnel/tunnel.go:192-204 | "no such channel" exactly for an unknown channel; otherwise it is closed, marked closed by the far side and dropped |
| Tunnel.NoCloseEcho | vendor/github.com/ooclab/es/tunnel/tunnel.go:163-204 | a channel closed by the far side is never announced back to it |
| Tunnel.Listen | vendor/github.com/ooclab/es/tunnel/tunnel.go:206-309 | reverse tunnels do not listen; a forward listen exits the process exactly when its key is free and the address does not resolve; a TCP listen that returns succeeds exactly when its key is free and the bind works, and then records the listener; a UDP listen that returns has failed, with "listen udp address is existed" exactly when the address's TCP key is taken; a failure leaves the pool alone |
| Tunnel.OutOfRangePortExits | vendor/github.com/ooclab/es/tunnel/tunnel.go:224-229 | a forward tunnel whose local port lies outside 0..65535 and whose address is free ends the process, whatever the host and the bind |
| Tunnel.UDPRefusedBesideTCP | vendor/github.com/ooclab/es/tunnel/tunnel.go:264-271 | once a forward TCP tunnel listens on an address, a forward UDP tunnel on it is refused as if the UDP address were taken |
| Tunnel.ListenExclusive | vendor/github.com/ooclab/es/tunnel/tunnel.go:214-238 | once one forward TCP tunnel listens on an address, a second is refused with "listen address is existed" |
| TunnelPool.NewPool | vendor/github.com/ooclab/es/tunnel/tunnel_pool.go:17-29 | an empty pool whose cursor is odd on the server side and even on the client side |
| TunnelPool.NewID | vendor/github.com/ooclab/es/tunnel/tunnel_pool.go:31-44 | the ID is nonzero, unused and of the cursor's parity |
| TunnelPool.New | vendor/github.com/ooclab/es/tunnel/tunnel_pool.go:76-92 | a taken nonzero ID is "tunnel ID existed"; otherwise a new tunnel under an unused nonzero ID is added, and an allocated ID keeps the side's parity |
| TunnelPool.Get | vendor/github.com/ooclab/es/tunnel/tunnel_pool.go:53-62 | found exactly when registered, and then it is the registered tunnel |
| TunnelPool.Delete | vendor/github.com/ooclab/es/tunnel/tunnel_pool.go:64-74 | "delete failed: tunnel not exist" exactly when absent; otherwise only that entry is dropped |
| TunnelPool.NewDelete | vendor/github.com/ooclab/es/tunnel/tunnel_pool.go:64-92 | deleting a tunnel just created restores the tunnel map |
| TunnelManager.NewManager | vendor/github.com/ooclab/es/tunnel/manager.go:21-28 | a valid manager over a fresh tunnel pool |
| TunnelManager.Put | vendor/github.com/ooclab/es/tunnel/manager.go:39-44 | storing an updated tunnel keeps the manager valid and the set of tunnel IDs |
| TunnelManager.HandleIn | vendor/github.com/ooclab/es/tunnel/manager.go:30-62 | too short is rejected; data for an unknown tunnel is "can not find tunnel"; a close succeeds exactly for a known tunnel, else "no such tunnel"; other types are "unknown tunnel msg type"; no tunnel is added or removed |
| TunnelManager.ListenRegistered | vendor/github.com/ooclab/es/tunnel/manager.go:72-79 | a tunnel just registered is started listening: on success it stays registered and the listener is recorded; on a returned failure it is unregistered and the pool is as before; the process ends only on an unresolvable free address |
| TunnelManager.TunnelCreate | vendor/github.com/ooclab/es/tunnel/manager.go:64-80 | on success the tunnel is new, registered and listening; on a returned failure the tunnel map and listen pool are as before; an unsupported protocol panics, and otherwise the process ends only when a forward tunnel's free address does not resolve |
| TunnelManager.UnresolvedCreateExits | vendor/github.com/ooclab/es/tunnel/manager.go:64-80 | creating a forward tunnel with an available ID on a free address that does not resolve ends the process instead of returning |
| TunnelManager.ReverseCreateSucceeds | vendor/github.com/ooclab/es/tunnel/manager.go:64-80 | a reverse tunnel with a free ID is always created and leaves the listen pool alone |
| TunnelManager.Close | vendor/github.com/ooclab/es/tunnel/manager.go:82-87 | closing deletes every listener of the pool |
| Router.Anchor | vendor/github.com/ooclab/es/session/router.go:37-46 | the pattern built from an action starts with "^" and ends with "$", contains the action, and is the action itself when it is already anchored |
| Router.AnchorIdempotent | vendor/github.com/ooclab/es/session/router.go:38-46 | anchoring a pattern that `AddRoute` built leaves it unchanged |
| Router.AddRouteEntry | vendor/github.com/ooclab/es/session/router.go:47-52 | a route whose pattern compiles is appended with that pattern; one whose pattern does not compile leaves the router unchanged |
| Router.AddRoutesAppends | vendor/github.com/ooclab/es/session/router.go:55-59 | `AddRoutes` appends the compiling routes after the existing ones, in the order given |
| Router.CompiledAnchored | vendor/github.com/ooclab/es/session/router.go:37-59 | every pattern a router holds is anchored at both ends |
| Router.Dispatch | vendor/github.com/ooclab/es/session/router.go:61-71 | the result is "no such handler" exactly when no pattern matches the action; otherwise it is the route of a matching pattern |
| Router.LiteralMatch | vendor/github.com/ooclab/es/session/router.go:37-66 | the route of an action without metacharacters matches a request exactly when the request action equals that action |
| Handler.NewRequestHandler | vendor/github.com/ooclab/es/link/handler.go:15-24 | the router holds "/echo" first, then the caller's routes, all anchored |
| Handler.DefaultEntries | vendor/github.com/ooclab/es/link/link.go:114-118 | when no handler is given, the link's router holds exactly the "/echo" and "/tunnel" routes, in that order |
| Handler.DefaultDispatch | vendor/github.com/ooclab/es/link/link.go:114-118 | the default router accepts "/echo" and "/tunnel", sends each to its own handler, and rejects every other action |
| Handler.HandleEcho | vendor/github.com/ooclab/es/link/handler.go:55-57 | the echo reply has status "success" and the request's body unchanged |
| Handler.HandleTunnelCreate | vendor/github.com/ooclab/es/link/handler.go:59-83 | an undecodable or null configuration and a creation that returns a failure panic on the nil response; a creation that blocks or ends the program does so here too; success replies "success" with the new tunnel's ID and keeps the manager valid |
| Handler.Handle | vendor/github.com/ooclab/es/link/handler.go:26-53 | the reply is a response with the request's ID; an undecodable request and a failed dispatch get their error statuses with the state unchanged; an echo gets the echo reply |
| Handler.HandleRoutesTunnel | vendor/github.com/ooclab/es/link/handler.go:34-52 | a request routed to "/tunnel" is answered with the JSON of the creation handler's response and the state that handler leaves |
| Handler.HandleTunnelNotDone | vendor/github.com/ooclab/es/link/handler.go:34-40 | when the creation handler blocks or panics, so does the reply |
| Handler.EchoRoundTrip | vendor/github.com/ooclab/es/link/handler.go:26-57 | an "/echo" request to the default router is answered with the same ID and a response that decodes to "success" with the request body, and the state is unchanged |
| Link.NewLink | vendor/github.com/ooclab/es/link/link.go:89-121 | a missing configuration counts as empty; a zero keep-alive interval becomes 30 seconds and a zero write timeout 10 seconds; the link starts valid with empty queues and fresh managers |
| Link.Enqueue | vendor/github.com/ooclab/es/link/link.go:283 | a send on the closed outbound channel panics; otherwise the messages are appended to the queue |
| Link.PingFrame | vendor/github.com/ooclab/es/link/link.go:199-202 | a ping request is five bytes: the ping-request kind, then the ping ID little-endian |
| Link.PingStart | vendor/github.com/ooclab/es/link/link.go:193-202 | `Ping` takes the current ID, advances the counter with 32-bit wrap-around, marks the ID pending and queues its request; it panics once the link is closed |
| Link.PingTimeout | vendor/github.com/ooclab/es/link/link.go:210-214 | on timeout the ID is no longer pending and nothing else changes |
| Link.HandlePing | vendor/github.com/ooclab/es/link/link.go:359-372 | a payload that is not four bytes is rejected; a pending ID is cleared and its waiter released; an unknown ID is ignored |
| Link.SessionHandlerValid | vendor/github.com/ooclab/es/link/link.go:114-119 | the request handler the link installs keeps the tunnel manager valid |
| Link.RecvSession | vendor/github.com/ooclab/es/link/link.go:278-279 | a session message keeps the link valid and only appends to the outbound queue |
| Link.RecvOne | vendor/github.com/ooclab/es/link/link.go:272-294 | an empty message panics on the kind index; otherwise the link stays valid and the outbound queue only grows |
| Link.RecvOneDispatch | vendor/github.com/ooclab/es/link/link.go:276-290 | a ping request queues a ping response with the same payload; a ping response goes to `handlePing`; a tunnel message goes to the tunnel manager; an unknown kind is an error |
| Link.PingRoundTrip | vendor/github.com/ooclab/es/link/link.go:188-202 | the peer answers a ping request with exactly one response, and that response releases exactly the pending ID |
| Link.RecvLoop | vendor/github.com/ooclab/es/link/link.go:258-296 | an empty input blocks; a failed read ends the loop with its error; a handler's error ends it with that error, and a handler's panic propagates; every input before the stopping one was a message; the link stays valid |
| Link.RecvLoopContinues | vendor/github.com/ooclab/es/link/link.go:274-294 | a message whose handler succeeds does not end the loop: it goes on from the updated link and stops where the rest stops, with one more input consumed |
| Link.RecvLoopStopsAtError | vendor/github.com/ooclab/es/link/link.go:260-294 | inputs after the one that stopped the loop are never looked at |
| Link.SendStep | vendor/github.com/ooclab/es/link/link.go:298-320 | the loop waits exactly when the queue is open and drained and the link is not stopped; a stop or shutdown ends it with nil unless the select takes the queue; a closed, drained queue taken yields the nil error; a queued message taken fails exactly when the write fails, and otherwise advances the queue by one; the frame is a header holding the length modulo 65536 and the message, and a message of at most 65535 bytes reads back whole |
| Link.SendStepOversize | vendor/github.com/ooclab/es/conn.go:51-70 | a queued 65536-byte message is written with header 0 and the loop carries on, so the peer reads an empty message |
| Link.Close | vendor/github.com/ooclab/es/link/link.go:146-161 | the link is shut down and its outbound queue closed; a first close empties the listen pool and the session pool; a second close changes nothing |
| Link.Stop | vendor/github.com/ooclab/es/link/link.go:174-185 | closing the stop channel before `Bind` panics; otherwise the link is marked stopped |
| Link.StopIdempotent | vendor/github.com/ooclab/es/link/link.go:174-178 | stopping a bound link twice is the same as stopping it once |
| Link.Bind | vendor/github.com/ooclab/es/link/link.go:323-347 | a bound link has a fresh, open stop channel and one pending ping; binding a closed link panics |
| Link.Wait | vendor/github.com/ooclab/es/link/link.go:350-356 | after `Wait` the stop channel is gone, so a later `Stop` panics |
| Link.Keepalive | vendor/github.com/ooclab/es/link/link.go:227-251 | a ping is sent exactly when the idle time exceeds the interval, and the next wake-up is then 6 seconds away; only a failed ping past 60 seconds of idleness stops the link; otherwise the next wake-up is when the interval expires |
| Link.KeepaliveDefaults | vendor/github.com/ooclab/es/link/link.go:94-96 | with the defaults, a silent link is pinged only after 30 seconds and is never stopped while its pings succeed |
| Stream.Read | vendor/github.com/ooclab/es/conn.go:77-87 | one read hands back at most the free room, taking the bytes off the front of the stream in order |
| Stream.ReliableRead | vendor/github.com/ooclab/es/conn.go:79-86 | on a connection that never fails a read, a read with room and data pending delivers at least one byte |
| Stream.MustRecv | vendor/github.com/ooclab/es/conn.go:77-87 | a successful call returns exactly the next `dlen` bytes of the stream and leaves the rest; a reliable connection holding enough data always succeeds; a first read that fails aborts with its error |
| ConnConfig.ConnType | server/server.go:111-117 | the connection is AES exactly when a secret is given, TLS exactly when there is no secret and both certificate and key are given, and plain otherwise |
| ConnConfig.NewServer | server/server.go:90-120 | the listen address is the first argument, or ":10000" when that is empty; the other settings are kept and the connection type is chosen from them |
| ConnConfig.Start | server/server.go:124-133 | "tcp" starts the TCP server, "kcp" the KCP server, and any other transport starts nothing |
| ConnConfig.PeersChooseSameConnType | client/client.go:133-139 | a client and a server whose certificate settings agree in presence choose the same connection type exactly when both or neither have a secret |
| ConnConfig.NewClient | client/client.go:108-142 | without arguments there is no client and the error is "NEED server address"; otherwise the first argument is the server address, taken as given, and the connection type is chosen like the server's |
| TunnelSpec.Split | pkg/client/client.go:196 | the pieces contain no colon, and there is always at least one |
| TunnelSpec.SplitJoin | pkg/client/client.go:196 | joining the pieces with ":" gives back the original text |
| TunnelSpec.JoinSplit | pkg/client/client.go:196 | colon-free pieces joined with ":" split back into the same pieces |
| TunnelSpec.Direction | pkg/client/client.go:209-217 | "r" and "R" mean reverse, "f" and "F" mean forward, and nothing else is accepted |
| TunnelSpec.TrimSpace | pkg/client/client.go:219 | the result has no white space at either end, is empty only for all-space text, and text with no white space is left unchanged |
| TunnelSpec.ToLower | pkg/client/client.go:219 | ASCII capitals become lower case and every other character is kept in place |
| TunnelSpec.NormalizeProto | pkg/client/client.go:219-222 | the protocol is never empty; an empty field reads as "tcp" |
| TunnelSpec.NormalizeKnown | pkg/client/client.go:219-225 | "tcp" and "udp" are already normal |
| TunnelSpec.Widen | pkg/client/client.go:198-201 | a 5-field spec gets "tcp" inserted as the second field; any other spec is left as it is |
| TunnelSpec.Parse | pkg/client/client.go:195-239 | a spec with neither 5 nor 6 fields is "tunnel map is wrong"; a parsed spec has protocol tcp or udp, the direction of the first field, and the hosts and ports of its fields |
| TunnelSpec.ParseFields | pkg/client/client.go:203-238 | the six fields are checked in the client's order: the direction, then the protocol, then the two ports; a result carries exactly what the fields say |
| TunnelSpec.ParseLegacy | client/client.go:307-336 | the legacy parser needs exactly five fields and returns the direction, hosts and ports they give |
| TunnelSpec.ParseFormat | pkg/client/client.go:195-239 | every tcp or udp spec with colon-free hosts and `int`-sized ports parses back from its written form |
| TunnelSpec.ParseLegacyFormat | client/client.go:307-336 | the legacy parser reads back every written 5-field spec |
| TunnelSpec.FiveFieldsAgree | pkg/client/client.go:198-201 | on a 5-field spec the current client agrees with the legacy one, with protocol "tcp", and fails exactly when the legacy one fails |
| TunnelSpec.TcpInserted | pkg/client/client.go:198-201 | a 5-field spec means the same as the 6-field spec with "tcp" as its second field |
| OpenTunnel.TunnelRequest | vendor/github.com/ooclab/es/link/request.go:15-34 | the request goes to "/tunnel" and its body decodes to the mirror image of the configuration |
| OpenTunnel.OpenTunnel | vendor/github.com/ooclab/es/link/request.go:12-67 | on a closed outbound queue the request's send panics; otherwise one session is allocated and one request is sent on it; a reply other than "success" is "open tunnel in the remote endpoint failed"; any failure leaves no local tunnel; success creates the local tunnel from the configuration, under the ID the far endpoint returned |
| OpenTunnel.PeerCreatesMirror | vendor/github.com/ooclab/es/link/handler.go:59-83 | the far endpoint's default handler creates the mirrored tunnel under a nonzero ID and replies "success" with that ID |
| OpenTunnel.LocalAdoptsID | vendor/github.com/ooclab/es/link/request.go:46-61 | after a "success" reply carrying a nonzero ID, the local tunnel holds the requested configuration under that ID |
| OpenTunnel.MirroredTunnels | vendor/github.com/ooclab/es/link/request.go:12-67 | when the far endpoint serves the request, both endpoints end up holding the tunnel under the same ID, each configuration the mirror image of the other |
| UdpSegment.Encode | vendor/github.com/ooclab/es/proto/udp/segment.go:75-83 | each header field reads back as the value written: version 0, then type, flags, stream ID, transaction ID, order ID and length |
| UdpSegment.EncodeFields | vendor/github.com/ooclab/es/proto/udp/segment.go:50-83 | a version-0 header is rebuilt exactly by encoding the fields read from it |
| UdpSegment.SegmentBytes | vendor/github.com/ooclab/es/proto/udp/segment.go:90-96 | the wire form is the header followed by the body, and it is `length()` bytes long |
| UdpSegment.NewSegment | vendor/github.com/ooclab/es/proto/udp/segment.go:99-110 | a body over 1386 bytes is refused with "segment body is too large"; otherwise the header records every field and the body length, and the segment fits 1400 bytes |
| UdpSegment.Discard | vendor/github.com/ooclab/es/proto/udp/segment.go:117-120 | a constructor that drops the error yields no segment exactly when `newSegment` refused the body |
| UdpSegment.NewSYNSegment | vendor/github.com/ooclab/es/proto/udp/segment.go:112-115 | the SYN segment has type 1 and carries the handshake key "ES HANDSHAKE" |
| UdpSegment.NewACKSegment | vendor/github.com/ooclab/es/proto/udp/segment.go:117-120 | the ACK segment has type 2 and carries the key; there is none for a key over 1386 bytes |
| UdpSegment.NewPingReqSegment | vendor/github.com/ooclab/es/proto/udp/segment.go:122-127 | the ping request has type 3 and a 4-byte body that reads back big-endian as the ping ID |
| UdpSegment.NewPingRepSegment | vendor/github.com/ooclab/es/proto/udp/segment.go:129-132 | the ping reply has type 4 and carries the given body; there is none for a body over 1386 bytes |
| UdpSegment.NewReqSegment | vendor/github.com/ooclab/es/proto/udp/segment.go:134-137 | the request segment has type 5 and carries the given body; there is none for a body over 1386 bytes |
| UdpSegment.NewRepSegment | vendor/github.com/ooclab/es/proto/udp/segment.go:139-142 | the reply segment has type 6 and carries the given body; there is none for a body over 1386 bytes |
| UdpSegment.NewSingleSegment | vendor/github.com/ooclab/es/proto/udp/segment.go:144-151 | no size check is made, so the length field holds the body length truncated to 16 bits |
| UdpSegment.LoadSegment | vendor/github.com/ooclab/es/proto/udp/segment.go:153-164 | input shorter than a header panics on the slice; any other input splits into a segment whose wire form is exactly that input |
| UdpSegment.LoadSegmentBytes | vendor/github.com/ooclab/es/proto/udp/segment.go:90-164 | loading a segment's wire form gives the segment back |
| UdpUtil.Swap | vendor/github.com/ooclab/es/proto/udp/util.go:9-11 | the two positions exchange their elements, every other position is kept, and the elements stay the same multiset |
| UdpUtil.SwapTwice | vendor/github.com/ooclab/es/proto/udp/util.go:9-11 | swapping the same pair twice restores the slice |
| UdpUtil.LessStrictOrder | vendor/github.com/ooclab/es/proto/udp/util.go:12-14 | `Less` is irreflexive and transitive, so it is a strict order `sort.Sort` may rely on |
| UdpMessage.NewMsgSending | vendor/github.com/ooclab/es/proto/udp/udp.go:179-192 | the stored message is the original behind four bytes that read back big-endian as the original length plus 4, truncated to 32 bits |
| UdpMessage.SegmentCount | vendor/github.com/ooclab/es/proto/udp/udp.go:194-201 | for a message short enough that the count fits 16 bits, the count is the number of 1386-byte pieces rounded up, and at least one for a non-empty message |
| UdpMessage.CountedChunkStarts | vendor/github.com/ooclab/es/proto/udp/udp.go:194-212 | every order ID below the count, even a truncated count, starts inside the message |
| UdpMessage.SegmentAt | vendor/github.com/ooclab/es/proto/udp/udp.go:207-214 | segment `i` carries order ID `i`, a non-empty body, and the message's type, flags, stream and transaction IDs |
| UdpMessage.IterBufferd | vendor/github.com/ooclab/es/proto/udp/udp.go:203-220 | the segments come out with order IDs 0 up to the count, in order |
| UdpMessage.GetSegmentByOrderID | vendor/github.com/ooclab/es/proto/udp/udp.go:222-231 | an order ID whose start lies past the end of the message panics on the slice; any other ID yields its chunk under that ID |
| UdpMessage.GetSegmentMatchesIter | vendor/github.com/ooclab/es/proto/udp/udp.go:203-231 | fetching a segment by its order ID gives the segment `IterBufferd` yields at that position |
| UdpMessage.ChunkRange | vendor/github.com/ooclab/es/proto/udp/udp.go:207-212 | segment `i` is the slice from i*1386 up to 1386 bytes later or the end of the message |
| UdpMessage.IterPrefix | vendor/github.com/ooclab/es/proto/udp/udp.go:203-220 | the first k segments carry, in order, the first min(k*1386, length) bytes of the message |
| UdpMessage.IterBufferdConcat | vendor/github.com/ooclab/es/proto/udp/udp.go:203-220 | joined in order, the segments give back the stored message |
| UdpMessage.SegmentsCarryMessage | vendor/github.com/ooclab/es/proto/udp/udp.go:179-220 | joined in order, with the 4-byte count dropped, the segments give back the original message |
| UdpMessage.NewMsgRecving | vendor/github.com/ooclab/es/proto/udp/udp.go:79-83 | a new receiver has nothing saved, nothing buffered, no count, and is not complete |
| UdpMessage.Scan | vendor/github.com/ooclab/es/proto/udp/udp.go:93-97 | the IDs in the range whose presence is as asked, each exactly once, in ascending order |
| UdpMessage.GetMissing | vendor/github.com/ooclab/es/proto/udp/udp.go:85-100 | after completion nothing is missing; before it, the largest order ID seen and, ascending, exactly the IDs from `nextID` up to it that are not saved |
| UdpMessage.Accept | vendor/github.com/ooclab/es/proto/udp/udp.go:110-141 | a fresh segment adds its length to the 32-bit byte count and raises the largest ID seen; one ahead of `nextID` is only saved; a first segment shorter than the count panics |
| UdpMessage.Save | vendor/github.com/ooclab/es/proto/udp/udp.go:103-162 | a stale or duplicate segment changes nothing and returns nothing; otherwise the message is returned exactly when the count is known and reached, and it is the whole buffer |
| UdpMessage.SaveInOrder | vendor/github.com/ooclab/es/proto/udp/udp.go:103-162 | saving a sequence of segments yields one result per segment |
| UdpMessage.DrainAdvances | vendor/github.com/ooclab/es/proto/udp/udp.go:127-135 | the drain loop moves `nextID` past every consecutive saved segment and stops at the first missing one, leaving exactly the later segments saved |
| UdpMessage.DrainBuffers | vendor/github.com/ooclab/es/proto/udp/udp.go:127-135 | after the drain loop the buffer holds, in order, the bodies of every segment before the new `nextID`, without the count |
| UdpMessage.CountNoWrap | vendor/github.com/ooclab/es/proto/udp/udp.go:110 | for a message under 4 GiB the 32-bit byte count never wraps: it is the total body length of the segments received |
| UdpMessage.AcceptNext | vendor/github.com/ooclab/es/proto/udp/udp.go:115-135 | the segment `nextID` waits for is written to the buffer, and every saved segment that follows it moves from the map into the buffer |
| UdpMessage.AcceptLater | vendor/github.com/ooclab/es/proto/udp/udp.go:136-138 | a segment beyond `nextID` waits in the map and the buffer is unchanged |
| UdpMessage.AcceptKeeps | vendor/github.com/ooclab/es/proto/udp/udp.go:103-138 | taking in any segment not yet received keeps the receiver consistent with the set of segments received |
| UdpMessage.InvComplete | vendor/github.com/ooclab/es/proto/udp/udp.go:141 | the completion test passes exactly when every segment has been received |
| UdpMessage.InvCovered | vendor/github.com/ooclab/es/proto/udp/udp.go:141-157 | once every segment is in, the buffer followed by the saved bodies in ascending order is the message without its count |
| UdpMessage.SaveStep | vendor/github.com/ooclab/es/proto/udp/udp.go:103-162 | saving a segment not yet received returns the message without its count when it is the last one, and nothing before that |
| UdpMessage.SaveRemaining | vendor/github.com/ooclab/es/proto/udp/udp.go:103-162 | saving the segments still missing, in any order, returns nothing until the last one, which returns the message without its count |
| UdpMessage.ReassembleAnyOrder | vendor/github.com/ooclab/es/proto/udp/udp.go:103-162 | a fresh receiver fed a message's segments in any order returns nothing until the last save, which returns the message without its count |
| UdpMessage.FirstSegmentCount | vendor/github.com/ooclab/es/proto/udp/udp.go:182-212 | segment 0 holds the whole 4-byte count |
| UdpMessage.PrefixedReassemblable | vendor/github.com/ooclab/es/proto/udp/udp.go:194-220 | a message that starts with its own length is cut into segments a receiver can put back together |
| UdpMessage.SendingReassemblable | vendor/github.com/ooclab/es/proto/udp/udp.go:179-220 | what the sender produces for a message of bounded size can be put back together |
| UdpMessage.SendReceiveRoundTrip | vendor/github.com/ooclab/es/proto/udp/udp.go:103-220 | the sender's segments, saved by a fresh receiver in any order, give back the original message at the last save and nothing before it |

## Left out

- Sockets and process plumbing are not modelled:
  - dial, listen, accept, TLS and KCP setup, pprof and the reconnect loops of both clients and the server;
  - the accept loop of `listenTCP`;
  - the goroutines started by `Link.Bind` and `newLink`.

  Each socket outcome a modelled operation depends on is a parameter: a write's count and error, a dial, an address resolution and a bind, or the `Read` script of a `Stream.Reader`.
- Concurrency and time are not modelled, because the model is sequential: mutexes, `select`, `time.After`, and the RTT returned by `Ping`. Where a `select` has several ready cases, the model takes one outcome Go allows; `Link.SendStep` takes the choice as its `takeQueue` input.
  - `Ping` is split into `Link.PingStart` and `Link.PingTimeout`.
  - The keep-alive loop is one step (`Link.Keepalive`), taking the idle time as an input.
  - The receive and send loops are `Link.RecvLoop` over a finite input and `Link.SendStep`.
- Cryptography is not modelled, because it is a cipher over the same bytes:
  - `SafeConn` and the cipher branch of `common/emsg/conn.go`;
  - `ecrypt`;
  - the PBKDF2 `GenSecret` of the current client. `ConnConfig.NewClient` takes the derived key as given.
- `encoding/json` is a `Codec` parameter. The only assumption made about it is that every encoded value decodes back (`Json.RoundTrips`). The JSON literal `null` decodes to `Ok(None)`, because it leaves the Go pointer nil.
- `regexp` is a `Regex` parameter. Patterns without metacharacters match literally. Compilation, and matching of patterns with metacharacters, are supplied.
- Router.Dispatch: Go ranges over the `reMatch` map in an unspecified order. The model returns the first match in registration order, which is one of the outcomes Go allows. The contract states only that some matching route is returned.
- Handler.HandleTunnelCreate: the error branches assign a status through the nil response pointer, so they are modelled as panics, not as replies. The same applies to a request that decodes to `null` in `Handler.Handle`.
- Tunnel.Listen: `listenUDP` passes network "tcp" to `net.ListenUDP`, which rejects it. A UDP listen whose key is free therefore either exits the process (the address does not resolve) or fails. The key it checks is `UDPKey` as written, the address's TCP key. Whether a host name resolves is the `hostResolves` input; the port range check is written out.
- Errors are represented by their own message text. The prefixes Go's wrappers add are not modelled: `strconv.Atoi: parsing "<s>": ` in front of `Decimal.Atoi`'s errors, and `listen tcp <addr>: ` in front of the UDP listen's "unknown network tcp".
- `channel/udp.go` and the UDP `Conn` are not part of this model. `ChannelPool.NewByID` always builds a TCP channel. The UDP `Conn` covers handshake, retransmission, query/received, ping loop and garbage collection.
- IdAlloc.NextFree: the Go loop searches forever. The model bounds the search by the length of the cursor's cycle. When the bound is exhausted, which is exactly when Go would spin forever, the allocating operations return `Blocks` or `None`.
- UdpUtil.Len: `Len` is the sequence length. It has no property beyond that.
- UdpUtil.Swap: `Swap` requires both indices in range. `sort.Sort` never calls it otherwise, and Go would panic.
- UdpMessage.IsCompleted: it returns the `completed` flag. `UdpMessage.Save` states when that flag is set.
- TunnelSpec.ToLower: only ASCII letters are lower-cased. Go's `unicode.ToLower` also maps non-ASCII letters. None of them lower-cases to a letter of "tcp" or "udp", so `TunnelSpec.Parse` accepts and rejects the same fields either way.
- Link.RecvLoop: the contract does not state the full content of the outbound queue after many messages. The one-message contracts of `Link.RecvOne` and `Link.RecvOneDispatch` state it per message.
- The capacity of the outbound channel is not modelled. A send on an open link never blocks. Operations that send on it take the link's `outClosed` flag and panic (or, where Go recovers, queue nothing) when it is set.
- The command-line entry points and flag wiring are not modelled. The handshakes and JSON-over-socket files are not part of this model.

## Findings

| source | as written | input that shows it | evidently intended | confidence | as-written member | corrected member |
|---|---|---|---|---|---|---|
| vendor/github.com/ooclab/es/conn.go:52-55 | the size guard converts the length to `uint16` before comparing it with 65535, so it never fires; the header then holds the length modulo 65536 | a message of 65536 bytes is sent with header 0, and the peer reads an empty message followed by the body as garbage frames | messages over 65535 bytes are refused with "max length limit" | not executed | EsConn.OversizeMessageMisframed | EsConn.SendChecked |
| vendor/github.com/ooclab/es/tunnel/listen_pool.go:80-82 | `UDPKey` builds its key with the "tcp:" prefix | `UDPKey("h", 1) == TCPKey("h", 1)`, so a UDP listen on an address refuses to coexist with a TCP listener on it | the UDP key uses its own "udp:" prefix, so the two protocols never collide | not executed | Tunnel.UDPRefusedBesideTCP | ListenPool.ListenKeySeparatesProtocols |

The link's send loop (`Link.SendStep`) and `Tunnel.Listen` keep the code as written, so the model shows what each bug does where it occurs: `Link.SendStepOversize` for the first, `Tunnel.UDPRefusedBesideTCP` for the second. The messages a TCP channel queues are at most 16 394 bytes, a forward frame of a full 16 KiB read, so the misframing cannot arise from forwarded traffic.

=== FILE: bytes.dfy ===
/** Byte-level vocabulary: Go's fixed-width unsigned integers as subset types and
    the `encoding/binary` big- and little-endian conversions the wire formats use.
 */
module Bytes {

  type byte = x: int | 0 <= x < 0x100
  type uint16 = x: int | 0 <= x < 0x1_0000
  type uint32 = x: int | 0 <= x < 0x1_0000_0000
  type uint64 = x: int | 0 <= x < 0x1_0000_0000_0000_0000
  type bytes = seq<byte>

  const UINT16_LIMIT: int := 0x1_0000
  const UINT32_LIMIT: int := 0x1_0000_0000
  const UINT64_LIMIT: int := 0x1_0000_0000_0000_0000

  /** Go's `uint32(x + y)`: addition modulo 2^32. */
  function AddU32(x: uint32, y: int): uint32
    requires y >= 0
  {
    (x + y) % UINT32_LIMIT
  }

  /** Go's `uint16(x + 1)`: increment modulo 2^16. */
  function IncU16(x: uint16): uint16 {
    (x + 1) % UINT16_LIMIT
  }

  /** `binary.BigEndian.PutUint16`. */
  function BE16(v: uint16): (r: bytes)
    ensures |r| == 2
  {
    [v / 0x100, v % 0x100]
  }

  /** `binary.BigEndian.Uint16` on the first two bytes. */
  function ReadBE16(b: bytes): uint16
    requires |b| >= 2
  {
    (b[0] as int) * 0x100 + (b[1] as int)
  }

  /** `binary.BigEndian.PutUint32`: high half first. */
  function BE32(v: uint32): (r: bytes)
    ensures |r| == 4
  {
    BE16(v / 0x1_0000) + BE16(v % 0x1_0000)
  }

  /** `binary.BigEndian.Uint32` on the first four bytes. */
  function ReadBE32(b: bytes): uint32
    requires |b| >= 4
  {
    (ReadBE16(b[..2]) as int) * 0x1_0000 + (ReadBE16(b[2..4]) as int)
  }

  /** `binary.LittleEndian.PutUint32`: the big-endian bytes reversed. */
  function LE32(v: uint32): (r: bytes)
    ensures |r| == 4
  {
    var be := BE32(v);
    [be[3], be[2], be[1], be[0]]
  }

  /** `binary.LittleEndian.Uint32` on the first four bytes. */
  function ReadLE32(b: bytes): uint32
    requires |b| >= 4
  {
    ReadBE32([b[3], b[2], b[1], b[0]])
  }

  lemma BE16RoundTrip(v: uint16)
    ensures ReadBE16(BE16(v)) == v
  {
  }

  lemma BE16Inverse(b: bytes)
    requires |b| == 2
    ensures BE16(ReadBE16(b)) == b
  {
  }

  /** Decoding a big-endian encoding gives back the value. */
  lemma BE32RoundTrip(v: uint32)
    ensures ReadBE32(BE32(v)) == v
  {
    var e := BE32(v);
    assert e[..2] == BE16(v / 0x1_0000);
    assert e[2..4] == BE16(v % 0x1_0000);
    BE16RoundTrip(v / 0x1_0000);
    BE16RoundTrip(v % 0x1_0000);
  }

  /** Re-encoding any four bytes read big-endian reproduces them. */
  lemma BE32Inverse(b: bytes)
    requires |b| == 4
    ensures BE32(ReadBE32(b)) == b
  {
    var hi := ReadBE16(b[..2]);
    var lo := ReadBE16(b[2..4]);
    var v := ReadBE32(b);
    assert v / 0x1_0000 == hi && v % 0x1_0000 == lo;
    BE16Inverse(b[..2]);
    BE16Inverse(b[2..4]);
    assert b == b[..2] + b[2..4];
  }

  lemma LE32RoundTrip(v: uint32)
    ensures ReadLE32(LE32(v)) == v
  {
    var be := BE32(v);
    assert [LE32(v)[3], LE32(v)[2], LE32(v)[1], LE32(v)[0]] == be;
    BE32RoundTrip(v);
  }

  lemma LE32Inverse(b: bytes)
    requires |b| == 4
    ensures LE32(ReadLE32(b)) == b
  {
    var r := [b[3], b[2], b[1], b[0]];
    BE32Inverse(r);
  }

  /** Different values have different big-endian encodings. */
  lemma BE32Injective(v: uint32, w: uint32)
    requires BE32(v) == BE32(w)
    ensures v == w
  {
    BE32RoundTrip(v);
    BE32RoundTrip(w);
  }

  lemma LE32Injective(v: uint32, w: uint32)
    requires LE32(v) == LE32(w)
    ensures v == w
  {
    LE32RoundTrip(v);
    LE32RoundTrip(w);
  }
}

=== FILE: channel.dfy ===
/** `tcpChannel`: one forwarded TCP connection of a tunnel.

    The socket is abstract: a write reports how many bytes it wrote and
    whether it failed, a read delivers bytes or fails, and the model counts
    how often the socket has been closed. */
module Channel {
  import opened Bytes
  import opened Wrappers
  import opened Kinds
  import opened TunnelMsg

  const ErrWritePayload := "write payload error"

  datatype Channel = Channel(
    tid: uint32,
    cid: uint32,
    recv: uint64,
    send: uint64,
    closed: bool,
    closedByRemote: bool,
    connCloses: nat)

  /** The outcome of `conn.Write`. */
  datatype WriteResult = Wrote(n: nat) | WriteFailed(n: nat, error: string)

  /** The outcome of `conn.Read`. `closedConn` is `TCPisClosedConnError(err)`. */
  datatype ReadResult = Data(b: bytes) | ReadFailed(error: string, closedConn: bool)

  /** A channel as `NewByID` creates it. */
  function NewChannel(tid: uint32, cid: uint32): (c: Channel)
    ensures c.tid == tid && c.cid == cid && !c.closed && !c.closedByRemote
    ensures c.recv == 0 && c.send == 0 && c.connCloses == 0
  {
    Channel(tid, cid, 0, 0, false, false, 0)
  }

  /** `Close`: the socket is closed on the first call only. */
  function Close(c: Channel): (r: Channel)
    ensures r.closed
    ensures r.connCloses == (if c.closed then c.connCloses else c.connCloses + 1)
    ensures r.(closed := c.closed, connCloses := c.connCloses) == c
  {
    if c.closed then c else c.(closed := true, connCloses := c.connCloses + 1)
  }

  /** However often `Close` is called, the socket is closed at most once. */
  lemma CloseIdempotent(c: Channel)
    requires c.connCloses == 0
    ensures Close(Close(c)) == Close(c) && Close(c).connCloses <= 1
  {
  }

  /** `SetClosedByRemote`. */
  function SetClosedByRemote(c: Channel): (r: Channel)
    ensures IsClosedByRemote(r)
    ensures r.(closedByRemote := c.closedByRemote) == c
  {
    c.(closedByRemote := true)
  }

  predicate IsClosedByRemote(c: Channel) {
    c.closedByRemote
  }

  /** `HandleIn`: write the payload to the socket. A write error is reported and
      leaves the counter alone; a short write without error is only logged, and
      the counter grows by the bytes actually written. */
  function HandleIn(c: Channel, m: TMSG, w: WriteResult): (r: Result<Channel>)
    ensures w.WriteFailed? <==> r.Err?
    ensures r.Err? ==> r.error == ErrWritePayload
    ensures r.Ok? ==> r.value == c.(send := (c.send + w.n) % UINT64_LIMIT)
  {
    match w
    case WriteFailed(_, _) => Err(ErrWritePayload)
    case Wrote(n) => Ok(c.(send := (c.send + n) % UINT64_LIMIT))
  }

  /** The message a read of `b` turns into: the tunnel kind byte, then a
      ChannelForward TMSG with this channel's IDs and the bytes read. */
  function ForwardFrame(k: Kinds, c: Channel, b: bytes): (f: bytes)
    ensures |f| == 1 + MinLength + |b| && f[0] == k.tunnel
    ensures Decode(f[1..]) == Ok(TMSG(k.channelForward, c.tid, c.cid, b))
  {
    var m := TMSG(k.channelForward, c.tid, c.cid, b);
    DecodeEncode(m);
    assert ([k.tunnel] + Encode(m))[1..] == Encode(m);
    [k.tunnel] + Encode(m)
  }

  /** The size of the buffer `Serve` reads into: no read delivers more. */
  const ReadBufferSize: nat := 1024 * 16

  /** The longest message `Serve` queues: a forward frame of a full buffer. */
  const MaxForwardFrame: nat := 1 + MinLength + ReadBufferSize

  /** Reads as a socket delivers them into `Serve`'s buffer. */
  predicate FitsBuffer(script: seq<ReadResult>) {
    forall i :: 0 <= i < |script| && script[i].Data? ==> |script[i].b| <= ReadBufferSize
  }

  /** `after` is `out` followed by one forward frame per read of `script`, in
      order, and the read that follows those reads failed. */
  predicate ForwardsReads(k: Kinds, c: Channel, script: seq<ReadResult>, out: Outbound, after: Outbound) {
    && |out| <= |after| && after[..|out|] == out
    && |after| - |out| < |script| && script[|after| - |out|].ReadFailed?
    && forall i :: 0 <= i < |after| - |out| ==>
         script[i].Data? && after[|out| + i] == ForwardFrame(k, c, script[i].b)
  }

  /** The bytes delivered by the successful reads of `script`. */
  function DataBytes(script: seq<ReadResult>): nat
    decreases |script|
  {
    if |script| == 0 then 0
    else (if script[0].Data? then |script[0].b| else 0) + DataBytes(script[1..])
  }

  /** A read that fails somewhere in the script. */
  predicate HasFailure(script: seq<ReadResult>) {
    exists i :: 0 <= i < |script| && script[i].ReadFailed?
  }

  /** The state `Serve` leaves behind. */
  datatype Served = Served(result: Result<Unit>, c: Channel, out: Outbound)

  /** `s` is what `Serve` leaves when read `n` is the first to fail, `n` being
      the number of frames it queued after `out`: the result is nil exactly
      when the channel was already closed or the error says the connection is
      closed, and is that error otherwise; the channel is closed, and its recv
      counter has grown by the bytes of the `n` reads before, modulo 2^64. */
  predicate StopsAtFailure(c: Channel, script: seq<ReadResult>, out: Outbound, s: Served) {
    var n := |s.out| - |out|;
    && 0 <= n < |script| && script[n].ReadFailed?
    && (s.result.Ok? <==> c.closed || script[n].closedConn)
    && (s.result.Err? ==> s.result.error == script[n].error)
    && s.c == Close(c.(recv := (c.recv + DataBytes(script[..n])) % UINT64_LIMIT))
  }

  /** `Serve`: pump socket reads into the outbound queue until a read fails.
      A failure after the channel was closed, or a closed-connection error, ends
      the loop with nil; any other error, EOF included, is returned. When the
      link's outbound queue is closed (`outClosed`), the first read's send
      panics and the deferred recovery ends `Serve` with nil. On return the
      channel is closed, and each read before the failing one has added its
      length to the recv counter. `Blocks` when the reads run out before a failure. */
  function Serve(k: Kinds, c: Channel, script: seq<ReadResult>, out: Outbound, outClosed: bool): (r: Step<Served>)
    requires FitsBuffer(script)
    ensures !r.Panics?
    ensures r.Done? ==> r.value.c.closed
    ensures r.Done? ==> r.value.c.tid == c.tid && r.value.c.cid == c.cid
    ensures r.Done? ==> r.value.c.closedByRemote == c.closedByRemote
    // on an open queue: one forward frame per read, in order, up to the
    // failing read, and each frame fits the connection's 2-byte length header
    ensures r.Done? && !outClosed ==> ForwardsReads(k, c, script, out, r.value.out)
    ensures r.Done? ==> forall i :: |out| <= i < |r.value.out| ==> |r.value.out[i]| <= MaxForwardFrame
    // on an open queue: the loop returns exactly when some read fails
    ensures !outClosed ==> (r.Done? <==> HasFailure(script))
    // the first failing read decides the result, and every read before it
    // adds its length to the recv counter
    ensures r.Done? && !outClosed ==> StopsAtFailure(c, script, out, r.value)
    // on a closed queue: nothing is queued, and the first read decides
    ensures outClosed ==> (r.Done? <==> |script| > 0)
    ensures outClosed && r.Done? ==> r.value.out == out && r.value.c == Close(c)
    ensures outClosed && r.Done? && script[0].Data? ==> r.value.result == Ok(Unit)
    decreases |script|
  {
    if |script| == 0 then Blocks
    else match script[0]
      case ReadFailed(e, closedConn) =>
        var result := if c.closed || closedConn then Ok(Unit) else Err(e);
        Done(Served(result, Close(c), out))
      case Data(b) =>
        if outClosed then Done(Served(Ok(Unit), Close(c), out))
        else
          var out' := out + [ForwardFrame(k, c, b)];
          assert FitsBuffer(script[1..]) by {
            forall i | 0 <= i < |script[1..]| && script[1..][i].Data?
              ensures |script[1..][i].b| <= ReadBufferSize
            {
              assert script[1..][i] == script[i + 1];
            }
          }
          var c' := c.(recv := (c.recv + |b|) % UINT64_LIMIT);
          var r := Serve(k, c', script[1..], out', outClosed);
          ServeFailureStep(b, script);
          if r.Done? then
            ServeStep(k, c, b, script, out, r.value.out);
            assert !outClosed ==> StopsAtFailure(c, script, out, r.value) by {
              if !outClosed { ServeCountStep(c, b, script, out, out', r.value); }
            }
            r
          else r
  }

  /** A leading successful read does not change whether a read fails later. */
  lemma ServeFailureStep(b: bytes, script: seq<ReadResult>)
    requires |script| > 0 && script[0] == Data(b)
    ensures HasFailure(script) <==> HasFailure(script[1..])
  {
    if HasFailure(script) {
      var i :| 0 <= i < |script| && script[i].ReadFailed?;
      assert script[1..][i - 1] == script[i];
    }
    if HasFailure(script[1..]) {
      var i :| 0 <= i < |script[1..]| && script[1..][i].ReadFailed?;
      assert script[i + 1] == script[1..][i];
    }
  }

  /** `StopsAtFailure` across one read of `b`: what the loop leaves after the
      rest of the reads, from the channel with the read counted, is what it
      leaves after all of them. */
  lemma ServeCountStep(c: Channel, b: bytes, script: seq<ReadResult>, out: Outbound, out': Outbound, s: Served)
    requires |script| > 0 && script[0] == Data(b) && |out'| == |out| + 1
    requires StopsAtFailure(c.(recv := (c.recv + |b|) % UINT64_LIMIT), script[1..], out', s)
    ensures StopsAtFailure(c, script, out, s)
  {
    var n := |s.out| - |out|;
    assert script[1..][n - 1] == script[n];
    assert script[..n][1..] == script[1..][..n - 1];
    var rest := DataBytes(script[1..][..n - 1]);
    assert DataBytes(script[..n]) == |b| + rest;
    assert ((c.recv + |b|) % UINT64_LIMIT + rest) % UINT64_LIMIT == (c.recv + |b| + rest) % UINT64_LIMIT;
  }

  /** The step of `Serve`'s contract across one read of `b`. */
  lemma ServeStep(k: Kinds, c: Channel, b: bytes, script: seq<ReadResult>, out: Outbound, after: Outbound)
    requires |script| > 0 && script[0] == Data(b) && |b| <= ReadBufferSize
    requires ForwardsReads(k, c.(recv := (c.recv + |b|) % UINT64_LIMIT), script[1..], out + [ForwardFrame(k, c, b)], after)
    requires forall i :: |out| + 1 <= i < |after| ==> |after[i]| <= MaxForwardFrame
    ensures ForwardsReads(k, c, script, out, after)
    ensures forall i :: |out| <= i < |after| ==> |after[i]| <= MaxForwardFrame
  {
    var out' := out + [ForwardFrame(k, c, b)];
    var c' := c.(recv := (c.recv + |b|) % UINT64_LIMIT);
    PrefixOfExtension(after, out, out');
    assert after[|out|] == after[..|out'|][|out|] == ForwardFrame(k, c, b);
    forall i | 0 <= i < |after| - |out|
      ensures script[i].Data? && after[|out| + i] == ForwardFrame(k, c, script[i].b)
    {
      if i > 0 {
        assert script[1..][i - 1] == script[i];
        assert ForwardFrame(k, c', script[i].b) == ForwardFrame(k, c, script[i].b);
      }
    }
    assert script[1..][|after| - |out'|] == script[|after| - |out|];
  }

  /** A queue that starts with `out + [x]` starts with `out`. */
  lemma PrefixOfExtension<T>(s: seq<T>, out: seq<T>, out': seq<T>)
    requires |out| <= |out'| <= |s| && s[..|out'|] == out' && out'[..|out|] == out
    ensures s[..|out|] == out
  {
    assert s[..|out|] == s[..|out'|][..|out|];
  }

  /** A read error decides `Serve`'s result: nil when the channel was already
      closed or the connection reports being closed, otherwise the error. */
  lemma ServeReadError(k: Kinds, c: Channel, e: string, closedConn: bool, rest: seq<ReadResult>, out: Outbound, outClosed: bool)
    requires FitsBuffer([ReadFailed(e, closedConn)] + rest)
    ensures var r := Serve(k, c, [ReadFailed(e, closedConn)] + rest, out, outClosed);
      r.Done? && r.value.out == out && r.value.c == Close(c)
      && (r.value.result.Ok? <==> c.closed || closedConn)
      && (r.value.result.Err? ==> r.value.result.error == e)
  {
  }
}

=== FILE: channel_pool.dfy ===
/** The channel pool of one tunnel: channels by ID, with a step-1 cursor. */
module ChannelPool {
  import opened Bytes
  import opened Wrappers
  import opened IdAlloc
  import opened Channel

  const ErrDeleteNotExist := "delete failed: channel not exist"

  datatype Pool = Pool(nextID: uint32, channels: map<uint32, Channel>)

  /** Every registered channel is stored under its own ID. */
  predicate Valid(p: Pool) {
    forall cid :: cid in p.channels ==> p.channels[cid].cid == cid
  }

  function NewPool(): (p: Pool)
    ensures Valid(p) && p.nextID == 1 && |p.channels| == 0
  {
    Pool(1, map[])
  }

  /** `newID`: `nextID += 1` (wrapping) until the ID is not in the pool; `None`
      when every ID is taken, where the source spins forever. */
  function NewID(p: Pool): (r: Option<uint32>)
    ensures r.Some? ==> r.value !in p.channels
  {
    NextFree(p.nextID, 1, false, p.channels.Keys, UINT32_LIMIT)
  }

  /** `NewByID`: register a fresh channel under `cid`, replacing any channel
      already there. */
  function NewByID(p: Pool, cid: uint32, tid: uint32): (r: (Channel, Pool))
    requires Valid(p)
    ensures Valid(r.1)
    ensures r.0 == NewChannel(tid, cid)
    ensures r.1.channels == p.channels[cid := r.0] && r.1.nextID == p.nextID
  {
    var c := NewChannel(tid, cid);
    (c, p.(channels := p.channels[cid := c]))
  }

  /** `New`: allocate an unused ID and register a fresh channel under it. The
      cursor is left at the allocated ID. */
  function New(p: Pool, tid: uint32): (r: Option<(Channel, Pool)>)
    requires Valid(p)
    ensures r.Some? ==> var (c, q) := r.value;
      Valid(q) && c.cid !in p.channels && c == NewChannel(tid, c.cid)
      && q.channels == p.channels[c.cid := c] && q.nextID == c.cid
  {
    match NewID(p)
    case None => None
    case Some(cid) =>
      var (c, q) := NewByID(p, cid, tid);
      Some((c, q.(nextID := cid)))
  }

  /** The first channel a fresh pool hands out has ID 2. */
  lemma FirstChannelID(tid: uint32)
    ensures New(NewPool(), tid).Some? && New(NewPool(), tid).value.0.cid == 2
  {
  }

  /** `New` takes the first free ID above the cursor, unless it wrapped. */
  lemma NewFirstFit(p: Pool, tid: uint32)
    requires Valid(p) && New(p, tid).Some?
    ensures var cid := New(p, tid).value.0.cid;
      cid > p.nextID ==> forall x: uint32 :: p.nextID < x < cid ==> x in p.channels
  {
    NextFreeFirstFit(p.nextID, p.channels.Keys, UINT32_LIMIT);
  }

  function Get(p: Pool, cid: uint32): (r: Option<Channel>)
    ensures r.Some? <==> cid in p.channels
    ensures r.Some? ==> r.value == p.channels[cid]
  {
    if cid in p.channels then Some(p.channels[cid]) else None
  }

  /** `Delete(c)`: when some channel is registered under `c`'s ID, close `c` and
      drop that entry. */
  function Delete(p: Pool, c: Channel): (r: Result<(Pool, Channel)>)
    requires Valid(p)
    ensures r.Err? <==> c.cid !in p.channels
    ensures r.Err? ==> r.error == ErrDeleteNotExist
    ensures r.Ok? ==> Valid(r.value.0) && r.value.0.nextID == p.nextID
    ensures r.Ok? ==> r.value.0.channels == p.channels - {c.cid} && r.value.1 == Close(c)
  {
    if c.cid !in p.channels then Err(ErrDeleteNotExist)
    else Ok((p.(channels := p.channels - {c.cid}), Close(c)))
  }

  /** A channel registered by `New` can be found, then deleted, after which
      the pool is as before apart from the cursor. */
  lemma NewGetDelete(p: Pool, tid: uint32)
    requires Valid(p) && New(p, tid).Some?
    ensures var (c, q) := New(p, tid).value;
      Get(q, c.cid) == Some(c)
      && Delete(q, c).Ok? && Delete(q, c).value.0 == p.(nextID := c.cid)
  {
    var (c, q) := New(p, tid).value;
    assert q.channels - {c.cid} == p.channels;
  }
}

=== FILE: conn_config.dfy ===
/** How the server and both clients choose the link's connection type, the
    server's default listen address, and the server's transport switch.
 */
module ConnConfig {
  import opened Wrappers

  const TypeAES: string := "aes"
  const TypeTLS: string := "tls"
  const TypeDefault: string := "default"
  const DefaultServerAddr: string := ":10000"

  /** The selection every entry point makes: a secret wins, then a complete
      certificate/key pair, then the plain connection.  The secret is generic in
      its element type because the current client passes derived key bytes
      where the server and the legacy client pass the secret text. */
  function ConnType<T>(secret: seq<T>, certFile: string, keyFile: string): (r: string)
    ensures r in {TypeAES, TypeTLS, TypeDefault}
    ensures r == TypeAES <==> |secret| > 0
    ensures r == TypeTLS <==> |secret| == 0 && |certFile| > 0 && |keyFile| > 0
    ensures r == TypeDefault <==> |secret| == 0 && (|certFile| == 0 || |keyFile| == 0)
  {
    if |secret| > 0 then TypeAES
    else if |certFile| > 0 && |keyFile| > 0 then TypeTLS
    else TypeDefault
  }

  /** The fields `NewServer` fills in; cipher keys and pprof are not modelled. */
  datatype Server = Server(proto: string, addr: string, secret: string,
                           caFile: string, certFile: string, keyFile: string,
                           connType: string)

  /** `NewServer`: the first argument is the listen address, ":10000" when empty. */
  function NewServer(proto: string, firstArg: string, secret: string,
                     caFile: string, certFile: string, keyFile: string): (s: Server)
    ensures s.addr != []
    ensures firstArg != [] ==> s.addr == firstArg
    ensures firstArg == [] ==> s.addr == DefaultServerAddr
    ensures s.proto == proto && s.secret == secret
    ensures s.caFile == caFile && s.certFile == certFile && s.keyFile == keyFile
    ensures s.connType == ConnType(secret, certFile, keyFile)
  {
    var addr := if |firstArg| == 0 then DefaultServerAddr else firstArg;
    Server(proto, addr, secret, caFile, certFile, keyFile, ConnType(secret, certFile, keyFile))
  }

  /** What `Server.Start` runs. */
  datatype Launch = StartTCP | StartKCP | NoStart

  function Start(s: Server): (l: Launch)
    ensures l.StartTCP? <==> s.proto == "tcp"
    ensures l.StartKCP? <==> s.proto == "kcp"
    ensures l.NoStart? <==> s.proto != "tcp" && s.proto != "kcp"
  {
    if s.proto == "tcp" then StartTCP
    else if s.proto == "kcp" then StartKCP
    else NoStart
  }

  /** The fields a client's constructor fills in; `secret` is the key it will use. */
  datatype Client<T> = Client(proto: string, addr: string, secret: seq<T>,
                              caFile: string, certFile: string, keyFile: string,
                              tunnels: seq<string>, connType: string)

  const ErrNeedAddr: string := "NEED server address"

  /** `newClient` / `NewClient`: the first argument is the server address, taken
      as given; without arguments there is no client. */
  function NewClient<T>(proto: string, args: seq<string>, secret: seq<T>, caFile: string,
                        certFile: string, keyFile: string, tunnels: seq<string>): (r: Result<Client<T>>)
    ensures r.Err? <==> |args| == 0
    ensures r.Err? ==> r.error == ErrNeedAddr
    ensures r.Ok? ==> var c := r.value;
      && c.addr == args[0] && c.proto == proto && c.secret == secret && c.tunnels == tunnels
      && c.caFile == caFile && c.certFile == certFile && c.keyFile == keyFile
      && c.connType == ConnType(secret, certFile, keyFile)
  {
    if |args| == 0 then Err(ErrNeedAddr)
    else Ok(Client(proto, args[0], secret, caFile, certFile, keyFile, tunnels, ConnType(secret, certFile, keyFile)))
  }

  /** A client and a server whose certificate settings agree in presence
      choose the same connection type exactly when both or neither are given
      a secret: the two constructors make the same choice. */
  lemma PeersChooseSameConnType<T>(proto: string, firstArg: string, serverSecret: string,
                                   serverCa: string, serverCert: string, serverKey: string,
                                   args: seq<string>, clientSecret: seq<T>,
                                   clientCa: string, clientCert: string, clientKey: string,
                                   tunnels: seq<string>)
    requires |args| > 0
    requires (|serverCert| > 0 && |serverKey| > 0) <==> (|clientCert| > 0 && |clientKey| > 0)
    ensures var s := NewServer(proto, firstArg, serverSecret, serverCa, serverCert, serverKey);
      var c := NewClient(proto, args, clientSecret, clientCa, clientCert, clientKey, tunnels);
      c.Ok? && (c.value.connType == s.connType <==> (|serverSecret| > 0 <==> |clientSecret| > 0))
  {
  }
}

=== FILE: decimal.dfy ===
/** Decimal text for integers: `fmt.Sprintf("%d", n)` and `strconv.Atoi`. */
module Decimal {
  import opened Wrappers

  const INT64_MIN: int := -0x8000_0000_0000_0000
  const INT64_MAX: int := 0x7FFF_FFFF_FFFF_FFFF

  const ErrSyntax := "invalid syntax"
  const ErrRange := "value out of range"

  predicate IsDigit(c: char) {
    '0' <= c <= '9'
  }

  predicate AllDigits(s: string) {
    forall i :: 0 <= i < |s| ==> IsDigit(s[i])
  }

  function DigitChar(d: nat): (c: char)
    requires d < 10
    ensures IsDigit(c) && (c as int) - ('0' as int) == d
  {
    (('0' as int) + d) as char
  }

  /** The decimal digits of `n`, most significant first, without leading zeros. */
  function NatStr(n: nat): (s: string)
    ensures |s| > 0 && AllDigits(s)
    ensures n > 0 ==> s[0] != '0'
    decreases n
  {
    if n < 10 then [DigitChar(n)] else NatStr(n / 10) + [DigitChar(n % 10)]
  }

  /** `%d`: a minus sign for negative numbers, then the digits. */
  function IntStr(n: int): (s: string)
    ensures |s| > 0
    ensures n < 0 <==> s[0] == '-'
    ensures n >= 0 ==> AllDigits(s)
    ensures n < 0 ==> AllDigits(s[1..])
  {
    if n < 0 then "-" + NatStr(-n) else NatStr(n)
  }

  /** The number a run of digits denotes. */
  function DigitsValue(s: string): (v: nat)
    requires AllDigits(s)
    decreases |s|
  {
    if |s| == 0 then 0
    else DigitsValue(s[..|s| - 1]) * 10 + ((s[|s| - 1] as int) - ('0' as int))
  }

  /** Reading back the digits `NatStr` writes gives the number. */
  lemma {:induction false} NatStrValue(n: nat)
    ensures DigitsValue(NatStr(n)) == n
    decreases n
  {
    if n >= 10 {
      var s := NatStr(n);
      assert s[..|s| - 1] == NatStr(n / 10);
      NatStrValue(n / 10);
    }
  }

  /** Different numbers print differently. */
  lemma IntStrInjective(a: int, b: int)
    requires IntStr(a) == IntStr(b)
    ensures a == b
  {
    if a < 0 {
      assert IntStr(a)[1..] == NatStr(-a);
      assert IntStr(b)[1..] == NatStr(-b);
      NatStrValue(-a);
      NatStrValue(-b);
    } else {
      NatStrValue(a);
      NatStrValue(b);
    }
  }

  const UINT64_MAX: int := 0xFFFF_FFFF_FFFF_FFFF

  /** The digits of a number after its optional leading sign. */
  function Magnitude(s: string): (d: string)
    requires |s| > 0
    ensures |d| == |s| || |d| == |s| - 1
  {
    if s[0] == '+' || s[0] == '-' then s[1..] else s
  }

  /** Where `Magnitude(s)` starts in `s`. */
  function SignWidth(s: string): (w: nat)
    requires |s| > 0
    ensures w <= 1 && Magnitude(s) == s[w..]
  {
    if s[0] == '+' || s[0] == '-' then 1 else 0
  }

  /** A magnitude with its sign. */
  function Signed(neg: bool, v: nat): int {
    if neg then -(v as int) else v
  }

  /** No run of digits at the start of `d` exceeds the `uint64` range. */
  predicate NoOverflow(d: string) {
    forall k :: 0 <= k <= |d| && AllDigits(d[..k]) ==> DigitsValue(d[..k]) <= UINT64_MAX
  }

  /** `ParseUint(d, 10, 64)` from position `i`, with `acc` the value of the
      digits before it: left to right, a non-digit is a syntax error and a
      value past the `uint64` range a range error, whichever comes first. (Go
      tests `n >= cutoff` before multiplying and `n1 < n || n1 > maxVal` after
      adding; together they hold exactly when `acc * 10 + digit` exceeds the
      range.) */
  function ParseDigits(d: string, i: nat, acc: nat): (r: Result<nat>)
    requires i <= |d| && AllDigits(d[..i]) && acc == DigitsValue(d[..i]) && acc <= UINT64_MAX
    ensures r.Ok? ==> AllDigits(d) && r.value == DigitsValue(d) && r.value <= UINT64_MAX
    ensures r.Err? ==> r.error == ErrSyntax || r.error == ErrRange
    decreases |d| - i
  {
    if i == |d| then
      assert d[..i] == d;
      Ok(acc)
    else if !IsDigit(d[i]) then Err(ErrSyntax)
    else
      var v := acc * 10 + ((d[i] as int) - ('0' as int));
      assert d[..i + 1][..i] == d[..i];
      if v > UINT64_MAX then Err(ErrRange)
      else ParseDigits(d, i + 1, v)
  }

  /** `strconv.Atoi` on a 64-bit platform: `ParseInt(s, 10, 0)`, an optional
      sign and then `ParseUint` on the rest, whose result must fit `int64`.
      (The fast path for strings under 19 characters gives the same results,
      since such strings cannot overflow.) */
  function Atoi(s: string): (r: Result<int>)
    ensures r.Ok? ==> INT64_MIN <= r.value <= INT64_MAX
    ensures |s| == 0 ==> r == Err(ErrSyntax)
    ensures r.Err? ==> r.error == ErrSyntax || r.error == ErrRange
    // what an accepted string denotes
    ensures r.Ok? ==>
      && |s| > 0 && |Magnitude(s)| > 0 && AllDigits(Magnitude(s))
      && r.value == Signed(s[0] == '-', DigitsValue(Magnitude(s)))
  {
    if |s| == 0 then Err(ErrSyntax)
    else
      var neg := s[0] == '-';
      var d := Magnitude(s);
      if |d| == 0 then Err(ErrSyntax)
      else
        assert d[..0] == [];
        match ParseDigits(d, 0, 0)
        case Err(e) => Err(e)
        case Ok(un) =>
          if !neg && un >= -INT64_MIN then Err(ErrRange)
          else if neg && un > -INT64_MIN then Err(ErrRange)
          else Ok(Signed(neg, un))
  }

  /** A longer run of digits never denotes less. */
  lemma {:induction false} PrefixValueLe(d: string, k: nat)
    requires AllDigits(d) && k <= |d|
    ensures AllDigits(d[..k]) && DigitsValue(d[..k]) <= DigitsValue(d)
    decreases |d| - k
  {
    if k < |d| {
      var p := d[..|d| - 1];
      assert p[..k] == d[..k];
      PrefixValueLe(p, k);
    } else {
      assert d[..k] == d;
    }
  }

  /** Digits whose value fits `uint64` are read in full. */
  lemma {:induction false} ParseDigitsAll(d: string, i: nat, acc: nat)
    requires i <= |d| && AllDigits(d[..i]) && acc == DigitsValue(d[..i]) && acc <= UINT64_MAX
    requires AllDigits(d) && DigitsValue(d) <= UINT64_MAX
    ensures ParseDigits(d, i, acc) == Ok(DigitsValue(d))
    decreases |d| - i
  {
    if i < |d| {
      PrefixValueLe(d, i + 1);
      var q := d[..i + 1];
      assert q[..i] == d[..i];
      ParseDigitsAll(d, i + 1, DigitsValue(q));
    } else {
      assert d[..i] == d;
    }
  }

  /** A run of digits past the `uint64` range is a range error, whatever
      follows it. */
  lemma {:induction false} ParseDigitsRange(d: string, i: nat, acc: nat, k: nat)
    requires i <= |d| && AllDigits(d[..i]) && acc == DigitsValue(d[..i]) && acc <= UINT64_MAX
    requires i <= k <= |d| && AllDigits(d[..k]) && DigitsValue(d[..k]) > UINT64_MAX
    ensures ParseDigits(d, i, acc) == Err(ErrRange)
    decreases |d| - i
  {
    assert i < k;
    var q := d[..i + 1];
    assert q == d[..k][..i + 1];
    PrefixValueLe(d[..k], i + 1);
    assert q[..i] == d[..i];
    if DigitsValue(q) <= UINT64_MAX {
      ParseDigitsRange(d, i + 1, DigitsValue(q), k);
    }
  }

  /** A non-digit reached before any overflow is a syntax error. */
  lemma {:induction false} ParseDigitsSyntax(d: string, i: nat, acc: nat, j: nat)
    requires i <= |d| && AllDigits(d[..i]) && acc == DigitsValue(d[..i]) && acc <= UINT64_MAX
    requires i <= j < |d| && !IsDigit(d[j]) && NoOverflow(d[..j])
    ensures ParseDigits(d, i, acc) == Err(ErrSyntax)
    decreases |d| - i
  {
    if i < j && IsDigit(d[i]) {
      var q := d[..i + 1];
      assert q == d[..j][..i + 1];
      assert q[..i] == d[..i];
      assert AllDigits(q);
      ParseDigitsSyntax(d, i + 1, DigitsValue(q), j);
    }
  }

  /** `Atoi` accepts exactly a sign, digits and an `int64` value: every such
      string reads back as the number it denotes. */
  lemma AtoiAccepts(s: string)
    requires |s| > 0 && |Magnitude(s)| > 0 && AllDigits(Magnitude(s))
    requires INT64_MIN <= Signed(s[0] == '-', DigitsValue(Magnitude(s))) <= INT64_MAX
    ensures Atoi(s) == Ok(Signed(s[0] == '-', DigitsValue(Magnitude(s))))
  {
    var d := Magnitude(s);
    assert d[..0] == [];
    ParseDigitsAll(d, 0, 0);
  }

  /** `Atoi` reads back every 64-bit integer `%d` prints. */
  lemma AtoiIntStr(n: int)
    requires INT64_MIN <= n <= INT64_MAX
    ensures Atoi(IntStr(n)) == Ok(n)
  {
    var s := IntStr(n);
    if n < 0 {
      assert Magnitude(s) == NatStr(-n);
      NatStrValue(-n);
    } else {
      NatStrValue(n);
    }
    AtoiAccepts(s);
  }

  /** A character other than a digit after the sign is a syntax error when no
      overflow comes before it. */
  lemma AtoiRejectsNonDigit(s: string, i: nat)
    requires 0 < i < |s| && !IsDigit(s[i])
    requires NoOverflow(s[SignWidth(s)..i])
    ensures Atoi(s) == Err(ErrSyntax)
  {
    var w := SignWidth(s);
    var d := Magnitude(s);
    assert d[i - w] == s[i];
    assert d[..i - w] == s[w..i];
    assert d[..0] == [];
    ParseDigitsSyntax(d, 0, 0, i - w);
  }

  /** Digits after the sign that run past the `uint64` range are a range
      error, whatever follows them: "99999999999999999999x" is out of range,
      not invalid. */
  lemma AtoiRangeFirst(s: string, k: nat)
    requires |s| > 0 && SignWidth(s) <= k <= |s|
    requires AllDigits(s[SignWidth(s)..k]) && DigitsValue(s[SignWidth(s)..k]) > UINT64_MAX
    ensures Atoi(s) == Err(ErrRange)
  {
    var w := SignWidth(s);
    var d := Magnitude(s);
    assert d[..k - w] == s[w..k];
    assert d[..0] == [];
    ParseDigitsRange(d, 0, 0, k - w);
  }
}

=== FILE: es_conn.dfy ===
/** `BaseConn`: the `es` library's plain framed connection. Each message is
    written as a 2-byte big-endian length followed by the message bytes. The
    cipher-wrapped `SafeConn` is not part of this model. */
module EsConn {
  import opened Bytes
  import opened Wrappers
  import opened Stream

  const MaxMessageLength: nat := 1024 * 64 - 1
  const ErrMaxLengthLimit := "max length limit"

  /** `BaseConn.Send` as written: the bytes handed to the socket. The length is
      first truncated to `uint16`, so the size guard can never fire and a
      longer message is announced with its length modulo 65536. */
  function Send(message: bytes): (r: Result<bytes>)
    ensures r.Ok?
    ensures |r.value| == 2 + |message|
    ensures ReadBE16(r.value) == |message| % UINT16_LIMIT && r.value[2..] == message
  {
    var dlen: uint16 := |message| % UINT16_LIMIT;
    if dlen > MaxMessageLength then Err(ErrMaxLengthLimit)
    else
      BE16RoundTrip(dlen);
      Ok(BE16(dlen) + message)
  }

  /** The intended `Send`: refuse a message whose length does not fit the header. */
  function SendChecked(message: bytes): (r: Result<bytes>)
    ensures r.Err? <==> |message| > MaxMessageLength
    ensures r.Err? ==> r.error == ErrMaxLengthLimit
    ensures r.Ok? ==> forall rest :: Unframe(r.value + rest) == Ok((message, rest))
  {
    if |message| > MaxMessageLength then Err(ErrMaxLengthLimit)
    else
      FrameRoundTrip(message);
      Send(message)
  }

  /** What `Recv` computes on a connection that delivers the byte stream `s`
      without read errors: the first frame's body and the rest of the stream. */
  function Unframe(s: bytes): (r: Result<(bytes, bytes)>)
    ensures r.Ok? ==> |s| == 2 + |r.value.0| + |r.value.1|
  {
    if |s| < 2 then Err(EOF)
    else
      var dlen := ReadBE16(s) as nat;
      if |s| < 2 + dlen then Err(EOF)
      else Ok((s[2..2 + dlen], s[2 + dlen..]))
  }

  /** A message that fits the header survives `Send` followed by `Recv`, and
      `Recv` consumes exactly its frame. */
  lemma FrameRoundTrip(message: bytes)
    requires |message| <= MaxMessageLength
    ensures forall rest :: Unframe(Send(message).value + rest) == Ok((message, rest))
  {
    forall rest
      ensures Unframe(Send(message).value + rest) == Ok((message, rest))
    {
      var w := Send(message).value + rest;
      assert w[..2] == BE16(|message|);
      BE16RoundTrip(|message|);
      assert w[2..2 + |message|] == message;
      assert w[2 + |message|..] == rest;
    }
  }

  /** The concatenated frames of a sequence of messages. */
  function Frames(ms: seq<bytes>): bytes
    requires forall i :: 0 <= i < |ms| ==> |ms[i]| <= MaxMessageLength
  {
    if |ms| == 0 then [] else Send(ms[0]).value + Frames(ms[1..])
  }

  /** Repeated `Recv` until the stream is exhausted. */
  function UnframeAll(s: bytes): Result<seq<bytes>>
    decreases |s|
  {
    if |s| == 0 then Ok([])
    else match Unframe(s)
      case Err(e) => Err(e)
      case Ok((m, rest)) =>
        match UnframeAll(rest)
        case Err(e) => Err(e)
        case Ok(ms) => Ok([m] + ms)
  }

  /** Back-to-back frames are read one at a time, in the order they were sent. */
  lemma {:induction false} FramesInOrder(ms: seq<bytes>)
    requires forall i :: 0 <= i < |ms| ==> |ms[i]| <= MaxMessageLength
    ensures UnframeAll(Frames(ms)) == Ok(ms)
  {
    if |ms| > 0 {
      FrameRoundTrip(ms[0]);
      var rest := Frames(ms[1..]);
      assert Unframe(Send(ms[0]).value + rest) == Ok((ms[0], rest));
      FramesInOrder(ms[1..]);
      assert [ms[0]] + ms[1..] == ms;
    }
  }

  /** The input that shows the truncated size guard: a 65536-byte message is
      announced as empty, so the peer reads an empty message and then treats
      the payload as further frames. */
  lemma OversizeMessageMisframed()
    ensures var m := seq(65536, i => 0 as byte);
      Send(m).Ok? && Unframe(Send(m).value) == Ok(([], m))
  {
    var m := seq(65536, i => 0 as byte);
    var w := Send(m).value;
    assert w[..2] == BE16(0);
    assert w[2..] == m;
  }

  /** `BaseConn.Recv`: read the 2-byte header, then exactly that many bytes. */
  method Recv(r: Reader) returns (res: Result<(bytes, Reader)>)
    ensures res.Ok? ==> Unframe(r.data) == Ok((res.value.0, res.value.1.data))
    ensures Reliable(r) && Unframe(r.data).Ok? ==> res.Ok?
    ensures |r.script| > 0 && r.script[0].Fail? ==> res == Err(r.script[0].error)
  {
    var head := MustRecv(r, 2);
    if head.Err? {
      return Err(head.error);
    }
    var (h, cur) := head.value;
    var dlen := ReadBE16(h);
    assert dlen == ReadBE16(r.data);
    var body := MustRecv(cur, dlen);
    if body.Err? {
      return Err(body.error);
    }
    assert r.data[2..2 + dlen] == cur.data[..dlen];
    return body;
  }
}

=== FILE: handler.dfy ===
/** The link's default request handler: JSON requests routed by action, with
    "/echo" built in and "/tunnel" creating a tunnel on this endpoint. */
module Handler {
  import opened Bytes
  import opened Wrappers
  import opened SessionMsg
  import opened Router
  import opened Json
  import opened TunnelConfig
  import T = Tunnel
  import TM = TunnelManager
  import LP = ListenPool

  const StatusSuccess := "success"
  const StatusUnmarshalRequest := "json-unmarshal-request-error"
  const StatusDispatch := "dispatch-request-error"
  const PanicNil := "invalid memory address or nil pointer dereference"

  const EchoAction := "/echo"
  const TunnelAction := "/tunnel"

  /** The handler functions a route can name. */
  datatype Kind = Echo | TunnelCreate

  /** What the "/tunnel" handler reads and changes: the tunnel manager and the
      process-wide listen pool. */
  datatype State = State(tunnels: TM.Manager, lp: LP.Pool)

  /** Every pattern in the router is anchored, as `AddRoute` leaves it. */
  predicate WellFormed(r: Router<Kind>) {
    AllAnchored(r.entries)
  }

  /** `newRequestHandler`: "/echo" first, then the caller's routes. */
  function NewRequestHandler(re: Regex, routes: seq<Route<Kind>>): (r: Router<Kind>)
    ensures WellFormed(r)
    ensures r.entries == Compiled(re, [Route(EchoAction, Echo)]) + Compiled(re, routes)
  {
    var echo := [Route(EchoAction, Echo)];
    var r0 := AddRoutes(Router([]), re, echo);
    var r := AddRoutes(r0, re, routes);
    AddRoutesAppends(Router([]), re, echo);
    AddRoutesAppends(r0, re, routes);
    assert r0.entries == Compiled(re, echo);
    CompiledAnchored(re, echo);
    CompiledAnchored(re, routes);
    AnchoredJoin(Compiled(re, echo), Compiled(re, routes));
    r
  }

  /** The router a link builds when no handler is supplied. */
  function DefaultRouter(re: Regex): (r: Router<Kind>)
    ensures WellFormed(r)
  {
    NewRequestHandler(re, [Route(TunnelAction, TunnelCreate)])
  }

  /** With both literal patterns compiling, the default router sends "/echo" to
      the echo handler, "/tunnel" to tunnel creation, and nothing else anywhere. */
  lemma DefaultDispatch(re: Regex, action: string)
    requires re.compiles(Anchor(EchoAction)) && re.compiles(Anchor(TunnelAction))
    ensures var d := Dispatch(DefaultRouter(re), re, action);
      && (d.Ok? <==> action == EchoAction || action == TunnelAction)
      && (action == EchoAction ==> d == Ok(Route(EchoAction, Echo)))
      && (action == TunnelAction ==> d == Ok(Route(TunnelAction, TunnelCreate)))
  {
    var e1 := Entry(Anchor(EchoAction), Route(EchoAction, Echo));
    var e2 := Entry(Anchor(TunnelAction), Route(TunnelAction, TunnelCreate));
    DefaultEntries(re);
    ActionsMetaFree();
    LiteralMatch(re, EchoAction, action);
    LiteralMatch(re, TunnelAction, action);
    var r := DefaultRouter(re);
    var tail := Router(r.entries[1..]);
    assert tail.entries == [e2];
    assert Router(tail.entries[1..]) == Router([]);
  }

  /** The default router holds exactly the echo and tunnel entries, in order. */
  lemma DefaultEntries(re: Regex)
    requires re.compiles(Anchor(EchoAction)) && re.compiles(Anchor(TunnelAction))
    ensures DefaultRouter(re).entries == [Entry(Anchor(EchoAction), Route(EchoAction, Echo)),
                                          Entry(Anchor(TunnelAction), Route(TunnelAction, TunnelCreate))]
  {
    assert Compiled(re, [Route(EchoAction, Echo)]) == [Entry(Anchor(EchoAction), Route(EchoAction, Echo))];
    assert Compiled(re, [Route(TunnelAction, TunnelCreate)]) == [Entry(Anchor(TunnelAction), Route(TunnelAction, TunnelCreate))];
  }

  lemma ActionsMetaFree()
    ensures MetaFree(EchoAction) && MetaFree(TunnelAction)
  {
    assert forall i | 0 <= i < |EchoAction| :: !IsMeta(EchoAction[i]);
    assert forall i | 0 <= i < |TunnelAction| :: !IsMeta(TunnelAction[i]);
  }

  /** `requestHandler.echo`. */
  function HandleEcho(req: Request): (resp: Response)
    ensures resp.status == StatusSuccess && resp.body == req.body
  {
    Response(StatusSuccess, req.body)
  }

  /** `defaultTunnelCreateHandler`: decode a configuration from the body and
      create the tunnel. Every failure path assigns to a field of the nil
      response, so it panics; success replies with the new tunnel's ID. */
  function HandleTunnelCreate(j: Codec, listen: T.ListenIo, st: State, req: Request): (r: Step<(Response, State)>)
    requires TM.Valid(st.tunnels)
    ensures j.decodeConfig(req.body).Err? ==> r == Panics(PanicNil)
    ensures j.decodeConfig(req.body) == Ok(None) ==> r == Panics(PanicNil)
    ensures r.Done? ==> TM.Valid(r.value.1.tunnels)
    ensures r.Done? ==> r.value.0.status == StatusSuccess
    ensures r.Done? ==> j.decodeConfig(req.body).Ok? && j.decodeConfig(req.body).value.Some?
    ensures r.Done? ==> (j.decodeConfig(req.body).Ok? && j.decodeConfig(req.body).value.Some? &&
      var created := TM.TunnelCreate(st.tunnels, st.lp, j.decodeConfig(req.body).value.value, listen);
         created.Done? && created.value.0.Ok?
         && r.value.0.body == j.encodeCreateBody(created.value.0.value.id)
         && r.value.1 == State(created.value.1, created.value.2))
    // a creation that returns a failure panics on the nil response; one that
    // blocks or ends the program does so here too
    ensures j.decodeConfig(req.body).Ok? && j.decodeConfig(req.body).value.Some? ==>
      var created := TM.TunnelCreate(st.tunnels, st.lp, j.decodeConfig(req.body).value.value, listen);
      && (created.Done? && created.value.0.Err? ==> r == Panics(PanicNil))
      && (created.Blocks? ==> r.Blocks?)
      && (created.Panics? ==> r == Panics(created.reason))
  {
    match j.decodeConfig(req.body)
    case Err(_) => Panics(PanicNil)
    case Ok(None) => Panics(PanicNil)
    case Ok(Some(cfg)) =>
      match TM.TunnelCreate(st.tunnels, st.lp, cfg, listen)
      case Blocks => Blocks
      case Panics(why) => Panics(why)
      case Done((Err(_), _, _)) => Panics(PanicNil)
      case Done((Ok(t), tm, lp)) =>
        Done((Response(StatusSuccess, j.encodeCreateBody(t.id)), State(tm, lp)))
  }

  /** `requestHandler.Handle`: whatever happens short of a panic, the reply is a
      Response EMSG with the request's ID carrying the JSON of a response. */
  function Handle(router: Router<Kind>, re: Regex, j: Codec, listen: T.ListenIo, st: State, m: EMSG)
    : (r: Step<(EMSG, State)>)
    requires WellFormed(router) && TM.Valid(st.tunnels)
    ensures r.Done? ==> r.value.0.msgType == MsgTypeResponse && r.value.0.id == m.id
    ensures r.Done? ==> TM.Valid(r.value.1.tunnels)
    ensures j.decodeRequest(m.payload).Err? ==>
      r == Done((EMSG(MsgTypeResponse, m.id, j.encodeResponse(Response(StatusUnmarshalRequest, []))), st))
    ensures j.decodeRequest(m.payload) == Ok(None) ==> r.Panics?
    ensures j.decodeRequest(m.payload).Ok? && j.decodeRequest(m.payload).value.Some? ==>
      var req := j.decodeRequest(m.payload).value.value;
      && (Dispatch(router, re, req.action).Err? ==>
            r == Done((EMSG(MsgTypeResponse, m.id, j.encodeResponse(Response(StatusDispatch, []))), st)))
      && (Dispatch(router, re, req.action) == Ok(Route(EchoAction, Echo)) ==>
            r == Done((EMSG(MsgTypeResponse, m.id, j.encodeResponse(HandleEcho(req))), st)))
  {
    match j.decodeRequest(m.payload)
    case Err(_) => Done((EMSG(MsgTypeResponse, m.id, j.encodeResponse(Response(StatusUnmarshalRequest, []))), st))
    case Ok(None) => Panics(PanicNil)
    case Ok(Some(req)) =>
      match Dispatch(router, re, req.action)
      case Err(_) => Done((EMSG(MsgTypeResponse, m.id, j.encodeResponse(Response(StatusDispatch, []))), st))
      case Ok(route) =>
        match route.handler
        case Echo => Done((EMSG(MsgTypeResponse, m.id, j.encodeResponse(HandleEcho(req))), st))
        case TunnelCreate =>
          match HandleTunnelCreate(j, listen, st, req)
          case Blocks => Blocks
          case Panics(why) => Panics(why)
          case Done((resp, st')) => Done((EMSG(MsgTypeResponse, m.id, j.encodeResponse(resp)), st'))
  }

  /** A request routed to tunnel creation is answered with the JSON of the
      creation handler's response. */
  lemma HandleRoutesTunnel(router: Router<Kind>, re: Regex, j: Codec, listen: T.ListenIo, st: State, m: EMSG, req: Request)
    requires WellFormed(router) && TM.Valid(st.tunnels)
    requires j.decodeRequest(m.payload) == Ok(Some(req))
    requires Dispatch(router, re, req.action) == Ok(Route(TunnelAction, TunnelCreate))
    requires HandleTunnelCreate(j, listen, st, req).Done?
    ensures var (resp, st') := HandleTunnelCreate(j, listen, st, req).value;
      Handle(router, re, j, listen, st, m) == Done((EMSG(MsgTypeResponse, m.id, j.encodeResponse(resp)), st'))
  {
  }

  /** A blocked or panicking creation handler blocks or panics the reply. */
  lemma HandleTunnelNotDone(router: Router<Kind>, re: Regex, j: Codec, listen: T.ListenIo, st: State, m: EMSG, req: Request)
    requires WellFormed(router) && TM.Valid(st.tunnels)
    requires j.decodeRequest(m.payload) == Ok(Some(req))
    requires Dispatch(router, re, req.action) == Ok(Route(TunnelAction, TunnelCreate))
    requires !HandleTunnelCreate(j, listen, st, req).Done?
    ensures !Handle(router, re, j, listen, st, m).Done?
  {
  }

  /** An echo request round-trips: the reply decodes to "success" with the
      request body unchanged. */
  lemma EchoRoundTrip(re: Regex, j: Codec, listen: T.ListenIo, st: State, id: uint32, body: bytes)
    requires RoundTrips(j) && TM.Valid(st.tunnels)
    requires re.compiles(Anchor(EchoAction)) && re.compiles(Anchor(TunnelAction))
    ensures var m := EMSG(MsgTypeRequest, id, j.encodeRequest(Request(EchoAction, body)));
      var r := Handle(DefaultRouter(re), re, j, listen, st, m);
      r.Done? && r.value.1 == st && r.value.0.id == id
      && j.decodeResponse(r.value.0.payload) == Ok(Some(Response(StatusSuccess, body)))
  {
    DefaultDispatch(re, EchoAction);
  }
}

=== FILE: id_alloc.dfy ===
/** The ID search loops of the session, tunnel and channel pools.

    Each pool keeps a `uint32` cursor and, to allocate, advances it by a fixed
    step (with `uint32` wrap-around) until it lands on a usable ID. The Go loop
    never gives up; the model bounds it by the length of the cursor's cycle and
    answers `None` exactly when that bound is exhausted, which is when the Go
    loop would spin forever. */
module IdAlloc {
  import opened Bytes
  import opened Wrappers

  /** Number of distinct cursor positions reachable by steps of 2. */
  const PARITY_CYCLE: nat := 0x8000_0000

  /** Advance the cursor by `step` until it is outside `used` (and nonzero when
      `skipZero`), trying at most `fuel` positions. */
  function NextFree(cur: uint32, step: nat, skipZero: bool, used: set<uint32>, fuel: nat): (r: Option<uint32>)
    decreases fuel
    ensures r.Some? ==> r.value !in used
    ensures r.Some? && skipZero ==> r.value != 0
    ensures r.Some? && step % 2 == 0 ==> r.value % 2 == cur % 2
  {
    if fuel == 0 then None
    else
      var next := AddU32(cur, step);
      AddU32Parity(cur, step);
      if (skipZero && next == 0) || next in used then NextFree(next, step, skipZero, used, fuel - 1)
      else Some(next)
  }

  /** An even step keeps the parity, wrap-around included (2^32 is even). */
  lemma AddU32Parity(cur: uint32, step: nat)
    ensures step % 2 == 0 ==> AddU32(cur, step) % 2 == cur % 2
  {
    var s := cur + step;
    assert s == (s / UINT32_LIMIT) * UINT32_LIMIT + AddU32(cur, step);
    assert UINT32_LIMIT == 2 * 0x8000_0000;
  }

  /** The parity-separated allocator of the session and tunnel pools
      (`curID += 2`, skipping 0 and IDs in use). */
  function NextParityID(cur: uint32, used: set<uint32>): (r: Option<uint32>)
    ensures r.Some? ==> r.value != 0 && r.value !in used && r.value % 2 == cur % 2
  {
    NextFree(cur, 2, true, used, PARITY_CYCLE)
  }

  /** When the cursor's successor is free, it is the one allocated. */
  lemma NextParityIDImmediate(cur: uint32, used: set<uint32>)
    requires cur + 2 < UINT32_LIMIT && cur + 2 !in used
    ensures NextParityID(cur, used) == Some(cur + 2)
  {
  }

  /** With step 1 and no wrap-around, the allocator returns the first free ID
      above the cursor: everything it skipped is in use. */
  lemma {:induction false} NextFreeFirstFit(cur: uint32, used: set<uint32>, fuel: nat)
    ensures var r := NextFree(cur, 1, false, used, fuel);
      r.Some? && r.value > cur ==> forall x: uint32 :: cur < x < r.value ==> x in used
    decreases fuel
  {
    if fuel > 0 {
      var next := AddU32(cur, 1);
      if next in used {
        NextFreeFirstFit(next, used, fuel - 1);
      }
    }
  }
}

=== FILE: json.dfy ===
/** The JSON bodies the link exchanges: session requests and responses, tunnel
    configurations and the tunnel-create reply body.

    `encoding/json` is not modelled; a `Codec` supplies the encoders and
    decoders. A decode yields `Err` for malformed text and `Ok(None)` for the
    JSON literal `null`, which sets the decoded pointer to nil in the source. */
module Json {
  import opened Bytes
  import opened Wrappers
  import opened TunnelConfig

  /** `session.Request`. */
  datatype Request = Request(action: string, body: bytes)

  /** `session.Response`. */
  datatype Response = Response(status: string, body: bytes)

  datatype Codec = Codec(
    encodeRequest: Request -> bytes,
    decodeRequest: bytes -> Result<Option<Request>>,
    encodeResponse: Response -> bytes,
    decodeResponse: bytes -> Result<Option<Response>>,
    encodeConfig: Config -> bytes,
    decodeConfig: bytes -> Result<Option<Config>>,
    encodeCreateBody: uint32 -> bytes,
    decodeCreateBody: bytes -> Result<uint32>)

  /** What the model assumes of the codec: every encoded value decodes back. */
  ghost predicate RoundTrips(j: Codec) {
    && (forall r :: j.decodeRequest(j.encodeRequest(r)) == Ok(Some(r)))
    && (forall r :: j.decodeResponse(j.encodeResponse(r)) == Ok(Some(r)))
    && (forall c :: j.decodeConfig(j.encodeConfig(c)) == Ok(Some(c)))
    && (forall id: uint32 :: j.decodeCreateBody(j.encodeCreateBody(id)) == Ok(id))
  }
}

=== FILE: kinds.dfy ===
/** The one-byte message kinds the link and the tunnel layer put on the wire.

    Their values (`es.LinkMsgType*`, `tcommon.MsgTypeChannel*`) are declared in
    files that are not part of this model, so they are a parameter of every
    operation that reads or writes them; the model relies only on the link
    kinds being pairwise distinct and on the two channel message types differing. */
module Kinds {
  import opened Bytes

  datatype Kinds = Kinds(
    session: byte,
    tunnel: byte,
    pingRequest: byte,
    pingResponse: byte,
    channelForward: byte,
    channelClose: byte)
  {
    predicate Distinct() {
      && session != tunnel && session != pingRequest && session != pingResponse
      && tunnel != pingRequest && tunnel != pingResponse
      && pingRequest != pingResponse
      && channelForward != channelClose
    }
  }

  /** The shared outbound queue: every message enqueued by any component, in order. */
  type Outbound = seq<bytes>

  /** The runtime panic of a send on a closed Go channel, the outbound queue's
      included. */
  const PanicSendOnClosed := "send on closed channel"
}

=== FILE: legacy_conn.dfy ===
/** otunnel's own `emsg.Conn`: each legacy EMSG is written as a 4-byte
    little-endian length followed by the message bytes. Only the path without a
    cipher is modelled. */
module LegacyConn {
  import opened Bytes
  import opened Wrappers
  import opened Stream
  import opened LegacyMsg

  /** `Conn.Send` with no cipher: `uint32(len(m.Bytes()))` little-endian, then the bytes. */
  function Send(m: EMSG): (w: bytes)
    ensures |w| == 4 + Len(m)
    ensures ReadLE32(w) == Len(m) % UINT32_LIMIT && w[4..] == Encode(m)
  {
    var b := Encode(m);
    var dlen: uint32 := |b| % UINT32_LIMIT;
    LE32RoundTrip(dlen);
    LE32(dlen) + b
  }

  /** What `Recv` computes on a connection that delivers `s` without read errors. */
  function Unframe(s: bytes): (r: Result<(EMSG, bytes)>)
    ensures |s| >= 4 && |s| >= 4 + ReadLE32(s) && ReadLE32(s) < MinLength ==> r == Err(ErrMessageDataTooShort)
  {
    if |s| < 4 then Err(EOF)
    else
      var dlen := ReadLE32(s) as nat;
      if |s| < 4 + dlen then Err(EOF)
      else
        match Decode(s[4..4 + dlen])
        case Err(e) => Err(e)
        case Ok(m) => Ok((m, s[4 + dlen..]))
  }

  /** With no cipher, a sent message is received unchanged and only its frame is consumed. */
  lemma SendRecvRoundTrip(m: EMSG, rest: bytes)
    requires Len(m) < UINT32_LIMIT
    ensures Unframe(Send(m) + rest) == Ok((m, rest))
  {
    var w := Send(m) + rest;
    var b := Encode(m);
    var head := LE32(|b|);
    assert Send(m) == head + b;
    assert w[0] == head[0] && w[1] == head[1] && w[2] == head[2] && w[3] == head[3];
    LE32RoundTrip(|b|);
    assert ReadLE32(w) == ReadLE32(head) == |b|;
    assert w[4..4 + |b|] == b;
    assert w[4 + |b|..] == rest;
    DecodeEncode(m);
  }

  /** `Conn.Recv` with no cipher: 4-byte length, body, then `LoadEMSG`. */
  method Recv(r: Reader) returns (res: Result<(EMSG, Reader)>)
    ensures res.Ok? ==> Unframe(r.data) == Ok((res.value.0, res.value.1.data))
    ensures Reliable(r) && Unframe(r.data).Ok? ==> res.Ok?
    ensures Reliable(r) && Unframe(r.data) == Err(ErrMessageDataTooShort) ==> res == Err(ErrMessageDataTooShort)
    ensures |r.script| > 0 && r.script[0].Fail? ==> res == Err(r.script[0].error)
  {
    var head := MustRecv(r, 4);
    if head.Err? {
      return Err(head.error);
    }
    var (h, cur) := head.value;
    var dlen := ReadLE32(h);
    assert dlen == ReadLE32(r.data);
    var body := MustRecv(cur, dlen);
    if body.Err? {
      return Err(body.error);
    }
    var (data, rest) := body.value;
    assert data == r.data[4..4 + dlen];
    var m := Decode(data);
    if m.Err? {
      return Err(m.error);
    }
    return Ok((m.value, rest));
  }
}

=== FILE: legacy_msg.dfy ===
/** The legacy EMSG of otunnel's own `common/emsg` package: the same layout as
    the session EMSG but with a little-endian ID. */
module LegacyMsg {
  import opened Bytes
  import opened Wrappers

  const MsgTypeReq: byte := 1
  const MsgTypeRep: byte := 2

  const MinLength: nat := 5

  const ErrMessageDataTooShort := "message data is too short"

  datatype EMSG = EMSG(msgType: byte, id: uint32, payload: bytes)

  /** `EMSG.Len`: type byte, four ID bytes, payload. */
  function Len(m: EMSG): (n: nat)
    ensures n == |Encode(m)|
  {
    1 + 4 + |m.payload|
  }

  /** `EMSG.Bytes`. */
  function Encode(m: EMSG): (r: bytes)
    ensures |r| == MinLength + |m.payload|
    ensures r[0] == m.msgType && r[1..5] == LE32(m.id) && r[5..] == m.payload
  {
    var head := [m.msgType] + LE32(m.id);
    if |m.payload| > 0 then head + m.payload else head
  }

  /** `LoadEMSG`. */
  function Decode(d: bytes): (r: Result<EMSG>)
    ensures r.Err? <==> |d| < MinLength
    ensures r.Err? ==> r.error == ErrMessageDataTooShort
    ensures r.Ok? ==> r.value.msgType == d[0] && r.value.payload == d[5..]
  {
    if |d| < MinLength then Err(ErrMessageDataTooShort)
    else Ok(EMSG(d[0], ReadLE32(d[1..5]), d[5..]))
  }

  lemma DecodeEncode(m: EMSG)
    ensures Decode(Encode(m)) == Ok(m)
  {
    LE32RoundTrip(m.id);
  }

  lemma EncodeDecode(d: bytes)
    requires |d| >= MinLength
    ensures Decode(d).Ok? && Encode(Decode(d).value) == d
  {
    LE32Inverse(d[1..5]);
    assert d == [d[0]] + d[1..5] + d[5..];
  }
}

=== FILE: link.dfy ===
/** `Link`: one connection between two endpoints, multiplexing sessions,
    tunnels and keep-alive pings over a single queue of outbound messages.

    Every inbound message starts with a kind byte. The goroutines of the
    source (receive loop, send loop, keep-alive) are modelled as step
    functions over the link state; the socket, clocks and the JSON and regular
    expression libraries are parameters. */
module Link {
  import opened Bytes
  import opened Wrappers
  import opened Kinds
  import opened SessionMsg
  import opened Router
  import opened Json
  import SM = SessionManager
  import T = Tunnel
  import TM = TunnelManager
  import LP = ListenPool
  import H = Handler
  import EsConn

  /** `time.Duration` counts nanoseconds. */
  const Second: int := 1_000_000_000
  const DefaultKeepaliveInterval: int := 30 * Second
  const DefaultConnectionWriteTimeout: int := 10 * Second
  /** `defaultInterval`: the keep-alive period after a ping. */
  const DefaultInterval: int := 6 * Second
  const MaxLinkIdle: int := 60 * Second

  const ErrMsgPingInvalid := "invalid ping message"
  const ErrUnknownMsgType := "unknown message type"
  const ErrNilOutbound := "get nil from l.outbound"
  const PanicIndex := "index out of range"
  const PanicCloseNil := "close of nil channel"

  datatype LinkConfig = LinkConfig(isServerSide: bool, keepaliveInterval: int, connectionWriteTimeout: int)

  /** The link state. `out` is everything ever enqueued and `sent` how much of
      it the send loop has taken; `pings` are the pending ping IDs and
      `answered` those whose waiter was released by a response; `bound` says
      whether the stop channel exists (between `Bind` and `Wait`). `lp` is the
      process-wide listen pool. */
  datatype Link = Link(
    config: LinkConfig,
    sessions: SM.Manager,
    tunnels: TM.Manager,
    lp: LP.Pool,
    router: Router<H.Kind>,
    out: Outbound,
    sent: nat,
    outClosed: bool,
    pings: set<uint32>,
    answered: set<uint32>,
    pingID: uint32,
    shutdown: bool,
    bound: bool,
    stopped: bool)

  /** The outbound queue is closed exactly when the link is shut down, and the
      send loop never runs ahead of the queue. */
  predicate Valid(l: Link) {
    && SM.Valid(l.sessions)
    && TM.Valid(l.tunnels)
    && H.WellFormed(l.router)
    && l.sent <= |l.out|
    && (l.outClosed <==> l.shutdown)
    && (l.stopped ==> l.bound)
  }

  /** `newLink` with the default request handler: a missing configuration is
      an empty one, and zero durations take their defaults. */
  function NewLink(config: Option<LinkConfig>, re: Regex, lp: LP.Pool): (l: Link)
    ensures Valid(l)
    ensures l.config.isServerSide == (config.Some? && config.value.isServerSide)
    ensures config.None? || config.value.keepaliveInterval == 0 ==> l.config.keepaliveInterval == DefaultKeepaliveInterval
    ensures config.Some? && config.value.keepaliveInterval != 0 ==> l.config.keepaliveInterval == config.value.keepaliveInterval
    ensures config.None? || config.value.connectionWriteTimeout == 0 ==> l.config.connectionWriteTimeout == DefaultConnectionWriteTimeout
    ensures config.Some? && config.value.connectionWriteTimeout != 0 ==> l.config.connectionWriteTimeout == config.value.connectionWriteTimeout
    ensures l.out == [] && l.pings == {} && !l.shutdown && !l.bound
    ensures l.sessions == SM.NewManager(l.config.isServerSide) && l.tunnels == TM.NewManager(l.config.isServerSide)
  {
    var c := if config.None? then LinkConfig(false, 0, 0) else config.value;
    var c := if c.keepaliveInterval == 0 then c.(keepaliveInterval := DefaultKeepaliveInterval) else c;
    var c := if c.connectionWriteTimeout == 0 then c.(connectionWriteTimeout := DefaultConnectionWriteTimeout) else c;
    Link(c, SM.NewManager(c.isServerSide), TM.NewManager(c.isServerSide), lp, H.DefaultRouter(re),
         [], 0, false, {}, {}, 0, false, false, false)
  }

  /** Put messages on the outbound queue; once it is closed, a send panics. */
  function Enqueue(l: Link, ms: seq<bytes>): (r: Step<Link>)
    ensures r.Panics? <==> l.outClosed && |ms| > 0
    ensures r.Done? ==> r.value == l.(out := l.out + ms)
  {
    if l.outClosed && |ms| > 0 then Panics(PanicSendOnClosed) else Done(l.(out := l.out + ms))
  }

  /** The ping request for `id`: the kind byte, then the ID little-endian. */
  function PingFrame(k: Kinds, id: uint32): (f: bytes)
    ensures |f| == 5 && f[0] == k.pingRequest && ReadLE32(f[1..]) == id
  {
    LE32RoundTrip(id);
    assert ([k.pingRequest] + LE32(id))[1..] == LE32(id);
    [k.pingRequest] + LE32(id)
  }

  /** The first half of `Ping`: take the next ping ID (wrapping), mark it
      pending and send the request. */
  function PingStart(k: Kinds, l: Link): (r: Step<(uint32, Link)>)
    requires Valid(l)
    ensures r.Panics? <==> l.outClosed
    ensures r.Done? ==> var (id, l') := r.value;
      && Valid(l') && id == l.pingID && l'.pingID == AddU32(l.pingID, 1)
      && l'.pings == l.pings + {id}
      && l'.out == l.out + [PingFrame(k, id)]
      && l' == l.(pingID := l'.pingID, pings := l'.pings, out := l'.out)
  {
    var id := l.pingID;
    var l1 := l.(pingID := AddU32(l.pingID, 1), pings := l.pings + {id});
    match Enqueue(l1, [PingFrame(k, id)])
    case Done(l2) => Done((id, l2))
    case Blocks => Blocks
    case Panics(why) => Panics(why)
  }

  /** `Ping` timing out: forget the pending ID, so a late response is ignored. */
  function PingTimeout(l: Link, id: uint32): (l': Link)
    ensures l'.pings == l.pings - {id}
    ensures l' == l.(pings := l'.pings)
  {
    l.(pings := l.pings - {id})
  }

  /** `handlePing`: a response must carry exactly a 4-byte ID; a pending ID is
      cleared and its waiter released, an unknown one ignored. */
  function HandlePing(l: Link, payload: bytes): (r: (Result<Unit>, Link))
    ensures |payload| != 4 ==> r == (Err(ErrMsgPingInvalid), l)
    ensures |payload| == 4 ==> r.0.Ok?
    ensures |payload| == 4 && ReadLE32(payload) in l.pings ==>
      r.1 == l.(pings := l.pings - {ReadLE32(payload)}, answered := l.answered + {ReadLE32(payload)})
    ensures |payload| == 4 && ReadLE32(payload) !in l.pings ==> r.1 == l
  {
    if |payload| != 4 then (Err(ErrMsgPingInvalid), l)
    else
      var id := ReadLE32(payload);
      if id in l.pings then (Ok(Unit), l.(pings := l.pings - {id}, answered := l.answered + {id}))
      else (Ok(Unit), l)
  }

  /** The session layer's request handler as the link installs it. */
  function SessionHandler(router: Router<H.Kind>, re: Regex, j: Codec, listen: T.ListenIo)
    : (h: (H.State, EMSG) -> Step<(EMSG, H.State)>)
  {
    (st: H.State, m: EMSG) =>
      if H.WellFormed(router) && TM.Valid(st.tunnels) then H.Handle(router, re, j, listen, st, m)
      else Panics(H.PanicNil)
  }

  /** The handler keeps the tunnel manager valid. */
  lemma SessionHandlerValid(router: Router<H.Kind>, re: Regex, j: Codec, listen: T.ListenIo, st: H.State, m: EMSG)
    requires SessionHandler(router, re, j, listen)(st, m).Done?
    ensures TM.Valid(SessionHandler(router, re, j, listen)(st, m).value.1.tunnels)
  {
  }

  /** What one inbound message may meet: the socket outcomes of a tunnel
      message and of a tunnel creation. */
  datatype Env = Env(io: TM.ChannelIo, listen: T.ListenIo)

  /** A session message: the session manager handles it with the link's
      request handler, and whatever it answers goes on the outbound queue. */
  function RecvSession(k: Kinds, re: Regex, j: Codec, env: Env, l: Link, data: bytes): (r: Step<(Result<Unit>, Link)>)
    requires Valid(l)
    ensures r.Done? ==> Valid(r.value.1)
    ensures r.Done? ==> r.value.1.shutdown == l.shutdown && r.value.1.bound == l.bound && r.value.1.stopped == l.stopped
    ensures r.Done? ==> r.value.1.sent == l.sent && |r.value.1.out| >= |l.out| && r.value.1.out[..|l.out|] == l.out
  {
    var handle := SessionHandler(l.router, re, j, env.listen);
    match SM.HandleIn(l.sessions, k, H.State(l.tunnels, l.lp), handle, l.out, data)
    case Blocks => Blocks
    case Panics(why) => Panics(why)
    case Done(Err(e)) => Done((Err(e), l))
    case Done(Ok(after)) =>
      assert TM.Valid(after.handler.tunnels) by {
        if data[0] == MsgTypeRequest {
          SessionHandlerValid(l.router, re, j, env.listen, H.State(l.tunnels, l.lp), Decode(data).value);
        }
      }
      if l.outClosed && after.out != l.out then Panics(PanicSendOnClosed)
      else Done((Ok(Unit), l.(sessions := after.mgr, tunnels := after.handler.tunnels,
                              lp := after.handler.lp, out := after.out)))
  }

  /** One iteration of the receive loop: dispatch on the kind byte. An empty
      message panics on the index; a handler error ends the loop. */
  function RecvOne(k: Kinds, re: Regex, j: Codec, env: Env, l: Link, msg: bytes): (r: Step<(Result<Unit>, Link)>)
    requires Valid(l)
    ensures |msg| == 0 ==> r == Panics(PanicIndex)
    ensures r.Done? ==> Valid(r.value.1)
    ensures r.Done? ==> r.value.1.shutdown == l.shutdown && r.value.1.bound == l.bound && r.value.1.stopped == l.stopped
    ensures r.Done? ==> r.value.1.sent == l.sent && |r.value.1.out| >= |l.out| && r.value.1.out[..|l.out|] == l.out
  {
    if |msg| == 0 then Panics(PanicIndex)
    else
      var kind, data := msg[0], msg[1..];
      if kind == k.session then RecvSession(k, re, j, env, l, data)
      else if kind == k.tunnel then
        var (res, tm') := TM.HandleIn(k, l.tunnels, data, env.io);
        Done((res, l.(tunnels := tm')))
      else if kind == k.pingRequest then
        match Enqueue(l, [[k.pingResponse] + data])
        case Done(l') => Done((Ok(Unit), l'))
        case Blocks => Blocks
        case Panics(why) => Panics(why)
      else if kind == k.pingResponse then Done(HandlePing(l, data))
      else Done((Err(ErrUnknownMsgType), l))
  }

  /** The kind byte picks the handler: a ping request is answered by queueing
      the response, a ping response settles the pending ping, a tunnel message
      goes to the tunnel manager, and an unknown kind is an error. */
  lemma RecvOneDispatch(k: Kinds, re: Regex, j: Codec, env: Env, l: Link, msg: bytes)
    requires Valid(l) && |msg| > 0
    ensures msg[0] == k.pingRequest && !l.outClosed && k.Distinct() ==>
      RecvOne(k, re, j, env, l, msg) == Done((Ok(Unit), l.(out := l.out + [[k.pingResponse] + msg[1..]])))
    ensures msg[0] == k.pingResponse && k.Distinct() ==>
      RecvOne(k, re, j, env, l, msg) == Done(HandlePing(l, msg[1..]))
    ensures msg[0] == k.tunnel && k.session != k.tunnel ==>
      var (res, tm') := TM.HandleIn(k, l.tunnels, msg[1..], env.io);
      RecvOne(k, re, j, env, l, msg) == Done((res, l.(tunnels := tm')))
    ensures msg[0] !in {k.session, k.tunnel, k.pingRequest, k.pingResponse} ==>
      RecvOne(k, re, j, env, l, msg) == Done((Err(ErrUnknownMsgType), l))
  {
  }

  /** A ping answered end to end: the peer echoes the request's ID back, and
      the echo releases exactly that pending ping. */
  lemma PingRoundTrip(k: Kinds, re: Regex, j: Codec, env: Env, l: Link, peer: Link)
    requires k.Distinct() && Valid(l) && Valid(peer) && !l.outClosed && !peer.outClosed
    ensures PingStart(k, l).Done?
    ensures var (id, l') := PingStart(k, l).value;
      var echo := RecvOne(k, re, j, env, peer, PingFrame(k, id));
      && echo.Done? && echo.value.0.Ok?
      && var response := echo.value.1.out[|peer.out|];
         && |echo.value.1.out| == |peer.out| + 1
         && RecvOne(k, re, j, env, l', response)
            == Done((Ok(Unit), l'.(pings := l.pings - {id}, answered := l.answered + {id})))
  {
    var (id, l') := PingStart(k, l).value;
    var f := PingFrame(k, id);
    var response := [k.pingResponse] + f[1..];
    RecvOneDispatch(k, re, j, env, peer, f);
    RecvOneDispatch(k, re, j, env, l', response);
    assert response[1..] == f[1..];
    assert l.pings + {id} - {id} == l.pings - {id};
  }

  /** Messages arriving on the link: a message with the outcomes it meets, or
      a failed read. */
  datatype Incoming = Received(msg: bytes, env: Env) | RecvFailed(error: string)

  /** `recv`: handle messages until a read or a handler fails, and return that
      error with the number of inputs consumed. `Blocks` when the input runs out
      first. */
  function RecvLoop(k: Kinds, re: Regex, j: Codec, l: Link, input: seq<Incoming>): (r: Step<(string, Link, nat)>)
    requires Valid(l)
    ensures r.Done? ==> Valid(r.value.1) && 0 < r.value.2 <= |input|
    ensures r.Done? ==> r.value.1.shutdown == l.shutdown && r.value.1.sent == l.sent
    ensures |input| == 0 ==> r == Blocks
    // a failed read ends the loop with its error, before any handler runs
    ensures |input| > 0 && input[0].RecvFailed? ==> r == Done((input[0].error, l, 1))
    // a handler error ends the loop with that error; a panic propagates
    ensures |input| > 0 && input[0].Received? ==>
      var one := RecvOne(k, re, j, input[0].env, l, input[0].msg);
      && (one.Done? && one.value.0.Err? ==> r == Done((one.value.0.error, one.value.1, 1)))
      && (one.Panics? ==> r == Panics(one.reason))
      && (one.Blocks? ==> r.Blocks?)
    // every input before the one that ended the loop was a message
    ensures r.Done? ==> forall i :: 0 <= i < r.value.2 - 1 ==> input[i].Received?
    decreases |input|
  {
    if |input| == 0 then Blocks
    else match input[0]
      case RecvFailed(e) => Done((e, l, 1))
      case Received(msg, env) =>
        match RecvOne(k, re, j, env, l, msg)
        case Blocks => Blocks
        case Panics(why) => Panics(why)
        case Done((Err(e), l')) => Done((e, l', 1))
        case Done((Ok(_), l')) =>
          match RecvLoop(k, re, j, l', input[1..])
          case Blocks => Blocks
          case Panics(why) => Panics(why)
          case Done((e, l'', n)) => Done((e, l'', n + 1))
  }

  /** A message whose handler succeeds does not end the loop: it carries on
      with the rest of the input from the updated link, and stops where that
      stops, with the same error and one more input consumed. */
  lemma RecvLoopContinues(k: Kinds, re: Regex, j: Codec, l: Link, input: seq<Incoming>)
    requires Valid(l) && |input| > 0 && input[0].Received?
    requires var one := RecvOne(k, re, j, input[0].env, l, input[0].msg);
      one.Done? && one.value.0.Ok?
    ensures var l' := RecvOne(k, re, j, input[0].env, l, input[0].msg).value.1;
      var r, rest := RecvLoop(k, re, j, l, input), RecvLoop(k, re, j, l', input[1..]);
      && (r.Done? <==> rest.Done?)
      && (r.Blocks? <==> rest.Blocks?)
      && (r.Done? ==> r.value == (rest.value.0, rest.value.1, rest.value.2 + 1))
  {
  }

  /** Nothing after the failing input is ever looked at: extending the input
      past the point where the loop stopped does not change its result. */
  lemma {:induction false} RecvLoopStopsAtError(k: Kinds, re: Regex, j: Codec, l: Link,
                                                 input: seq<Incoming>, more: seq<Incoming>)
    requires Valid(l) && RecvLoop(k, re, j, l, input).Done?
    ensures RecvLoop(k, re, j, l, input + more) == RecvLoop(k, re, j, l, input)
    decreases |input|
  {
    assert (input + more)[0] == input[0];
    assert (input + more)[1..] == input[1..] + more;
    if input[0].Received? {
      var step := RecvOne(k, re, j, input[0].env, l, input[0].msg);
      if step.Done? && step.value.0.Ok? {
        RecvLoopStopsAtError(k, re, j, step.value.1, input[1..], more);
      }
    }
  }

  /** One iteration of the send loop. Its `select` waits on the outbound
      queue, the stop channel and the shutdown channel (closed together with
      the queue); when the queue and an exit are both ready, Go picks one at
      random, and `takeQueue` is that pick. Taking a message frames it with
      `BaseConn.Send` as written and hands it to the socket (`write` is the
      socket's outcome): `Ok(Some(frame))`. A closed, drained queue yields nil,
      which ends the loop with an error; a stop or a shutdown ends it with nil,
      `Ok(None)`. */
  function SendStep(l: Link, write: Result<Unit>, takeQueue: bool): (r: Step<(Result<Option<bytes>>, Link)>)
    requires Valid(l)
    ensures r.Blocks? <==> l.sent == |l.out| && !l.outClosed && !l.stopped
    // with no exit ready, the queue decides alone
    ensures !l.stopped && !l.outClosed && l.sent < |l.out| ==>
      r.Done? && (r.value.0.Ok? <==> write.Ok?) && (r.value.0.Ok? ==> r.value.0.value.Some?)
    // the loop ends with nil when an exit is ready and the select does not take the queue
    ensures (l.stopped || l.outClosed) && !takeQueue ==> r == Done((Ok(None), l))
    ensures l.stopped && l.sent == |l.out| && !l.outClosed ==> r == Done((Ok(None), l))
    ensures takeQueue && l.sent == |l.out| && l.outClosed ==> r == Done((Err(ErrNilOutbound), l))
    ensures takeQueue && l.sent < |l.out| ==>
      r.Done? && (r.value.0.Ok? <==> write.Ok?) && (r.value.0.Ok? ==> r.value.0.value.Some?)
    ensures r.Done? && r.value.0 == Ok(None) ==> (l.stopped || l.outClosed) && r.value.1 == l
    ensures r.Done? && r.value.0.Ok? && r.value.0.value.Some? ==>
      l.sent < |l.out| && r.value.1 == l.(sent := l.sent + 1)
    ensures r.Done? && r.value.0.Err? ==> r.value.1 == l
    // the frame: a 2-byte header holding the length modulo 65536, then the message
    ensures r.Done? && r.value.0.Ok? && r.value.0.value.Some? && l.sent < |l.out| ==>
      && |r.value.0.value.value| == 2 + |l.out[l.sent]|
      && ReadBE16(r.value.0.value.value) == |l.out[l.sent]| % UINT16_LIMIT
      && r.value.0.value.value[2..] == l.out[l.sent]
    // a message that fits the header is read back whole by the peer
    ensures r.Done? && r.value.0.Ok? && r.value.0.value.Some? && l.sent < |l.out|
              && |l.out[l.sent]| <= EsConn.MaxMessageLength ==>
      forall rest :: EsConn.Unframe(r.value.0.value.value + rest) == Ok((l.out[l.sent], rest))
  {
    var queueReady := l.sent < |l.out| || l.outClosed;
    var exitReady := l.stopped || l.outClosed;
    if queueReady && (takeQueue || !exitReady) then
      if l.sent < |l.out| then
        var wire := EsConn.Send(l.out[l.sent]).value;
        match write
        case Err(e) => Done((Err(e), l))
        case Ok(_) =>
          assert |l.out[l.sent]| <= EsConn.MaxMessageLength ==>
            forall rest :: EsConn.Unframe(wire + rest) == Ok((l.out[l.sent], rest)) by {
            if |l.out[l.sent]| <= EsConn.MaxMessageLength {
              EsConn.FrameRoundTrip(l.out[l.sent]);
            }
          }
          Done((Ok(Some(wire)), l.(sent := l.sent + 1)))
      else Done((Err(ErrNilOutbound), l))
    else if exitReady then Done((Ok(None), l))
    else Blocks
  }

  /** The send loop as written, taking a queued message of 65536 bytes: it goes
      out with header 0, the loop carries on, and the peer reads an empty
      message with the whole body left over as further frames. */
  lemma SendStepOversize(l: Link, write: Result<Unit>)
    requires Valid(l) && l.sent < |l.out| && |l.out[l.sent]| == 65536 && write.Ok?
    ensures var r := SendStep(l, write, true);
      && r.Done? && r.value.0.Ok? && r.value.0.value.Some? && r.value.1.sent == l.sent + 1
      && EsConn.Unframe(r.value.0.value.value) == Ok(([], l.out[l.sent]))
  {
    var wire := SendStep(l, write, true).value.0.value.value;
    assert ReadBE16(wire) == 0;
    assert wire[2..2] == [];
  }

  /** `Close`: shut down once. The outbound queue is closed, every listener of
      the process-wide pool is closed and dropped (along `keys`, an
      enumeration of its keys), and every session is closed and dropped. A
      second call changes nothing. */
  function Close(l: Link, keys: seq<string>): (r: Link)
    requires Valid(l)
    requires forall i :: 0 <= i < |keys| ==> keys[i] in l.lp.targets
    requires forall i, i' :: 0 <= i < i' < |keys| ==> keys[i] != keys[i']
    requires forall key :: key in l.lp.targets ==> key in keys
    ensures Valid(r) && r.shutdown && r.outClosed
    ensures l.shutdown ==> r == l
    ensures !l.shutdown ==> r.lp.targets == map[] && r.sessions.pool.sessions == map[]
    ensures r.out == l.out && r.tunnels == l.tunnels
  {
    if l.shutdown then l
    else
      var (_, lp') := TM.Close(l.lp, keys);
      var (sm', _) := SM.Close(l.sessions).value;
      l.(shutdown := true, outClosed := true, lp := lp', sessions := sm')
  }

  /** `Stop`: close the stop channel once. Before `Bind` there is no stop
      channel, and closing the nil channel panics. */
  function Stop(l: Link): (r: Step<Link>)
    ensures r.Panics? <==> !l.bound
    ensures r.Done? ==> r.value == l.(stopped := true)
  {
    if !l.bound then Panics(PanicCloseNil)
    else if l.stopped then Done(l)
    else Done(l.(stopped := true))
  }

  /** `Stop` on a bound link is idempotent. */
  lemma StopIdempotent(l: Link)
    requires l.bound
    ensures Stop(l).Done? && Stop(Stop(l).value) == Stop(l)
  {
  }

  /** `Bind` (without the loops it starts): make a fresh stop channel and send
      the first ping. */
  function Bind(k: Kinds, l: Link): (r: Step<(uint32, Link)>)
    requires Valid(l)
    ensures r.Panics? <==> l.outClosed
    ensures r.Done? ==> Valid(r.value.1) && r.value.1.bound && !r.value.1.stopped
    ensures r.Done? ==> r.value.0 in r.value.1.pings
  {
    PingStart(k, l.(bound := true, stopped := false))
  }

  /** `Wait` (after the loops have ended): stop the link and drop the stop
      channel, so a later `Stop` panics again until the next `Bind`. */
  function Wait(l: Link): (r: Step<Link>)
    requires Valid(l)
    ensures r.Panics? <==> !l.bound
    ensures r.Done? ==> Valid(r.value) && !r.value.bound && !r.value.stopped
    ensures r.Done? ==> Stop(r.value).Panics?
  {
    match Stop(l)
    case Done(l') => Done(l'.(bound := false, stopped := false))
    case Blocks => Blocks
    case Panics(why) => Panics(why)
  }

  /** The outcome of one keep-alive wake-up. */
  datatype Tick = Tick(next: int, ping: bool, stop: bool)

  /** One keep-alive wake-up after `idle` nanoseconds without inbound traffic
      (`pingOk` is the ping's outcome when one is sent). Past the keep-alive
      interval the link is pinged and the next wake-up is `defaultInterval`
      away; a failed ping past `maxLinkIdle` stops the link. Otherwise the next
      wake-up is when the interval would expire. */
  function Keepalive(c: LinkConfig, idle: int, pingOk: bool): (t: Tick)
    ensures t.ping <==> idle > c.keepaliveInterval
    ensures t.stop <==> t.ping && !pingOk && idle > MaxLinkIdle
    ensures t.ping ==> t.next == DefaultInterval
    ensures !t.ping ==> idle + t.next == c.keepaliveInterval
  {
    if idle > c.keepaliveInterval then
      Tick(DefaultInterval, true, !pingOk && idle > MaxLinkIdle)
    else Tick(c.keepaliveInterval - idle, false, false)
  }

  /** On a link with the default configuration, a silent link is first pinged
      only past 30 seconds, and stopped only by a failed ping past 60 seconds;
      a link that answers its pings is never stopped. */
  lemma KeepaliveDefaults(idle: int, pingOk: bool)
    ensures var t := Keepalive(NewLink(None, Regex(_ => true, (_, _) => true), LP.Pool(map[])).config, idle, pingOk);
      (t.ping <==> idle > 30 * Second) && (t.stop ==> idle > 60 * Second && !pingOk) && (pingOk ==> !t.stop)
  {
  }
}

=== FILE: listen_pool.dfy ===
/** The process-wide pool of listening sockets, keyed by protocol and address. */
module ListenPool {
  import opened Wrappers
  import opened Decimal

  const ErrDeleteNotExist := "delete failed: listen port not exist"

  /** A TCP listener. The socket is abstract; `listenerCloses` counts how often
      it has been closed. */
  datatype Target = Target(addr: string, closed: bool, listenerCloses: nat)

  datatype Pool = Pool(targets: map<string, Target>)

  /** `host:port` as `fmt.Sprintf("%s:%d")` prints it. */
  function Addr(host: string, port: int): (s: string)
    ensures |s| == |host| + 1 + |IntStr(port)|
    ensures s[..|host|] == host && s[|host|] == ':' && s[|host| + 1..] == IntStr(port)
  {
    host + ":" + IntStr(port)
  }

  function NewTarget(host: string, port: int): (t: Target)
    ensures t.addr == Addr(host, port) && !t.closed && t.listenerCloses == 0
  {
    Target(Addr(host, port), false, 0)
  }

  /** `TCPKey`. */
  function TCPKey(host: string, port: int): (k: string)
    ensures |k| == 4 + |Addr(host, port)|
    ensures k[..4] == "tcp:" && k[4..] == Addr(host, port)
  {
    "tcp:" + Addr(host, port)
  }

  /** `UDPKey` as written: it uses the TCP prefix. */
  function UDPKey(host: string, port: int): (k: string)
    ensures |k| == 4 + |Addr(host, port)|
    ensures k[..4] == "tcp:" && k[4..] == Addr(host, port)
  {
    "tcp:" + Addr(host, port)
  }

  /** The UDP key of an address is its TCP key, so a UDP listen is refused
      wherever a TCP listen holds the same address. */
  lemma UDPKeyCollides(host: string, port: int)
    ensures UDPKey(host, port) == TCPKey(host, port)
  {
  }

  /** The key with the protocol's own prefix; `ListenKey("tcp", …)` is `TCPKey`. */
  function ListenKey(proto: string, host: string, port: int): (k: string)
    ensures |k| == |proto| + 1 + |Addr(host, port)|
    ensures k[..|proto|] == proto && k[|proto|] == ':' && k[|proto| + 1..] == Addr(host, port)
  {
    proto + ":" + Addr(host, port)
  }

  /** With per-protocol prefixes, TCP and UDP keys never collide, and the TCP
      key is unchanged. */
  lemma ListenKeySeparatesProtocols(host: string, port: int, host2: string, port2: int)
    ensures ListenKey("tcp", host, port) != ListenKey("udp", host2, port2)
    ensures ListenKey("tcp", host, port) == TCPKey(host, port)
  {
    assert ListenKey("tcp", host, port)[0] == 't';
    assert ListenKey("udp", host2, port2)[0] == 'u';
    var a := Addr(host, port);
    assert ListenKey("tcp", host, port) == "tcp" + ":" + a;
    assert "tcp" + ":" == "tcp:";
    assert TCPKey(host, port) == "tcp:" + a;
  }

  /** A key names one address: different (host, port) pairs get different keys. */
  lemma TCPKeyInjective(h1: string, p1: int, h2: string, p2: int)
    requires TCPKey(h1, p1) == TCPKey(h2, p2)
    ensures h1 == h2 && p1 == p2
  {
    TCPKeyParts(h1, p1);
    TCPKeyParts(h2, p2);
    IntStrInjective(p1, p2);
  }

  /** The host and the digits of a TCP key sit on either side of its last colon. */
  lemma TCPKeyParts(h: string, p: int)
    ensures LastColon(TCPKey(h, p)) == 4 + |h|
    ensures TCPKey(h, p)[4..4 + |h|] == h
    ensures TCPKey(h, p)[5 + |h|..] == IntStr(p)
  {
    var k := TCPKey(h, p);
    var d := IntStr(p);
    assert k == "tcp:" + h + ":" + d;
    NoColon(p);
    ColonPosition(h, d, k);
  }

  /** In `tcp:<host>:<digits>`, the last colon stands right before the digits. */
  lemma ColonPosition(h: string, d: string, k: string)
    requires k == "tcp:" + h + ":" + d
    requires forall i :: 0 <= i < |d| ==> d[i] != ':'
    ensures LastColon(k) == |k| - |d| - 1
  {
    LastColonOf(k, |k| - |d| - 1);
  }

  /** The index of the last colon in `s`, or -1. */
  function LastColon(s: string): (i: int)
    ensures -1 <= i < |s|
    ensures i >= 0 ==> s[i] == ':'
    decreases |s|
  {
    if |s| == 0 then -1
    else if s[|s| - 1] == ':' then |s| - 1
    else LastColon(s[..|s| - 1])
  }

  lemma {:induction false} LastColonOf(s: string, i: nat)
    requires i < |s| && s[i] == ':'
    requires forall j :: i < j < |s| ==> s[j] != ':'
    ensures LastColon(s) == i
    decreases |s|
  {
    if s[|s| - 1] != ':' {
      LastColonOf(s[..|s| - 1], i);
    }
  }

  /** Decimal text never contains a colon. */
  lemma NoColon(n: int)
    ensures forall i :: 0 <= i < |IntStr(n)| ==> IntStr(n)[i] != ':'
  {
    var s := IntStr(n);
    if n < 0 {
      forall i | 1 <= i < |s|
        ensures s[i] != ':'
      {
        assert s[1..][i - 1] == s[i];
      }
    }
  }

  function Exist(p: Pool, key: string): (b: bool)
    ensures b <==> key in p.targets
  {
    key in p.targets
  }

  /** `Add` stores the target, replacing any under the same key. */
  function Add(p: Pool, key: string, t: Target): (r: Pool)
    ensures r.targets == p.targets[key := t]
    ensures Get(r, key) == Some(t)
  {
    Pool(p.targets[key := t])
  }

  function Get(p: Pool, key: string): (r: Option<Target>)
    ensures r.Some? <==> key in p.targets
    ensures r.Some? ==> r.value == p.targets[key]
  {
    if key in p.targets then Some(p.targets[key]) else None
  }

  /** `listenTarget.Close`: the listener is closed on the first call only. */
  function CloseTarget(t: Target): (r: Target)
    ensures r.closed && r.addr == t.addr
    ensures r.listenerCloses == (if t.closed then t.listenerCloses else t.listenerCloses + 1)
  {
    if t.closed then t else t.(closed := true, listenerCloses := t.listenerCloses + 1)
  }

  /** Closing a listener twice closes the socket once. */
  lemma CloseTargetIdempotent(t: Target)
    ensures CloseTarget(CloseTarget(t)) == CloseTarget(t)
  {
  }

  /** `Delete`: close the target under `key` and drop it. */
  function Delete(p: Pool, key: string): (r: Result<(Pool, Target)>)
    ensures r.Err? <==> key !in p.targets
    ensures r.Err? ==> r.error == ErrDeleteNotExist
    ensures r.Ok? ==> r.value.0.targets == p.targets - {key}
    ensures r.Ok? ==> r.value.1 == CloseTarget(p.targets[key])
  {
    if key !in p.targets then Err(ErrDeleteNotExist)
    else Ok((Pool(p.targets - {key}), CloseTarget(p.targets[key])))
  }

  /** Deleting a key just added removes it and closes what was added. */
  lemma AddDelete(p: Pool, key: string, t: Target)
    requires key !in p.targets
    ensures Delete(Add(p, key, t), key) == Ok((p, CloseTarget(t)))
  {
    assert p.targets[key := t] - {key} == p.targets;
  }

  /** The keys an enumeration lists. */
  function Elems(keys: seq<string>): (r: set<string>)
    ensures forall k :: k in r <==> k in keys
  {
    if |keys| == 0 then {} else {keys[0]} + Elems(keys[1..])
  }

  /** `Manager.Close`: delete every key of a snapshot enumeration of the pool.
      Returns the emptied pool and the targets, each closed. */
  function DeleteAll(p: Pool, keys: seq<string>): (r: (Pool, map<string, Target>))
    requires forall i :: 0 <= i < |keys| ==> keys[i] in p.targets
    requires forall i, j :: 0 <= i < j < |keys| ==> keys[i] != keys[j]
    decreases |keys|
  {
    if |keys| == 0 then (p, map[])
    else
      var q := Pool(p.targets - {keys[0]});
      var rest := keys[1..];
      assert forall i :: 0 <= i < |rest| ==> rest[i] == keys[i + 1];
      var (q', closed) := DeleteAll(q, rest);
      (q', closed[keys[0] := CloseTarget(p.targets[keys[0]])])
  }

  /** The listed keys leave the pool and come back in the closed map; the
      others stay. */
  lemma {:induction false} DeleteAllKeys(p: Pool, keys: seq<string>)
    requires forall i :: 0 <= i < |keys| ==> keys[i] in p.targets
    requires forall i, j :: 0 <= i < j < |keys| ==> keys[i] != keys[j]
    ensures DeleteAll(p, keys).0.targets.Keys == p.targets.Keys - Elems(keys)
    ensures DeleteAll(p, keys).1.Keys == Elems(keys)
    decreases |keys|
  {
    if |keys| > 0 {
      var q := Pool(p.targets - {keys[0]});
      var rest := keys[1..];
      assert forall i :: 0 <= i < |rest| ==> rest[i] == keys[i + 1];
      DeleteAllKeys(q, rest);
      var r := DeleteAll(q, rest);
      var d := DeleteAll(p, keys);
      assert d.0 == r.0;
      assert d.1 == r.1[keys[0] := CloseTarget(p.targets[keys[0]])];
      assert Elems(keys) == {keys[0]} + Elems(rest);
      assert q.targets.Keys == p.targets.Keys - {keys[0]};
    }
  }

  /** Every target handed back is the pool's target closed, and every target
      left in the pool is as it was. */
  lemma {:induction false} DeleteAllValues(p: Pool, keys: seq<string>)
    requires forall i :: 0 <= i < |keys| ==> keys[i] in p.targets
    requires forall i, j :: 0 <= i < j < |keys| ==> keys[i] != keys[j]
    ensures forall k :: k in DeleteAll(p, keys).1 ==>
              k in p.targets && DeleteAll(p, keys).1[k] == CloseTarget(p.targets[k])
    ensures forall k :: k in DeleteAll(p, keys).0.targets ==>
              k in p.targets && DeleteAll(p, keys).0.targets[k] == p.targets[k]
    decreases |keys|
  {
    if |keys| > 0 {
      var q := Pool(p.targets - {keys[0]});
      var rest := keys[1..];
      assert forall i :: 0 <= i < |rest| ==> rest[i] == keys[i + 1];
      DeleteAllValues(q, rest);
      var r := DeleteAll(q, rest);
      var d := DeleteAll(p, keys);
      assert d.0 == r.0;
      assert d.1 == r.1[keys[0] := CloseTarget(p.targets[keys[0]])];
    }
  }

  /** Deleting along an enumeration of every key leaves the pool empty with
      every listener closed. */
  lemma CloseEmptiesPool(p: Pool, keys: seq<string>)
    requires forall i :: 0 <= i < |keys| ==> keys[i] in p.targets
    requires forall i, j :: 0 <= i < j < |keys| ==> keys[i] != keys[j]
    requires forall k :: k in p.targets ==> k in keys
    ensures DeleteAll(p, keys).0.targets == map[]
    ensures DeleteAll(p, keys).1.Keys == p.targets.Keys
    ensures forall k :: k in p.targets ==> DeleteAll(p, keys).1[k].closed
  {
    DeleteAllKeys(p, keys);
    DeleteAllValues(p, keys);
    var (q, closed) := DeleteAll(p, keys);
    assert q.targets.Keys == {};
  }
}

=== FILE: open_tunnel.dfy ===
/** `defaultOpenTunnel`: open a tunnel across the link. The far endpoint is
    asked, over a fresh session, to create the mirror image of the tunnel; on
    success this endpoint creates the tunnel under the ID the far endpoint
    chose.

    The wait for the reply is not modelled as such: `respData` is what the
    session's wait returns (the reply's payload, or an empty payload when the
    link closed first). */
module OpenTunnel {
  import opened Bytes
  import opened Wrappers
  import opened Kinds
  import opened SessionMsg
  import opened Session
  import opened Router
  import opened Json
  import opened TunnelConfig
  import SM = SessionManager
  import T = Tunnel
  import TM = TunnelManager
  import LP = ListenPool
  import H = Handler

  const ErrRemoteFailed := "open tunnel in the remote endpoint failed"
  const ErrUnmarshalBody := "json unmarshal body error"
  const ErrLocalFailed := "open tunnel in the local side failed"

  datatype Outcome = Outcome(result: Result<Unit>, sessions: SM.Manager, tunnels: TM.Manager, lp: LP.Pool, out: Outbound)

  /** The request the far endpoint receives: "/tunnel" with the mirrored
      configuration as body. */
  function TunnelRequest(j: Codec, cfg: Config): (req: Request)
    ensures req.action == H.TunnelAction
    ensures RoundTrips(j) ==> j.decodeConfig(req.body) == Ok(Some(RemoteConfig(cfg)))
  {
    Request(H.TunnelAction, j.encodeConfig(RemoteConfig(cfg)))
  }

  /** `defaultOpenTunnel` with `respData` as the reply's payload. `outClosed`
      says whether the link's outbound queue is closed, in which case sending
      the request panics. `Blocks` when no session ID is free. */
  function OpenTunnel(k: Kinds, j: Codec, sm: SM.Manager, tm: TM.Manager, lp: LP.Pool, out: Outbound, outClosed: bool,
                      cfg: Config, respData: bytes, listen: T.ListenIo): (r: Step<Outcome>)
    requires TM.Valid(tm) && cfg.id == 0
    // the request's send panics on a closed outbound queue
    ensures outClosed && SM.New(sm).Some? ==> r == Panics(PanicSendOnClosed)
    ensures outClosed ==> !r.Done?
    // exactly one session is allocated and exactly one request is sent on it
    ensures r.Done? ==> SM.New(sm).Some? && r.value.sessions == SM.New(sm).value.1
    ensures r.Done? ==> var s := SM.New(sm).value.0;
      r.value.out == out + [RequestFrame(k, s, j.encodeRequest(TunnelRequest(j, cfg)))]
    ensures r.Done? ==> TM.Valid(r.value.tunnels)
    // on failure no tunnel is left behind locally
    ensures r.Done? && r.value.result.Err? ==> r.value.tunnels.pool.tunnels == tm.pool.tunnels && r.value.lp == lp
    // on success the local tunnel is created from the original configuration
    // under the ID the far endpoint returned
    ensures r.Done? && r.value.result.Ok? ==>
      && j.decodeResponse(respData).Ok? && j.decodeResponse(respData).value.Some?
      && var resp := j.decodeResponse(respData).value.value;
         resp.status == H.StatusSuccess && j.decodeCreateBody(resp.body).Ok?
         && var created := TM.TunnelCreate(tm, lp, cfg.(id := j.decodeCreateBody(resp.body).value), listen);
            created.Done? && created.value.0.Ok?
            && r.value.tunnels == created.value.1 && r.value.lp == created.value.2
    ensures (r.Done? && j.decodeResponse(respData).Ok? && j.decodeResponse(respData).value.Some?
      && j.decodeResponse(respData).value.value.status != H.StatusSuccess) ==> r.value.result == Err(ErrRemoteFailed)
  {
    match SM.New(sm)
    case None => Blocks
    case Some((s, sm')) =>
      if outClosed then Panics(PanicSendOnClosed)
      else
        var out' := out + [RequestFrame(k, s, j.encodeRequest(TunnelRequest(j, cfg)))];
        match j.decodeResponse(respData)
        case Err(e) => Done(Outcome(Err(e), sm', tm, lp, out'))
        case Ok(None) => Panics(H.PanicNil)
        case Ok(Some(resp)) =>
          if resp.status != H.StatusSuccess then Done(Outcome(Err(ErrRemoteFailed), sm', tm, lp, out'))
          else match j.decodeCreateBody(resp.body)
            case Err(_) => Done(Outcome(Err(ErrUnmarshalBody), sm', tm, lp, out'))
            case Ok(id) =>
              match TM.TunnelCreate(tm, lp, cfg.(id := id), listen)
              case Blocks => Blocks
              case Panics(why) => Panics(why)
              case Done((Err(_), tm', lp')) => Done(Outcome(Err(ErrLocalFailed), sm', tm', lp', out'))
              case Done((Ok(t), tm', lp')) =>
                Done(Outcome(Ok(Unit), sm', tm', lp', out'))
  }

  /** The far endpoint's side: its default handler decodes the mirrored
      configuration, creates that tunnel, and replies "success" with the
      tunnel's ID. */
  lemma PeerCreatesMirror(j: Codec, re: Regex, peer: H.State, peerListen: T.ListenIo, sid: uint32, cfg: Config)
    requires RoundTrips(j) && TM.Valid(peer.tunnels)
    requires re.compiles(Anchor(H.EchoAction)) && re.compiles(Anchor(H.TunnelAction))
    requires var m := EMSG(MsgTypeRequest, sid, j.encodeRequest(TunnelRequest(j, cfg)));
      H.Handle(H.DefaultRouter(re), re, j, peerListen, peer, m).Done?
    ensures var m := EMSG(MsgTypeRequest, sid, j.encodeRequest(TunnelRequest(j, cfg)));
      var (reply, peer') := H.Handle(H.DefaultRouter(re), re, j, peerListen, peer, m).value;
      var created := TM.TunnelCreate(peer.tunnels, peer.lp, RemoteConfig(cfg), peerListen);
      && created.Done? && created.value.0.Ok?
      && var pt := created.value.0.value;
         && pt.config == RemoteConfig(cfg).(id := pt.id) && pt.id != 0
         && peer'.tunnels == created.value.1
         && j.decodeResponse(reply.payload) == Ok(Some(Response(H.StatusSuccess, j.encodeCreateBody(pt.id))))
  {
    var m := EMSG(MsgTypeRequest, sid, j.encodeRequest(TunnelRequest(j, cfg)));
    var req := TunnelRequest(j, cfg);
    var router := H.DefaultRouter(re);
    H.DefaultDispatch(re, H.TunnelAction);
    assert j.decodeRequest(m.payload) == Ok(Some(req));
    if !H.HandleTunnelCreate(j, peerListen, peer, req).Done? {
      H.HandleTunnelNotDone(router, re, j, peerListen, peer, m, req);
      assert false;
    }
    H.HandleRoutesTunnel(router, re, j, peerListen, peer, m, req);
  }

  /** This endpoint's side: a "success" reply carrying a nonzero ID makes the
      local tunnel the requested configuration under that ID. */
  lemma LocalAdoptsID(k: Kinds, j: Codec, sm: SM.Manager, tm: TM.Manager, lp: LP.Pool, out: Outbound, outClosed: bool,
                      cfg: Config, respData: bytes, listen: T.ListenIo, id: uint32)
    requires RoundTrips(j) && TM.Valid(tm) && cfg.id == 0 && id != 0
    requires j.decodeResponse(respData) == Ok(Some(Response(H.StatusSuccess, j.encodeCreateBody(id))))
    ensures var r := OpenTunnel(k, j, sm, tm, lp, out, outClosed, cfg, respData, listen);
      r.Done? && r.value.result.Ok? ==>
        id in r.value.tunnels.pool.tunnels && r.value.tunnels.pool.tunnels[id].config == cfg.(id := id)
  {
  }

  /** End to end: when the far endpoint's default handler serves the request
      and its reply comes back, both endpoints hold the tunnel under the same
      ID, and each configuration is the mirror image of the other. */
  lemma MirroredTunnels(k: Kinds, j: Codec, re: Regex, sm: SM.Manager, tm: TM.Manager, lp: LP.Pool,
                        out: Outbound, outClosed: bool, cfg: Config, listen: T.ListenIo,
                        peer: H.State, peerListen: T.ListenIo, sid: uint32)
    requires RoundTrips(j) && TM.Valid(tm) && TM.Valid(peer.tunnels) && cfg.id == 0
    requires re.compiles(Anchor(H.EchoAction)) && re.compiles(Anchor(H.TunnelAction))
    requires var m := EMSG(MsgTypeRequest, sid, j.encodeRequest(TunnelRequest(j, cfg)));
      H.Handle(H.DefaultRouter(re), re, j, peerListen, peer, m).Done?
    ensures var m := EMSG(MsgTypeRequest, sid, j.encodeRequest(TunnelRequest(j, cfg)));
      var (reply, peer') := H.Handle(H.DefaultRouter(re), re, j, peerListen, peer, m).value;
      var r := OpenTunnel(k, j, sm, tm, lp, out, outClosed, cfg, reply.payload, listen);
      r.Done? && r.value.result.Ok? ==>
        exists id :: id in peer'.tunnels.pool.tunnels && id in r.value.tunnels.pool.tunnels
          && RemoteConfig(r.value.tunnels.pool.tunnels[id].config) == peer'.tunnels.pool.tunnels[id].config.(id := 0)
          && r.value.tunnels.pool.tunnels[id].config.id == peer'.tunnels.pool.tunnels[id].config.id == id
  {
    var m := EMSG(MsgTypeRequest, sid, j.encodeRequest(TunnelRequest(j, cfg)));
    PeerCreatesMirror(j, re, peer, peerListen, sid, cfg);
    var (reply, peer') := H.Handle(H.DefaultRouter(re), re, j, peerListen, peer, m).value;
    var created := TM.TunnelCreate(peer.tunnels, peer.lp, RemoteConfig(cfg), peerListen);
    var pt := created.value.0.value;
    LocalAdoptsID(k, j, sm, tm, lp, out, outClosed, cfg, reply.payload, listen, pt.id);
    RemoteConfigInvolution(cfg);
    var r := OpenTunnel(k, j, sm, tm, lp, out, outClosed, cfg, reply.payload, listen);
    if r.Done? && r.value.result.Ok? {
      assert pt.id in peer'.tunnels.pool.tunnels;
      assert RemoteConfig(cfg.(id := pt.id)) == RemoteConfig(cfg);
    }
  }
}

=== FILE: router.dfy ===
/** `session.Router`: routes keyed by an anchored regular expression built from
    the route's action string.

    The regular-expression engine is not modelled. A pattern whose body (the
    part between `^` and `$`) is free of metacharacters matches exactly the
    string equal to that body, which is what Go's `regexp` does for such
    patterns; whether a pattern compiles, and how a pattern with
    metacharacters matches, are parameters (`Regex`). */
module Router {
  import opened Wrappers

  const ErrNoHandler := "no such handler"

  datatype Route<H> = Route(action: string, handler: H)

  /** An element of `reMatch`: the compiled pattern and its route. */
  datatype Entry<H> = Entry(pattern: string, route: Route<H>)

  datatype Router<H> = Router(entries: seq<Entry<H>>)

  datatype Regex = Regex(compiles: string -> bool, matchMeta: (string, string) -> bool)

  predicate HasPrefix(s: string, p: string) {
    |p| <= |s| && s[..|p|] == p
  }

  predicate HasSuffix(s: string, p: string) {
    |p| <= |s| && s[|s| - |p|..] == p
  }

  /** The characters `regexp.QuoteMeta` escapes. */
  predicate IsMeta(c: char) {
    c in "\\.+*?()|[]{}^$"
  }

  predicate MetaFree(s: string) {
    forall i :: 0 <= i < |s| ==> !IsMeta(s[i])
  }

  predicate Anchored(p: string) {
    |p| >= 2 && p[0] == '^' && p[|p| - 1] == '$'
  }

  /** The pattern `AddRoute` builds: "^" is prefixed only when the action lacks
      it, "$" is suffixed only when it lacks it. */
  function Anchor(action: string): (p: string)
    ensures Anchored(p)
    ensures HasPrefix(action, "^") && HasSuffix(action, "$") ==> p == action
    ensures |action| <= |p| <= |action| + 2
    ensures !HasPrefix(action, "^") ==> |p| >= |action| + 1 && p[1..1 + |action|] == action
    ensures HasPrefix(action, "^") ==> p[..|action|] == action
  {
    var withHead := if HasPrefix(action, "^") then action else "^" + action;
    assert |withHead| >= 1 && withHead[0] == '^';
    if HasSuffix(withHead, "$") then
      assert withHead[|withHead| - 1..] == "$";
      assert withHead[|withHead| - 1] == '$' != withHead[0];
      withHead
    else withHead + "$"
  }

  /** Anchoring an anchored pattern changes nothing. */
  lemma AnchorIdempotent(action: string)
    ensures Anchor(Anchor(action)) == Anchor(action)
  {
    var p := Anchor(action);
    assert HasPrefix(p, "^") by { assert p[..1] == [p[0]]; }
    assert HasSuffix(p, "$") by { assert p[|p| - 1..] == [p[|p| - 1]]; }
  }

  /** The part of an anchored pattern between "^" and "$". */
  function Body(p: string): string
    requires Anchored(p)
  {
    p[1..|p| - 1]
  }

  /** Whether the regular expression `p` finds a match in `action`. */
  predicate Matches(re: Regex, p: string, action: string)
    requires Anchored(p)
  {
    if MetaFree(Body(p)) then Body(p) == action else re.matchMeta(p, action)
  }

  /** `AddRoute`: a pattern that fails to compile is silently dropped. */
  function AddRoute<H>(r: Router<H>, re: Regex, route: Route<H>): (r': Router<H>)
  {
    var pattern := Anchor(route.action);
    if re.compiles(pattern) then Router(r.entries + [Entry(pattern, route)]) else r
  }

  /** The entry `AddRoute` appends for `route`: none when its pattern does not compile. */
  function EntryFor<H>(re: Regex, route: Route<H>): seq<Entry<H>> {
    if re.compiles(Anchor(route.action)) then [Entry(Anchor(route.action), route)] else []
  }

  /** The entries `AddRoutes` appends for `routes`, in order. */
  function Compiled<H>(re: Regex, routes: seq<Route<H>>): seq<Entry<H>> {
    if |routes| == 0 then [] else EntryFor(re, routes[0]) + Compiled(re, routes[1..])
  }

  /** `AddRoutes`: `AddRoute` on each route in turn. */
  function AddRoutes<H>(r: Router<H>, re: Regex, routes: seq<Route<H>>): (r': Router<H>)
    decreases |routes|
  {
    if |routes| == 0 then r else AddRoutes(AddRoute(r, re, routes[0]), re, routes[1..])
  }

  /** `AddRoute` appends the anchored pattern with its route exactly when the
      pattern compiles, and leaves the router as it was otherwise. */
  lemma AddRouteEntry<H>(r: Router<H>, re: Regex, route: Route<H>)
    ensures re.compiles(Anchor(route.action)) ==>
              AddRoute(r, re, route).entries == r.entries + [Entry(Anchor(route.action), route)]
    ensures !re.compiles(Anchor(route.action)) ==> AddRoute(r, re, route) == r
    ensures AddRoute(r, re, route).entries == r.entries + EntryFor(re, route)
  {
  }

  /** `AddRoutes` appends the compiling routes in the given order after the
      existing ones. */
  lemma {:induction false} AddRoutesAppends<H>(r: Router<H>, re: Regex, routes: seq<Route<H>>)
    ensures AddRoutes(r, re, routes).entries == r.entries + Compiled(re, routes)
    decreases |routes|
  {
    if |routes| > 0 {
      var r1 := AddRoute(r, re, routes[0]);
      var e := EntryFor(re, routes[0]);
      var rest := Compiled(re, routes[1..]);
      AddRouteEntry(r, re, routes[0]);
      AddRoutesAppends(r1, re, routes[1..]);
      assert AddRoutes(r, re, routes) == AddRoutes(r1, re, routes[1..]);
      assert Compiled(re, routes) == e + rest;
      AppendAssoc(r.entries, e, rest);
    }
  }

  predicate AllAnchored<H>(es: seq<Entry<H>>) {
    forall i :: 0 <= i < |es| ==> Anchored(es[i].pattern)
  }

  /** Every pattern `AddRoutes` appends is anchored. */
  lemma {:induction false} CompiledAnchored<H>(re: Regex, routes: seq<Route<H>>)
    ensures AllAnchored(Compiled(re, routes))
    decreases |routes|
  {
    if |routes| > 0 {
      CompiledAnchored(re, routes[1..]);
      AnchoredJoin(EntryFor(re, routes[0]), Compiled(re, routes[1..]));
    }
  }

  lemma AnchoredJoin<H>(a: seq<Entry<H>>, b: seq<Entry<H>>)
    requires AllAnchored(a) && AllAnchored(b)
    ensures AllAnchored(a + b)
  {
    forall i | 0 <= i < |a + b|
      ensures Anchored((a + b)[i].pattern)
    {
      if i >= |a| {
        assert (a + b)[i] == b[i - |a|];
      }
    }
  }

  lemma AppendAssoc<T>(a: seq<T>, b: seq<T>, c: seq<T>)
    ensures (a + b) + c == a + (b + c)
  {
  }

  /** `Dispatch`: the route of a pattern that matches the request action, or
      `ErrNoHandler`. */
  function Dispatch<H>(r: Router<H>, re: Regex, action: string): (res: Result<Route<H>>)
    requires forall i :: 0 <= i < |r.entries| ==> Anchored(r.entries[i].pattern)
    ensures res.Err? <==> forall i :: 0 <= i < |r.entries| ==> !Matches(re, r.entries[i].pattern, action)
    ensures res.Err? ==> res.error == ErrNoHandler
    ensures res.Ok? ==> exists i :: 0 <= i < |r.entries| && Matches(re, r.entries[i].pattern, action) && r.entries[i].route == res.value
    decreases |r.entries|
  {
    if |r.entries| == 0 then Err(ErrNoHandler)
    else if Matches(re, r.entries[0].pattern, action) then Ok(r.entries[0].route)
    else
      var res := Dispatch(Router(r.entries[1..]), re, action);
      assert forall i :: 1 <= i < |r.entries| ==> r.entries[i] == r.entries[1..][i - 1];
      res
  }

  /** For a metacharacter-free action, its route matches a request exactly when
      the request action equals the route action. */
  lemma LiteralMatch(re: Regex, action: string, request: string)
    requires MetaFree(action)
    ensures Matches(re, Anchor(action), request) <==> action == request
  {
    var p := Anchor(action);
    assert !HasPrefix(action, "^") by {
      if |action| > 0 { assert !IsMeta(action[0]); assert action[..1] == [action[0]]; }
    }
    var withHead := "^" + action;
    if |action| > 0 {
      assert !IsMeta(action[|action| - 1]);
      assert withHead[|withHead| - 1..] == [action[|action| - 1]];
    }
    assert !HasSuffix(withHead, "$");
    assert p == "^" + action + "$";
    assert Body(p) == action;
  }
}

=== FILE: session.dfy ===
/** One session of the `es` library: an ID and a one-slot delivery channel
    (`make(chan []byte, 1)`) on which the response to its request arrives. */
module Session {
  import opened Bytes
  import opened Wrappers
  import opened Kinds
  import opened SessionMsg

  /** The state of the buffered channel: at most one undelivered payload, and
      whether it has been closed. */
  datatype Slot = Slot(buffered: Option<bytes>, closed: bool)

  datatype Session = Session(id: uint32, slot: Slot)

  /** `newSession`: an empty, open slot. */
  function NewSession(id: uint32): (s: Session)
    ensures s.id == id && s.slot.buffered.None? && !s.slot.closed
  {
    Session(id, Slot(None, false))
  }

  /** `Session.Close`: closing an already closed channel is a runtime panic. */
  function Close(s: Session): (r: Step<Session>)
    ensures r.Panics? <==> s.slot.closed
    ensures r.Done? ==> r.value == s.(slot := s.slot.(closed := true))
  {
    if s.slot.closed then Panics("close of closed channel")
    else Done(s.(slot := s.slot.(closed := true)))
  }

  /** `HandleResponse`: put the payload in the slot. It has no error result; the
      send blocks while an earlier payload is still waiting and panics on a
      closed slot. */
  function HandleResponse(s: Session, payload: bytes): (r: Step<Session>)
    ensures r.Panics? <==> s.slot.closed
    ensures r.Blocks? <==> !s.slot.closed && s.slot.buffered.Some?
    ensures r.Done? ==> r.value.id == s.id && r.value.slot == Slot(Some(payload), false)
  {
    if s.slot.closed then Panics(PanicSendOnClosed)
    else if s.slot.buffered.Some? then Blocks
    else Done(s.(slot := s.slot.(buffered := Some(payload))))
  }

  /** The message `sendAndWait` enqueues: the session kind byte, then a Request
      EMSG carrying the session's ID and the payload. */
  function RequestFrame(k: Kinds, s: Session, payload: bytes): (f: bytes)
    ensures |f| > 0 && f[0] == k.session
    ensures Decode(f[1..]) == Ok(EMSG(MsgTypeRequest, s.id, payload))
  {
    var m := EMSG(MsgTypeRequest, s.id, payload);
    DecodeEncode(m);
    assert ([k.session] + Encode(m))[1..] == Encode(m);
    [k.session] + Encode(m)
  }

  /** Receiving from the slot: the buffered payload first; on a closed, empty
      slot the zero value (an empty payload); otherwise the receiver blocks. */
  function Wait(s: Session): (r: Step<(bytes, Session)>)
    ensures s.slot.buffered.Some? ==> r == Done((s.slot.buffered.value, s.(slot := s.slot.(buffered := None))))
    ensures s.slot.buffered.None? && s.slot.closed ==> r == Done(([], s))
    ensures r.Blocks? <==> s.slot.buffered.None? && !s.slot.closed
  {
    match s.slot.buffered
    case Some(p) => Done((p, s.(slot := s.slot.(buffered := None))))
    case None => if s.slot.closed then Done(([], s)) else Blocks
  }

  /** `sendAndWait`: enqueue exactly one request, then wait on the slot. The
      result carries no error: what arrives in the slot is returned. When the
      link's outbound queue is closed (`outClosed`) the send panics before
      anything is queued. */
  function SendAndWait(k: Kinds, s: Session, payload: bytes, out: Outbound, outClosed: bool)
    : (r: (Step<(bytes, Session)>, Outbound))
    ensures r.0.Panics? <==> outClosed
    ensures outClosed ==> r == (Panics(PanicSendOnClosed), out)
    ensures !outClosed ==> r.1 == out + [RequestFrame(k, s, payload)]
    ensures !outClosed && s.slot.buffered.Some? ==> r.0.Done? && r.0.value.0 == s.slot.buffered.value
  {
    if outClosed then (Panics(PanicSendOnClosed), out)
    else (Wait(s), out + [RequestFrame(k, s, payload)])
  }

  /** A response that arrives before the caller starts waiting is kept in the
      slot and returned by the wait. */
  lemma ResponseBeforeWait(k: Kinds, id: uint32, request: bytes, response: bytes, out: Outbound)
    ensures HandleResponse(NewSession(id), response).Done?
    ensures var s := HandleResponse(NewSession(id), response).value;
      SendAndWait(k, s, request, out, false).0 == Done((response, NewSession(id)))
  {
  }

  /** A waiter on a closed session gets an empty payload and no error. */
  lemma WaitAfterClose(k: Kinds, s: Session, request: bytes, out: Outbound)
    requires s.slot.buffered.None? && !s.slot.closed
    ensures Close(s).Done?
    ensures SendAndWait(k, Close(s).value, request, out, false).0 == Done(([], Close(s).value))
  {
  }
}

=== FILE: session_manager.dfy ===
/** `session.Manager`: dispatches inbound session messages and owns the pool.

    The request handler is a parameter: a function from its own state `H` and
    the inbound request to the reply EMSG and the handler's new state, which
    may also block or panic (`Step`). Replies go on the shared outbound queue. */
module SessionManager {
  import opened Bytes
  import opened Wrappers
  import opened Kinds
  import opened SessionMsg
  import opened Session
  import opened SessionPool

  const ErrNoSuchSession := "no such session"
  const ErrUnknownMsgType := "unknown session msg type"

  datatype Manager = Manager(pool: Pool)

  /** The state after a message has been handled. */
  datatype After<H> = After(mgr: Manager, handler: H, out: Outbound)

  /** Sessions still in the pool are open; only `Close` closes them, and it
      removes them in the same step. */
  predicate Valid(m: Manager) {
    && SessionPool.Valid(m.pool)
    && forall id :: id in m.pool.sessions ==> !m.pool.sessions[id].slot.closed
  }

  function NewManager(isServerSide: bool): (m: Manager)
    ensures Valid(m) && m.pool.sessions == map[]
  {
    Manager(NewPool(isServerSide))
  }

  /** `Manager.New`. */
  function New(m: Manager): (r: Option<(Session, Manager)>)
    ensures r.Some? ==> r.value.0.id !in m.pool.sessions && r.value.1.pool.sessions == m.pool.sessions[r.value.0.id := r.value.0]
    ensures r.Some? ==> r.value.0 == NewSession(r.value.0.id)
    ensures r.Some? && Valid(m) ==> Valid(r.value.1)
  {
    match SessionPool.New(m.pool)
    case None => None
    case Some((id, p)) => Some((p.sessions[id], Manager(p)))
  }

  /** `Manager.HandleIn`. */
  function HandleIn<H>(m: Manager, k: Kinds, h: H, handle: (H, EMSG) -> Step<(EMSG, H)>,
                       out: Outbound, payload: bytes): (r: Step<Result<After<H>>>)
    // too short: rejected before dispatch, nothing enqueued
    ensures |payload| < MinLength ==> r == Done(Err(ErrMessageDataTooShort))
    // a request: exactly one reply is enqueued, the handler's EMSG behind the session kind byte
    ensures |payload| >= MinLength && payload[0] == MsgTypeRequest && handle(h, Decode(payload).value).Done? ==>
      var (reply, h') := handle(h, Decode(payload).value).value;
      r == Done(Ok(After(m, h', out + [[k.session] + Encode(reply)])))
    // a response for an unknown ID changes nothing
    ensures |payload| >= MinLength && payload[0] == MsgTypeResponse && Decode(payload).value.id !in m.pool.sessions ==>
      r == Done(Err(ErrNoSuchSession))
    // a response for a known ID fills that session's slot and nothing else
    ensures |payload| >= MinLength && payload[0] == MsgTypeResponse && r.Done? && r.value.Ok? ==>
      var id := Decode(payload).value.id;
      && id in m.pool.sessions
      && r.value.value.mgr.pool.sessions.Keys == m.pool.sessions.Keys
      && r.value.value.mgr.pool.sessions[id].slot.buffered == Some(payload[5..])
      && (forall other :: other in m.pool.sessions && other != id ==>
            r.value.value.mgr.pool.sessions[other] == m.pool.sessions[other])
      && r.value.value.out == out
    // every other type, MsgTypeClose included, is an error
    ensures |payload| >= MinLength && payload[0] != MsgTypeRequest && payload[0] != MsgTypeResponse ==>
      r == Done(Err(ErrUnknownMsgType))
    ensures Valid(m) && r.Done? && r.value.Ok? ==> Valid(r.value.value.mgr)
    // only a request reaches the handler
    ensures r.Done? && r.value.Ok? && payload[0] != MsgTypeRequest ==> r.value.value.handler == h
  {
    match Decode(payload)
    case Err(e) => Done(Err(e))
    case Ok(msg) =>
      if msg.msgType == MsgTypeRequest then
        match handle(h, msg)
        case Blocks => Blocks
        case Panics(why) => Panics(why)
        case Done((reply, h')) => Done(Ok(After(m, h', out + [[k.session] + Encode(reply)])))
      else if msg.msgType == MsgTypeResponse then
        match Get(m.pool, msg.id)
        case None => Done(Err(ErrNoSuchSession))
        case Some(s) =>
          match HandleResponse(s, msg.payload)
          case Blocks => Blocks
          case Panics(why) => Panics(why)
          case Done(s') => Done(Ok(After(Manager(m.pool.(sessions := m.pool.sessions[msg.id := s'])), h, out)))
      else Done(Err(ErrUnknownMsgType))
  }

  /** A session taken from the pool and closed. */
  function Closed(s: Session): Session {
    s.(slot := s.slot.(closed := true))
  }

  /** `Manager.Close`: close every registered session and delete it. The
      closed sessions are returned so that their waiters can be observed. */
  function Close(m: Manager): (r: Step<(Manager, map<uint32, Session>)>)
    ensures Valid(m) ==> r.Done?
    ensures r.Done? ==> r.value.0.pool.sessions == map[] && r.value.0.pool.curID == m.pool.curID
    ensures r.Done? ==> r.value.1.Keys == m.pool.sessions.Keys
    ensures r.Done? ==> forall id :: id in r.value.1 ==>
      r.value.1[id].slot.closed && r.value.1[id].id == m.pool.sessions[id].id
      && r.value.1[id].slot.buffered == m.pool.sessions[id].slot.buffered
  {
    if exists id :: id in m.pool.sessions && m.pool.sessions[id].slot.closed then
      Panics("close of closed channel")
    else
      Done((Manager(m.pool.(sessions := map[])),
            map id | id in m.pool.sessions :: Closed(m.pool.sessions[id])))
  }

  /** After `Close`, a waiter on any session that had no response pending gets an
      empty payload and no error. */
  lemma CloseReleasesWaiters(m: Manager, id: uint32)
    requires Valid(m) && id in m.pool.sessions && m.pool.sessions[id].slot.buffered.None?
    ensures Close(m).Done?
    ensures Wait(Close(m).value.1[id]).Done? && Wait(Close(m).value.1[id]).value.0 == []
  {
  }
}

=== FILE: session_msg.dfy ===
/** The session-layer message (EMSG) of the `es` library:
    `type (1 byte) | ID (4 bytes, big-endian) | payload`. */
module SessionMsg {
  import opened Bytes
  import opened Wrappers

  const MsgTypeRequest: byte := 1
  const MsgTypeResponse: byte := 2
  /** Reserved for closing a session; no code path sends or accepts it. */
  const MsgTypeClose: byte := 3

  /** Shortest encoded EMSG: the type byte and the ID. */
  const MinLength: nat := 5

  const ErrMessageDataTooShort := "message data is too short"

  datatype EMSG = EMSG(msgType: byte, id: uint32, payload: bytes)

  /** `EMSG.Bytes`: the wire form of a session message. */
  function Encode(m: EMSG): (r: bytes)
    ensures |r| == MinLength + |m.payload|
    ensures r[0] == m.msgType && r[1..5] == BE32(m.id) && r[5..] == m.payload
  {
    var head := [m.msgType] + BE32(m.id);
    if |m.payload| > 0 then head + m.payload else head
  }

  /** `LoadEMSG`: parse a session message, rejecting anything shorter than 5 bytes. */
  function Decode(d: bytes): (r: Result<EMSG>)
    ensures r.Err? <==> |d| < MinLength
    ensures r.Err? ==> r.error == ErrMessageDataTooShort
    ensures r.Ok? ==> r.value.msgType == d[0] && r.value.payload == d[5..]
    // the ID is the one whose big-endian encoding is bytes 1 to 4
    ensures r.Ok? ==> BE32(r.value.id) == d[1..5]
  {
    if |d| < MinLength then Err(ErrMessageDataTooShort)
    else
      BE32Inverse(d[1..5]);
      Ok(EMSG(d[0], ReadBE32(d[1..5]), d[5..]))
  }

  /** Decoding an encoded message gives back the type, the ID and the payload. */
  lemma DecodeEncode(m: EMSG)
    ensures Decode(Encode(m)) == Ok(m)
  {
    BE32RoundTrip(m.id);
  }

  /** Every input of at least five bytes is exactly the encoding of what it decodes to. */
  lemma EncodeDecode(d: bytes)
    requires |d| >= MinLength
    ensures Decode(d).Ok? && Encode(Decode(d).value) == d
  {
    BE32Inverse(d[1..5]);
    assert d == [d[0]] + d[1..5] + d[5..];
  }

  /** A message with an empty payload is five bytes on the wire. */
  lemma EmptyPayloadLength(msgType: byte, id: uint32)
    ensures Encode(EMSG(msgType, id, [])) == [msgType] + BE32(id)
  {
  }
}

=== FILE: session_pool.dfy ===
/** `session.Pool`: the sessions of one link endpoint, keyed by ID, and the
    cursor of the parity-separated ID allocator. */
module SessionPool {
  import opened Bytes
  import opened Wrappers
  import opened IdAlloc
  import opened Session

  const ErrDeleteNotExist := "delete failed: session not exist"

  datatype Pool = Pool(curID: uint32, sessions: map<uint32, Session>)

  /** The pool invariant: every ID is nonzero, has the cursor's parity, and
      is the ID of the session stored under it. */
  predicate Valid(p: Pool) {
    forall id :: id in p.sessions ==> id != 0 && id % 2 == p.curID % 2 && p.sessions[id].id == id
  }

  /** `newPool`: a server-side pool starts its cursor at 1, a client-side one at 2. */
  function NewPool(isServerSide: bool): (p: Pool)
    ensures Valid(p) && p.sessions == map[]
    ensures p.curID % 2 == (if isServerSide then 1 else 0)
  {
    Pool(if isServerSide then 1 else 2, map[])
  }

  /** `newID`: the next free ID of the pool's parity; `None` when the Go loop would
      never terminate because every such ID is taken. */
  function NewID(p: Pool): (r: Option<uint32>)
    ensures r.Some? ==> r.value != 0 && r.value !in p.sessions && r.value % 2 == p.curID % 2
  {
    NextParityID(p.curID, p.sessions.Keys)
  }

  /** `Pool.New`: register a fresh session under a new ID and advance the cursor.
      It has no error result. */
  function New(p: Pool): (r: Option<(uint32, Pool)>)
    ensures NewID(p).Some? <==> r.Some?
    ensures r.Some? ==> var (id, p') := r.value;
      && id !in p.sessions
      && p'.sessions == p.sessions[id := NewSession(id)]
      && p'.curID == id
      && |p'.sessions| == |p.sessions| + 1
    ensures r.Some? && Valid(p) ==> Valid(r.value.1)
  {
    match NewID(p)
    case None => None
    case Some(id) => Some((id, Pool(id, p.sessions[id := NewSession(id)])))
  }

  /** `Pool.Get`: the registered session, or nil. */
  function Get(p: Pool, id: uint32): (r: Option<Session>)
    ensures r.Some? <==> id in p.sessions
    ensures r.Some? ==> r.value == p.sessions[id]
  {
    if id in p.sessions then Some(p.sessions[id]) else None
  }

  /** `Pool.Delete`: remove exactly the session's ID, or fail if it is absent. */
  function Delete(p: Pool, s: Session): (r: Result<Pool>)
    ensures r.Err? <==> s.id !in p.sessions
    ensures r.Err? ==> r.error == ErrDeleteNotExist
    ensures r.Ok? ==> r.value.sessions == p.sessions - {s.id} && r.value.curID == p.curID
    ensures r.Ok? && Valid(p) ==> Valid(r.value)
  {
    if s.id !in p.sessions then Err(ErrDeleteNotExist)
    else Ok(p.(sessions := p.sessions - {s.id}))
  }

  /** The two endpoints of a link never allocate the same session ID: the
      server-side pool hands out odd IDs, the client-side pool even ones; the
      first IDs are 3 and 4. */
  lemma ServerClientDisjoint(server: Pool, client: Pool)
    requires server.curID % 2 == 1 && client.curID % 2 == 0
    ensures NewID(server).Some? && NewID(client).Some? ==> NewID(server).value != NewID(client).value
    ensures NewID(NewPool(true)) == Some(3) && NewID(NewPool(false)) == Some(4)
  {
    NextParityIDImmediate(1, {});
    NextParityIDImmediate(2, {});
  }
}

=== FILE: stream.dfy ===
/** The read side of a byte-stream connection and `mustRecv`, the loop both
    framed connections use to read an exact number of bytes.

    A connection is modelled as the bytes the peer has written plus a script
    that says how each successive `Read` call behaves: deliver at most some
    number of bytes, or fail with an error. A script that runs out behaves as
    a closed stream (`io.EOF`). */
module Stream {
  import opened Bytes
  import opened Wrappers

  const EOF := "EOF"

  datatype ReadEvent = Deliver(max: nat) | Fail(error: string)

  datatype Reader = Reader(data: bytes, script: seq<ReadEvent>)

  function Min(a: nat, b: nat): nat {
    if a <= b then a else b
  }

  /** One `conn.Read` into a buffer with `room` free bytes. */
  function Read(r: Reader, room: nat): (res: Result<(bytes, Reader)>)
    ensures res.Ok? ==> |res.value.1.script| < |r.script|
    ensures res.Ok? ==> res.value.0 + res.value.1.data == r.data && |res.value.0| <= room
  {
    if |r.script| == 0 then Err(EOF)
    else match r.script[0]
      case Fail(e) => Err(e)
      case Deliver(k) =>
        if |r.data| == 0 then Err(EOF)
        else
          var n := Min(Min(k, room), |r.data|);
          assert r.data[..n] + r.data[n..] == r.data;
          Ok((r.data[..n], Reader(r.data[n..], r.script[1..])))
  }

  /** A connection that never fails a read and always delivers at least one byte
      while data remains. */
  predicate Reliable(r: Reader) {
    && (forall i :: 0 <= i < |r.script| ==> r.script[i].Deliver? && r.script[i].max >= 1)
    && |r.script| >= |r.data|
  }

  /** On a reliable connection with data pending, a read with room succeeds,
      makes progress, and leaves the connection reliable. */
  lemma ReliableRead(r: Reader, room: nat)
    requires Reliable(r) && room > 0 && |r.data| > 0
    ensures Read(r, room).Ok?
    ensures |Read(r, room).value.0| >= 1 && Reliable(Read(r, room).value.1)
  {
    var r' := Read(r, room).value.1;
    forall i | 0 <= i < |r'.script|
      ensures r'.script[i].Deliver? && r'.script[i].max >= 1
    {
      assert r'.script[i] == r.script[i + 1];
    }
  }

  /** `mustRecv(dlen)`: read until exactly `dlen` bytes have arrived, in order;
      the first read error aborts with that error and no data. */
  method MustRecv(r: Reader, dlen: nat) returns (res: Result<(bytes, Reader)>)
    ensures res.Ok? ==> dlen <= |r.data| && res.value.0 == r.data[..dlen] && res.value.1.data == r.data[dlen..]
    ensures Reliable(r) && |r.data| >= dlen ==> res.Ok?
    ensures Reliable(r) && res.Ok? ==> Reliable(res.value.1)
    ensures dlen > 0 && |r.script| > 0 && r.script[0].Fail? ==> res == Err(r.script[0].error)
  {
    var data: bytes := [];
    var cur := r;
    ghost var failsFirst := dlen > 0 && |r.script| > 0 && r.script[0].Fail?;
    while |data| < dlen
      invariant |data| <= dlen
      invariant data + cur.data == r.data
      invariant Reliable(r) ==> Reliable(cur)
      invariant failsFirst ==> cur.script == r.script && data == []
      decreases |cur.script|
    {
      var room := dlen - |data|;
      var rd := Read(cur, room);
      assert |data| + |cur.data| == |r.data|;
      if Reliable(r) && |cur.data| > 0 {
        ReliableRead(cur, room);
      }
      if rd.Err? {
        return Err(rd.error);
      }
      assert (data + rd.value.0) + rd.value.1.data == data + (rd.value.0 + rd.value.1.data);
      data := data + rd.value.0;
      cur := rd.value.1;
    }
    SplitJoined(data, cur.data, r.data);
    return Ok((data, cur));
  }

  /** The two parts of a joined sequence are its prefix and suffix at the seam. */
  lemma SplitJoined(a: bytes, b: bytes, whole: bytes)
    requires a + b == whole
    ensures whole[..|a|] == a && whole[|a|..] == b
  {
  }
}

=== FILE: tunnel.dfy ===
/** `Tunnel`: one forwarded port and its channels.

    A forward tunnel listens locally and opens a channel per accepted
    connection; a reverse tunnel dials its local address when the far endpoint
    forwards data for a channel it has not seen. Socket outcomes (dial, write,
    address resolution, bind) are parameters. */
module Tunnel {
  import opened Bytes
  import opened Wrappers
  import opened Kinds
  import opened TunnelMsg
  import opened TunnelConfig
  import opened Channel
  import Ch = Channel
  import CP = ChannelPool
  import LP = ListenPool

  const ErrNoSuchChannel := "no such channel"
  const ErrListenExisted := "listen address is existed"
  const ErrListenUDPExisted := "listen udp address is existed"
  /** `listenUDP` asks `net.ListenUDP` for network "tcp", which it rejects. */
  const ErrUDPUnknownNetwork := "unknown network tcp"

  datatype Tunnel = Tunnel(id: uint32, config: Config, cpool: CP.Pool)

  /** `newTunnel` only builds tunnels for these protocols (nil otherwise). */
  predicate ValidProto(proto: string) {
    proto == "tcp" || proto == "udp"
  }

  /** The tunnel invariant: a supported protocol, the ID of its configuration,
      and channels that all belong to it. */
  predicate Valid(t: Tunnel) {
    && ValidProto(t.config.proto)
    && t.id == t.config.id
    && CP.Valid(t.cpool)
    && forall cid :: cid in t.cpool.channels ==> t.cpool.channels[cid].tid == t.id
  }

  function NewTunnel(cfg: Config): (t: Tunnel)
    ensures t.id == cfg.id && t.config == cfg && t.cpool == CP.NewPool()
    ensures ValidProto(cfg.proto) ==> Valid(t)
  {
    Tunnel(cfg.id, cfg, CP.NewPool())
  }

  /** Write an inbound payload to a registered channel and store the channel's
      updated counters. */
  function WriteTo(t: Tunnel, c: Channel, m: TMSG, w: WriteResult): (r: (Result<Unit>, Tunnel))
    requires Valid(t) && c.cid in t.cpool.channels && c.tid == t.id
    ensures Valid(r.1) && r.1.cpool.channels.Keys == t.cpool.channels.Keys
    ensures r.0.Err? <==> w.WriteFailed?
  {
    match Ch.HandleIn(c, m, w)
    case Err(e) => (Err(e), t)
    case Ok(c') => (Ok(Unit), t.(cpool := t.cpool.(channels := t.cpool.channels[c.cid := c'])))
  }

  /** `Tunnel.HandleIn`: route a ChannelForward message to its channel. A forward
      tunnel rejects unknown channels; a reverse tunnel dials its local address
      and registers the channel under the far endpoint's channel ID. */
  function HandleIn(t: Tunnel, m: TMSG, dial: Result<Unit>, w: WriteResult): (r: (Result<Unit>, Tunnel))
    requires Valid(t)
    ensures Valid(r.1) && r.1.id == t.id && r.1.config == t.config
    ensures m.channelID in t.cpool.channels ==>
      r.1.cpool.channels.Keys == t.cpool.channels.Keys && (r.0.Err? <==> w.WriteFailed?)
    ensures m.channelID !in t.cpool.channels && !t.config.reverse ==> r == (Err(ErrNoSuchChannel), t)
    ensures m.channelID !in t.cpool.channels && t.config.reverse && dial.Err? ==> r == (Err(dial.error), t)
    ensures m.channelID !in t.cpool.channels && t.config.reverse && dial.Ok? ==>
      r.1.cpool.channels.Keys == t.cpool.channels.Keys + {m.channelID}
      && r.1.cpool.nextID == t.cpool.nextID
      && (r.0.Err? <==> w.WriteFailed?)
  {
    match CP.Get(t.cpool, m.channelID)
    case Some(c) => WriteTo(t, c, m, w)
    case None =>
      if !t.config.reverse then (Err(ErrNoSuchChannel), t)
      else match dial
        case Err(e) => (Err(e), t)
        case Ok(_) =>
          var (c, cp) := CP.NewByID(t.cpool, m.channelID, t.id);
          WriteTo(t.(cpool := cp), c, m, w)
  }

  /** `NewChannelByConn`: a forward tunnel registers an accepted connection as a
      channel with a fresh ID; a reverse tunnel refuses (nil). `Blocks` when the
      ID search would never end. */
  function NewChannelByConn(t: Tunnel): (r: Step<Option<(Channel, Tunnel)>>)
    requires Valid(t)
    ensures t.config.reverse ==> r == Done(None)
    ensures !t.config.reverse ==> (r.Done? <==> CP.New(t.cpool, t.id).Some?)
    ensures r.Done? && r.value.Some? ==> var (c, t') := r.value.value;
      Valid(t') && c.tid == t.id && c.cid !in t.cpool.channels
      && t'.cpool.channels == t.cpool.channels[c.cid := c]
  {
    if t.config.reverse then Done(None)
    else match CP.New(t.cpool, t.id)
      case None => Blocks
      case Some((c, cp)) => Done(Some((c, t.(cpool := cp))))
  }

  /** The notice that tells the far endpoint a channel is gone: the tunnel kind
      byte and a ChannelClose TMSG with an empty payload. */
  function CloseFrame(k: Kinds, tid: uint32, cid: uint32): (f: bytes)
    ensures |f| > 0 && f[0] == k.tunnel
    ensures Decode(f[1..]) == Ok(TMSG(k.channelClose, tid, cid, []))
  {
    var m := TMSG(k.channelClose, tid, cid, []);
    DecodeEncode(m);
    assert ([k.tunnel] + Encode(m))[1..] == Encode(m);
    [k.tunnel] + Encode(m)
  }

  /** `ServeChannel`, after `c.Serve()` returned `served`: tell the far endpoint
      to close the channel when serving failed and the close did not come from
      there, then drop the channel if it is still registered. `outClosed` says
      whether the link's outbound queue is closed; the notice's send then
      panics, `closeRemoteChannel` recovers, and nothing is queued. */
  function ServeChannel(k: Kinds, t: Tunnel, c: Channel, served: Result<Unit>, out: Outbound, outClosed: bool)
    : (r: (Tunnel, Outbound))
    requires Valid(t)
    ensures Valid(r.0) && r.0.cpool.channels == t.cpool.channels - {c.cid}
    ensures served.Err? && !c.closedByRemote && !outClosed ==> r.1 == out + [CloseFrame(k, t.id, c.cid)]
    ensures served.Ok? || c.closedByRemote || outClosed ==> r.1 == out
  {
    var notify := served.Err? && !IsClosedByRemote(c);
    var out' := if notify && !outClosed then out + [CloseFrame(k, t.id, c.cid)] else out;
    match CP.Delete(t.cpool, c)
    case Err(_) => (t, out')
    case Ok((cp, _)) => (t.(cpool := cp), out')
  }

  /** `HandleChannelClose`: the far endpoint closed a channel. Close it locally,
      mark it closed by the remote (so no notice is sent back) and drop it.
      Returns the closed channel as well. */
  function HandleChannelClose(t: Tunnel, cid: uint32): (r: (Result<Unit>, Tunnel, Option<Channel>))
    requires Valid(t)
    ensures Valid(r.1) && r.1.cpool.channels == t.cpool.channels - {cid}
    ensures r.0.Err? <==> cid !in t.cpool.channels
    ensures r.0.Err? ==> r.0.error == ErrNoSuchChannel && r.1 == t && r.2 == None
    ensures r.0.Ok? ==> r.2.Some? && r.2.value.closed && r.2.value.closedByRemote
    ensures r.0.Ok? ==> r.2.Some? && r.2.value.cid == cid
    ensures r.0.Ok? ==> r.2.Some? && r.2.value.connCloses <= t.cpool.channels[cid].connCloses + 1
  {
    match CP.Get(t.cpool, cid)
    case None => (Err(ErrNoSuchChannel), t, None)
    case Some(c) =>
      var c' := SetClosedByRemote(Close(c));
      match CP.Delete(t.cpool, c')
      case Err(_) => (Err(ErrNoSuchChannel), t, None)
      case Ok((cp, closed)) => (Ok(Unit), t.(cpool := cp), Some(closed))
  }

  /** A channel closed by the far endpoint is never announced back to it. */
  lemma NoCloseEcho(k: Kinds, t: Tunnel, cid: uint32, served: Result<Unit>, out: Outbound, outClosed: bool)
    requires Valid(t) && cid in t.cpool.channels
    ensures var (_, t', c) := HandleChannelClose(t, cid);
      ServeChannel(k, t', c.value, served, out, outClosed).1 == out
  {
  }

  /** `logrus.Fatalln` after a failed address resolution: the process exits. */
  const ExitUnresolved := "fatal: local address does not resolve"

  /** The socket outcomes a listen meets: whether the local host name resolves,
      and the outcome of binding the resolved address. */
  datatype ListenIo = ListenIo(hostResolves: bool, bind: Result<Unit>)

  /** `net.ResolveTCPAddr` / `net.ResolveUDPAddr` of "host:port": the port must
      be a 16-bit port number and the host must resolve. */
  predicate Resolves(host: string, port: int, io: ListenIo) {
    0 <= port <= 65535 && io.hostResolves
  }

  /** `Listen`: a reverse tunnel does not listen. A forward tunnel refuses an
      address whose key is already in the listen pool; otherwise it resolves
      the address, and a failed resolution exits the process. A TCP tunnel
      then binds and records the listener. The UDP branch looks up `UDPKey`,
      which as written is the address's TCP key, and its bind always fails,
      since the socket call names network "tcp". */
  function Listen(t: Tunnel, lp: LP.Pool, io: ListenIo): (r: Step<(Result<Unit>, LP.Pool)>)
    requires Valid(t)
    ensures !r.Blocks?
    ensures t.config.reverse ==> r == Done((Ok(Unit), lp))
    // the process exits exactly when a forward tunnel's address is free in the
    // pool and does not resolve
    ensures r.Panics? <==>
      && !t.config.reverse
      && LP.TCPKey(t.config.localHost, t.config.localPort) !in lp.targets
      && !Resolves(t.config.localHost, t.config.localPort, io)
    ensures r.Panics? ==> r.reason == ExitUnresolved
    ensures r.Done? && r.value.0.Err? ==> r.value.1 == lp
    ensures r.Done? && r.value.0.Ok? && !t.config.reverse ==>
      && t.config.proto == "tcp" && io.bind.Ok?
      && Resolves(t.config.localHost, t.config.localPort, io)
      && LP.TCPKey(t.config.localHost, t.config.localPort) !in lp.targets
      && r.value.1.targets == lp.targets[LP.TCPKey(t.config.localHost, t.config.localPort)
                                           := LP.NewTarget(t.config.localHost, t.config.localPort)]
    ensures !t.config.reverse && t.config.proto == "tcp" && r.Done? ==>
      (r.value.0.Ok? <==> LP.TCPKey(t.config.localHost, t.config.localPort) !in lp.targets && io.bind.Ok?)
    // a UDP listen that returns has failed; it reports the address as taken
    // exactly when a TCP listener holds it
    ensures !t.config.reverse && t.config.proto == "udp" && r.Done? ==>
      && r.value.0.Err? && r.value.0.error in {ErrListenUDPExisted, ErrUDPUnknownNetwork}
      && (r.value.0.error == ErrListenUDPExisted <==> LP.TCPKey(t.config.localHost, t.config.localPort) in lp.targets)
  {
    var host, port := t.config.localHost, t.config.localPort;
    if t.config.reverse then Done((Ok(Unit), lp))
    else if t.config.proto == "tcp" then
      var key := LP.TCPKey(host, port);
      if LP.Exist(lp, key) then Done((Err(ErrListenExisted), lp))
      else if !Resolves(host, port, io) then Panics(ExitUnresolved)
      else match io.bind
        case Err(e) => Done((Err(e), lp))
        case Ok(_) => Done((Ok(Unit), LP.Add(lp, key, LP.NewTarget(host, port))))
    else
      var key := LP.UDPKey(host, port);
      LP.UDPKeyCollides(host, port);
      if LP.Exist(lp, key) then Done((Err(ErrListenUDPExisted), lp))
      else if !Resolves(host, port, io) then Panics(ExitUnresolved)
      else Done((Err(ErrUDPUnknownNetwork), lp))
  }

  /** A forward tunnel on a port outside the 16-bit range, with its address free,
      ends the process whatever the host and the bind. */
  lemma OutOfRangePortExits(t: Tunnel, lp: LP.Pool, io: ListenIo)
    requires Valid(t) && !t.config.reverse
    requires t.config.localPort < 0 || t.config.localPort > 65535
    requires LP.TCPKey(t.config.localHost, t.config.localPort) !in lp.targets
    ensures Listen(t, lp, io) == Panics(ExitUnresolved)
  {
  }

  /** Two forward TCP tunnels cannot listen on the same address through the
      pool: once one has, the other is refused. */
  lemma ListenExclusive(t1: Tunnel, t2: Tunnel, lp: LP.Pool, b1: ListenIo, b2: ListenIo)
    requires Valid(t1) && Valid(t2) && !t1.config.reverse && !t2.config.reverse
    requires t1.config.proto == "tcp" && t2.config.proto == "tcp"
    requires t1.config.localHost == t2.config.localHost && t1.config.localPort == t2.config.localPort
    requires Listen(t1, lp, b1).Done? && Listen(t1, lp, b1).value.0.Ok?
    ensures Listen(t2, Listen(t1, lp, b1).value.1, b2) == Done((Err(ErrListenExisted), Listen(t1, lp, b1).value.1))
  {
  }

  /** The shared key as it plays out: once a forward TCP tunnel listens on an
      address, a forward UDP tunnel on the same address is refused as if the
      UDP address were taken. */
  lemma UDPRefusedBesideTCP(t1: Tunnel, t2: Tunnel, lp: LP.Pool, b1: ListenIo, b2: ListenIo)
    requires Valid(t1) && Valid(t2) && !t1.config.reverse && !t2.config.reverse
    requires t1.config.proto == "tcp" && t2.config.proto == "udp"
    requires t1.config.localHost == t2.config.localHost && t1.config.localPort == t2.config.localPort
    requires Listen(t1, lp, b1).Done? && Listen(t1, lp, b1).value.0.Ok?
    ensures Listen(t2, Listen(t1, lp, b1).value.1, b2) == Done((Err(ErrListenUDPExisted), Listen(t1, lp, b1).value.1))
  {
  }
}

=== FILE: tunnel_config.dfy ===
/** `TunnelConfig` and its mirror image for the far endpoint. */
module TunnelConfig {
  import opened Bytes

  datatype Config = Config(
    id: uint32,
    proto: string,
    localHost: string,
    localPort: int,
    remoteHost: string,
    remotePort: int,
    reverse: bool)

  /** `RemoteConfig`: the far endpoint's view of the same tunnel. The ID is left
      at zero, so the far endpoint allocates its own. */
  function RemoteConfig(c: Config): (r: Config)
    ensures r.id == 0 && r.proto == c.proto && r.reverse == !c.reverse
    ensures r.localHost == c.remoteHost && r.localPort == c.remotePort
    ensures r.remoteHost == c.localHost && r.remotePort == c.localPort
  {
    Config(0, c.proto, c.remoteHost, c.remotePort, c.localHost, c.localPort, !c.reverse)
  }

  /** Mirroring twice gives back the original configuration, except for the ID. */
  lemma RemoteConfigInvolution(c: Config)
    ensures RemoteConfig(RemoteConfig(c)) == c.(id := 0)
  {
  }

  /** Exactly one of a configuration and its mirror listens (is not reverse). */
  lemma ExactlyOneListens(c: Config)
    ensures c.reverse != RemoteConfig(c).reverse
  {
  }
}

=== FILE: tunnel_manager.dfy ===
/** `tunnel.Manager`: dispatches inbound tunnel messages to tunnels and creates
    tunnels. The listen pool is process-wide and passed explicitly. */
module TunnelManager {
  import opened Bytes
  import opened Wrappers
  import opened Kinds
  import opened TunnelMsg
  import opened TunnelConfig
  import opened Channel
  import T = Tunnel
  import TP = TunnelPool
  import LP = ListenPool

  const ErrCanNotFindTunnel := "can not find tunnel"
  const ErrNoSuchTunnel := "no such tunnel"
  const ErrUnknownMsgType := "unknown tunnel msg type"
  /** The runtime error of calling a method on the nil tunnel `newTunnel`
      returns for an unsupported protocol. */
  const PanicNilTunnel := "invalid memory address or nil pointer dereference"

  datatype Manager = Manager(pool: TP.Pool)

  /** The socket outcomes one inbound ChannelForward message can meet. */
  datatype ChannelIo = ChannelIo(dial: Result<Unit>, write: WriteResult)

  predicate Valid(m: Manager) {
    TP.Valid(m.pool) && forall id :: id in m.pool.tunnels ==> T.Valid(m.pool.tunnels[id])
  }

  function NewManager(isServerSide: bool): (m: Manager)
    ensures Valid(m) && m.pool == TP.NewPool(isServerSide)
  {
    Manager(TP.NewPool(isServerSide))
  }

  /** Store an updated tunnel back under its ID. */
  function Put(m: Manager, t: T.Tunnel): (r: Manager)
    requires Valid(m) && T.Valid(t) && t.id in m.pool.tunnels
    ensures Valid(r) && r.pool.tunnels.Keys == m.pool.tunnels.Keys && r.pool.curID == m.pool.curID
  {
    Manager(m.pool.(tunnels := m.pool.tunnels[t.id := t]))
  }

  /** `Manager.HandleIn`: decode a TMSG and route it. Data for an unknown tunnel
      is an error; a close for an unknown tunnel is an error, but a close for an
      unknown channel of a known tunnel is not. */
  function HandleIn(k: Kinds, m: Manager, payload: bytes, io: ChannelIo): (r: (Result<Unit>, Manager))
    requires Valid(m)
    ensures Valid(r.1) && r.1.pool.tunnels.Keys == m.pool.tunnels.Keys
    ensures |payload| < MinLength ==> r == (Err(ErrMessageDataTooShort), m)
    ensures |payload| >= MinLength ==> var tm := Decode(payload).value;
      && (tm.msgType == k.channelForward && tm.tunnelID !in m.pool.tunnels ==> r == (Err(ErrCanNotFindTunnel), m))
      && (tm.msgType != k.channelForward && tm.msgType == k.channelClose ==>
            (r.0.Ok? <==> tm.tunnelID in m.pool.tunnels) && (r.0.Err? ==> r == (Err(ErrNoSuchTunnel), m)))
      && (tm.msgType != k.channelForward && tm.msgType != k.channelClose ==> r == (Err(ErrUnknownMsgType), m))
  {
    match Decode(payload)
    case Err(e) => (Err(e), m)
    case Ok(tm) =>
      if tm.msgType == k.channelForward then
        match TP.Get(m.pool, tm.tunnelID)
        case None => (Err(ErrCanNotFindTunnel), m)
        case Some(t) =>
          var (res, t') := T.HandleIn(t, tm, io.dial, io.write);
          (res, Put(m, t'))
      else if tm.msgType == k.channelClose then
        match TP.Get(m.pool, tm.tunnelID)
        case None => (Err(ErrNoSuchTunnel), m)
        case Some(t) =>
          var (_, t', _) := T.HandleChannelClose(t, tm.channelID);
          (Ok(Unit), Put(m, t'))
      else (Err(ErrUnknownMsgType), m)
  }

  /** `TunnelCreate`: register the tunnel, then start it listening; if that
      fails, the tunnel is removed again. An unsupported protocol panics, and
      a listen address that does not resolve exits the process. */
  function TunnelCreate(m: Manager, lp: LP.Pool, cfg: Config, io: T.ListenIo)
    : (r: Step<(Result<T.Tunnel>, Manager, LP.Pool)>)
    requires Valid(m)
    ensures r.Panics? ==> !T.ValidProto(cfg.proto) || r.reason == T.ExitUnresolved
    // the only exit for a supported protocol is the listen's failed resolution
    ensures r.Panics? && T.ValidProto(cfg.proto) ==>
      && !cfg.reverse
      && LP.TCPKey(cfg.localHost, cfg.localPort) !in lp.targets
      && !T.Resolves(cfg.localHost, cfg.localPort, io)
    ensures r.Done? ==> Valid(r.value.1)
    ensures r.Done? && r.value.0.Err? ==> r.value.1.pool.tunnels == m.pool.tunnels && r.value.2 == lp
    ensures r.Done? && r.value.0.Ok? ==> var t := r.value.0.value;
      && T.Valid(t) && t.id != 0 && (cfg.id != 0 ==> t.id == cfg.id)
      && t.config == cfg.(id := t.id)
      && t.id !in m.pool.tunnels
      && r.value.1.pool.tunnels == m.pool.tunnels[t.id := t]
      && T.Listen(t, lp, io).Done? && r.value.2 == T.Listen(t, lp, io).value.1
    ensures cfg.id != 0 && cfg.id in m.pool.tunnels ==> r == Done((Err(TP.ErrIDExisted), m, lp))
  {
    match TP.New(m.pool, cfg)
    case Blocks => Blocks
    case Panics(why) => Panics(why)
    case Done(Err(e)) => Done((Err(e), m, lp))
    case Done(Ok((t, q))) =>
      if !T.ValidProto(cfg.proto) then Panics(PanicNilTunnel)
      else
        assert Valid(Manager(q));
        ListenRegistered(m, q, t, lp, io)
  }

  /** The second half of `TunnelCreate`: `q` is `m`'s pool with `t` just
      registered. Start `t` listening, and unregister it again if that fails. */
  function ListenRegistered(m: Manager, q: TP.Pool, t: T.Tunnel, lp: LP.Pool, io: T.ListenIo)
    : (r: Step<(Result<T.Tunnel>, Manager, LP.Pool)>)
    requires Valid(Manager(q)) && T.Valid(t)
    requires t.id !in m.pool.tunnels && q.tunnels == m.pool.tunnels[t.id := t]
    ensures !r.Blocks?
    ensures r.Panics? ==>
      && r.reason == T.ExitUnresolved
      && !t.config.reverse
      && LP.TCPKey(t.config.localHost, t.config.localPort) !in lp.targets
      && !T.Resolves(t.config.localHost, t.config.localPort, io)
    ensures r.Done? ==> Valid(r.value.1)
    ensures r.Done? && r.value.0.Err? ==> r.value.1.pool.tunnels == m.pool.tunnels && r.value.2 == lp
    ensures r.Done? && r.value.0.Ok? ==>
      && r.value.0.value == t && r.value.1 == Manager(q)
      && T.Listen(t, lp, io).Done? && r.value.2 == T.Listen(t, lp, io).value.1
  {
    match T.Listen(t, lp, io)
    case Blocks => Blocks
    case Panics(why) => Panics(why)
    case Done((Err(e), _)) =>
      var q' := TP.Delete(q, t).value;
      assert q'.tunnels == m.pool.tunnels by {
        assert m.pool.tunnels[t.id := t] - {t.id} == m.pool.tunnels;
      }
      Done((Err(e), Manager(q'), lp))
    case Done((Ok(_), lp')) => Done((Ok(t), Manager(q), lp'))
  }

  /** A reverse tunnel never listens, so creating one succeeds whenever its ID
      is available, and leaves the listen pool alone. */
  lemma ReverseCreateSucceeds(m: Manager, lp: LP.Pool, cfg: Config, io: T.ListenIo)
    requires Valid(m) && cfg.reverse && T.ValidProto(cfg.proto)
    requires cfg.id != 0 && cfg.id !in m.pool.tunnels
    ensures var r := TunnelCreate(m, lp, cfg, io);
      r.Done? && r.value.0.Ok? && r.value.0.value.id == cfg.id && r.value.2 == lp
  {
  }

  /** Creating a forward tunnel with an available ID on a free address that
      does not resolve ends the process: the tunnel map never reports back. */
  lemma UnresolvedCreateExits(m: Manager, lp: LP.Pool, cfg: Config, io: T.ListenIo)
    requires Valid(m) && !cfg.reverse && T.ValidProto(cfg.proto)
    requires cfg.id != 0 && cfg.id !in m.pool.tunnels
    requires LP.TCPKey(cfg.localHost, cfg.localPort) !in lp.targets
    requires !T.Resolves(cfg.localHost, cfg.localPort, io)
    ensures TunnelCreate(m, lp, cfg, io) == Panics(T.ExitUnresolved)
  {
  }

  /** `Manager.Close`: delete every listener of the (process-wide) listen pool,
      along a snapshot enumeration of its keys. */
  function Close(lp: LP.Pool, keys: seq<string>): (r: (Result<Unit>, LP.Pool))
    requires forall i :: 0 <= i < |keys| ==> keys[i] in lp.targets
    requires forall i, j :: 0 <= i < j < |keys| ==> keys[i] != keys[j]
    requires forall key :: key in lp.targets ==> key in keys
    ensures r.0.Ok? && r.1.targets == map[]
  {
    LP.CloseEmptiesPool(lp, keys);
    (Ok(Unit), LP.DeleteAll(lp, keys).0)
  }
}

=== FILE: tunnel_msg.dfy ===
/** The tunnel-layer message (TMSG) of the `es` library:
    `type (1 byte) | tunnelID (4 bytes) | channelID (4 bytes) | payload`, the
    integers little-endian. */
module TunnelMsg {
  import opened Bytes
  import opened Wrappers

  /** Shortest encoded TMSG: the type byte and the two IDs. */
  const MinLength: nat := 9

  const ErrMessageDataTooShort := "message data is too short"

  datatype TMSG = TMSG(msgType: byte, tunnelID: uint32, channelID: uint32, payload: bytes)

  /** `TMSG.Len`: the size the message occupies on the wire. */
  function Len(m: TMSG): (n: nat)
    ensures n == |Encode(m)|
  {
    MinLength + |m.payload|
  }

  /** `TMSG.Bytes`. */
  function Encode(m: TMSG): (r: bytes)
    ensures |r| == MinLength + |m.payload|
    ensures r[0] == m.msgType && r[1..5] == LE32(m.tunnelID) && r[5..9] == LE32(m.channelID)
    ensures r[9..] == m.payload
  {
    var head := [m.msgType] + LE32(m.tunnelID) + LE32(m.channelID);
    if |m.payload| > 0 then head + m.payload else head
  }

  /** `LoadTMSG`: parse a tunnel message, rejecting anything shorter than 9 bytes. */
  function Decode(d: bytes): (r: Result<TMSG>)
    ensures r.Err? <==> |d| < MinLength
    ensures r.Err? ==> r.error == ErrMessageDataTooShort
    ensures r.Ok? ==> r.value.msgType == d[0] && r.value.payload == d[9..]
  {
    if |d| < MinLength then Err(ErrMessageDataTooShort)
    else Ok(TMSG(d[0], ReadLE32(d[1..5]), ReadLE32(d[5..9]), d[9..]))
  }

  /** Decoding an encoded tunnel message reproduces it field for field. */
  lemma DecodeEncode(m: TMSG)
    ensures Decode(Encode(m)) == Ok(m)
  {
    LE32RoundTrip(m.tunnelID);
    LE32RoundTrip(m.channelID);
  }

  /** Every input of at least nine bytes is the encoding of what it decodes to. */
  lemma EncodeDecode(d: bytes)
    requires |d| >= MinLength
    ensures Decode(d).Ok? && Encode(Decode(d).value) == d
  {
    LE32Inverse(d[1..5]);
    LE32Inverse(d[5..9]);
    assert d == [d[0]] + d[1..5] + d[5..9] + d[9..];
  }
}

=== FILE: tunnel_pool.dfy ===
/** `tunnel.Pool`: the tunnels of one link endpoint, keyed by ID, with the same
    parity-separated allocator as the session pool. */
module TunnelPool {
  import opened Bytes
  import opened Wrappers
  import opened IdAlloc
  import opened TunnelConfig
  import opened Tunnel

  const ErrIDExisted := "tunnel ID existed"
  const ErrDeleteNotExist := "delete failed: tunnel not exist"

  datatype Pool = Pool(curID: uint32, tunnels: map<uint32, Tunnel>)

  /** Every tunnel is stored under its own ID. */
  predicate Valid(p: Pool) {
    forall id :: id in p.tunnels ==> p.tunnels[id].id == id
  }

  /** A server-side pool starts its cursor at 1, a client-side one at 2. */
  function NewPool(isServerSide: bool): (p: Pool)
    ensures Valid(p) && p.tunnels == map[]
    ensures p.curID % 2 == (if isServerSide then 1 else 0)
  {
    Pool(if isServerSide then 1 else 2, map[])
  }

  /** `newID`: `curID += 2`, skipping 0 and IDs in use. */
  function NewID(p: Pool): (r: Option<uint32>)
    ensures r.Some? ==> r.value != 0 && r.value !in p.tunnels && r.value % 2 == p.curID % 2
  {
    NextParityID(p.curID, p.tunnels.Keys)
  }

  /** `Pool.New`: a configuration with ID 0 gets a fresh ID (written back into
      the configuration, and the cursor moves to it); a nonzero ID is taken as
      given unless a tunnel already has it. `Blocks` when the ID search would
      never end. */
  function New(p: Pool, cfg: Config): (r: Step<Result<(Tunnel, Pool)>>)
    ensures cfg.id != 0 ==> r.Done?
    ensures cfg.id != 0 && cfg.id in p.tunnels ==> r == Done(Err(ErrIDExisted))
    ensures r.Done? && r.value.Ok? ==> var (t, q) := r.value.value;
      && t == NewTunnel(t.config)
      && t.config == cfg.(id := t.id)
      && t.id != 0 && t.id !in p.tunnels
      && q.tunnels == p.tunnels[t.id := t]
      && q.curID == (if cfg.id == 0 then t.id else p.curID)
    ensures r.Done? && r.value.Ok? && Valid(p) ==> Valid(r.value.value.1)
    ensures cfg.id == 0 && r.Done? ==> r.value.Ok? && r.value.value.0.id % 2 == p.curID % 2
  {
    if cfg.id == 0 then
      match NewID(p)
      case None => Blocks
      case Some(id) =>
        var t := NewTunnel(cfg.(id := id));
        Done(Ok((t, Pool(id, p.tunnels[id := t]))))
    else if cfg.id in p.tunnels then Done(Err(ErrIDExisted))
    else
      var t := NewTunnel(cfg);
      Done(Ok((t, p.(tunnels := p.tunnels[cfg.id := t]))))
  }

  function Get(p: Pool, id: uint32): (r: Option<Tunnel>)
    ensures r.Some? <==> id in p.tunnels
    ensures r.Some? ==> r.value == p.tunnels[id]
  {
    if id in p.tunnels then Some(p.tunnels[id]) else None
  }

  /** `Pool.Delete`: remove the tunnel's ID, or fail if it is absent. */
  function Delete(p: Pool, t: Tunnel): (r: Result<Pool>)
    ensures r.Err? <==> t.id !in p.tunnels
    ensures r.Err? ==> r.error == ErrDeleteNotExist
    ensures r.Ok? ==> r.value.tunnels == p.tunnels - {t.id} && r.value.curID == p.curID
    ensures r.Ok? && Valid(p) ==> Valid(r.value)
  {
    if t.id !in p.tunnels then Err(ErrDeleteNotExist)
    else Ok(p.(tunnels := p.tunnels - {t.id}))
  }

  /** Deleting a tunnel just created restores the tunnel map. */
  lemma NewDelete(p: Pool, cfg: Config)
    requires New(p, cfg).Done? && New(p, cfg).value.Ok?
    ensures var (t, q) := New(p, cfg).value.value;
      Delete(q, t) == Ok(Pool(q.curID, p.tunnels))
  {
    var (t, q) := New(p, cfg).value.value;
    assert p.tunnels[t.id := t] - {t.id} == p.tunnels;
  }
}

=== FILE: tunnel_spec.dfy ===
/** The client's `-t` tunnel specification strings: `strings.Split` on ':',
    the 6-field parser of the current client (pkg/client/client.go) and the
    5-field parser of the legacy client (client/client.go).
 */
module TunnelSpec {
  import opened Wrappers
  import Decimal

  const Separator: char := ':'

  const ErrMapWrong: string := "tunnel map is wrong: "
  const ErrWrongMap: string := "wrong tunnel map"
  const ErrUnknownProtocol: string := "unknown protocol"
  const DefaultProto: string := "tcp"

  /** Where the two ends of a tunnel are and which side listens. */
  datatype Endpoints = Endpoints(localHost: string, localPort: int,
                                 remoteHost: string, remotePort: int,
                                 reverse: bool)

  /** What the current client's parser yields: a transport and the endpoints. */
  datatype Spec = Spec(proto: string, ends: Endpoints)

  predicate ColonFree(s: string) {
    Separator !in s
  }

  // ---------------------------------------------------------------- Split

  /** `strings.Split(s, ":")`: the maximal colon-free pieces, in order. */
  function Split(s: string): (r: seq<string>)
    ensures |r| >= 1
    ensures forall i :: 0 <= i < |r| ==> ColonFree(r[i])
    decreases |s|
  {
    if s == [] then [[]]
    else
      var rest := Split(s[1..]);
      if s[0] == Separator then [[]] + rest
      else [[s[0]] + rest[0]] + rest[1..]
  }

  /** `strings.Join(parts, ":")`, the reference the splitter is checked against. */
  function Join(parts: seq<string>): (s: string)
    requires |parts| >= 1
    decreases |parts|
  {
    if |parts| == 1 then parts[0] else parts[0] + [Separator] + Join(parts[1..])
  }

  /** Splitting and re-joining gives back the original text. */
  lemma {:induction false} SplitJoin(s: string)
    ensures Join(Split(s)) == s
    decreases |s|
  {
    if s != [] {
      var rest := Split(s[1..]);
      SplitJoin(s[1..]);
      if s[0] == Separator {
        assert s == [s[0]] + s[1..];
      } else if |rest| == 1 {
        assert s == [s[0]] + s[1..];
      } else {
        assert Split(s) == [[s[0]] + rest[0]] + rest[1..];
        assert Join(Split(s)) == [s[0]] + rest[0] + [Separator] + Join(rest[1..]);
        assert Join(rest) == rest[0] + [Separator] + Join(rest[1..]);
        assert s == [s[0]] + s[1..];
      }
    }
  }

  /** A colon-free piece followed by the rest starts with that piece as its first field. */
  lemma {:induction false} SplitPrefix(p: string, t: string)
    requires ColonFree(p)
    ensures Split(p + t) == [p + Split(t)[0]] + Split(t)[1..]
    decreases |p|
  {
    if p == [] {
      assert p + t == t;
      assert p + Split(t)[0] == Split(t)[0];
      assert Split(t) == [Split(t)[0]] + Split(t)[1..];
    } else {
      assert (p + t)[1..] == p[1..] + t;
      assert (p + t)[0] == p[0];
      SplitPrefix(p[1..], t);
      assert [p[0]] + (p[1..] + Split(t)[0]) == p + Split(t)[0];
    }
  }

  /** Joining colon-free pieces and splitting again gives back the pieces. */
  lemma {:induction false} JoinSplit(parts: seq<string>)
    requires |parts| >= 1
    requires forall i :: 0 <= i < |parts| ==> ColonFree(parts[i])
    ensures Split(Join(parts)) == parts
    decreases |parts|
  {
    if |parts| == 1 {
      SplitPrefix(parts[0], []);
      assert parts[0] + [] == parts[0];
    } else {
      var t := [Separator] + Join(parts[1..]);
      JoinSplit(parts[1..]);
      assert Split(t) == [[]] + parts[1..];
      assert parts[0] + [Separator] + Join(parts[1..]) == parts[0] + t;
      SplitPrefix(parts[0], t);
      assert parts[0] + [] == parts[0];
      assert parts == [parts[0]] + parts[1..];
    }
  }

  // ------------------------------------------------------ field helpers

  /** The direction field: r/R reverse, f/F forward, anything else is rejected. */
  function Direction(f: string): (r: Option<bool>)
    ensures r == Some(true) <==> f in {"r", "R"}
    ensures r == Some(false) <==> f in {"f", "F"}
  {
    if f == "r" || f == "R" then Some(true)
    else if f == "f" || f == "F" then Some(false)
    else None
  }

  function DirectionField(reverse: bool): string {
    if reverse then "r" else "f"
  }

  /** `unicode.IsSpace`: the ASCII white space, NEL, NBSP and the other
      characters with the Unicode White_Space property. */
  predicate IsSpace(c: char) {
    c == '\t' || c == '\n' || c == '\U{000B}' || c == '\U{000C}' || c == '\r' || c == ' '
    || c == '\U{0085}' || c == '\U{00A0}' || c == '\U{1680}'
    || ('\U{2000}' <= c <= '\U{200A}')
    || c == '\U{2028}' || c == '\U{2029}' || c == '\U{202F}' || c == '\U{205F}' || c == '\U{3000}'
  }

  /** `strings.TrimSpace`: drop leading and trailing white space. */
  function TrimSpace(s: string): (r: string)
    ensures |r| <= |s|
    ensures r == [] || (!IsSpace(r[0]) && !IsSpace(r[|r| - 1]))
    ensures forall i :: 0 <= i < |s| && !IsSpace(s[i]) ==> r != []
    ensures (forall i :: 0 <= i < |s| ==> !IsSpace(s[i])) ==> r == s
  {
    TrimRight(TrimLeft(s))
  }

  function TrimLeft(s: string): (r: string)
    ensures |r| <= |s| && r == s[|s| - |r|..]
    ensures r == [] || !IsSpace(r[0])
    ensures forall i :: 0 <= i < |s| - |r| ==> IsSpace(s[i])
    decreases |s|
  {
    if s != [] && IsSpace(s[0]) then
      var r := TrimLeft(s[1..]);
      assert s[1..][|s| - 1 - |r|..] == s[|s| - |r|..];
      assert forall i :: 1 <= i < |s| - |r| ==> s[i] == s[1..][i - 1];
      r
    else s
  }

  function TrimRight(s: string): (r: string)
    ensures |r| <= |s| && r == s[..|r|]
    ensures r == [] || !IsSpace(r[|r| - 1])
    ensures forall i :: |r| <= i < |s| ==> IsSpace(s[i])
    decreases |s|
  {
    if s != [] && IsSpace(s[|s| - 1]) then
      var r := TrimRight(s[..|s| - 1]);
      assert s[..|s| - 1][..|r|] == s[..|r|];
      assert forall i :: |r| <= i < |s| - 1 ==> s[i] == s[..|s| - 1][i];
      r
    else s
  }

  /** `strings.ToLower` on ASCII letters; every other character is kept. */
  function ToLower(s: string): (r: string)
    ensures |r| == |s|
    ensures forall i :: 0 <= i < |s| ==>
      r[i] == (if 'A' <= s[i] <= 'Z' then (s[i] as int + 32) as char else s[i])
  {
    seq(|s|, i requires 0 <= i < |s| => if 'A' <= s[i] <= 'Z' then (s[i] as int + 32) as char else s[i])
  }

  /** The protocol field after lower-casing and trimming, with "" read as "tcp". */
  function NormalizeProto(field: string): (p: string)
    ensures p != []
    ensures field == [] ==> p == DefaultProto
  {
    var t := TrimSpace(ToLower(field));
    if t == [] then DefaultProto else t
  }

  /** The accepted protocol names are already normal. */
  lemma NormalizeKnown(field: string)
    requires field in {"tcp", "udp"}
    ensures NormalizeProto(field) == field
  {
    assert ToLower(field) == field;
    assert forall i :: 0 <= i < |field| ==> !IsSpace(field[i]);
  }

  // -------------------------------------------------------------- parsers

  /** The 5-field form of older configurations gets protocol "tcp" inserted second. */
  function Widen(given: seq<string>): (fields: seq<string>)
    ensures |given| == 5 ==> |fields| == 6 && fields[0] == given[0] && fields[1] == DefaultProto
                             && fields[2..] == given[1..]
    ensures |given| != 5 ==> fields == given
  {
    if |given| == 5 then [given[0], DefaultProto] + given[1..] else given
  }

  /** The 6-field form `r|f:proto:local_host:local_port:remote_host:remote_port`,
      also accepting the older 5-field form without the protocol. */
  function Parse(value: string): (r: Result<Spec>)
    ensures var n := |Split(value)|; n != 5 && n != 6 ==> r == Err(ErrMapWrong + value)
    ensures r.Ok? ==> r.value.proto in {"tcp", "udp"}
    ensures r.Ok? ==> |Split(value)| in {5, 6}
                      && Direction(Split(value)[0]) == Some(r.value.ends.reverse)
    ensures r.Ok? && |Split(value)| == 6 ==>
      r.value.ends.localHost == Split(value)[2] && r.value.ends.remoteHost == Split(value)[4]
      && Decimal.Atoi(Split(value)[3]) == Ok(r.value.ends.localPort)
      && Decimal.Atoi(Split(value)[5]) == Ok(r.value.ends.remotePort)
  {
    ParseFields(value, Widen(Split(value)))
  }

  /** The checks of the 6-field form, in the order the client makes them. */
  function ParseFields(value: string, fields: seq<string>): (r: Result<Spec>)
    ensures |fields| != 6 ==> r == Err(ErrMapWrong + value)
    ensures r.Ok? ==> r.value.proto in {"tcp", "udp"}
    ensures r.Ok? ==> |fields| == 6 && Direction(fields[0]) == Some(r.value.ends.reverse)
    ensures r.Ok? ==> r.value.proto == NormalizeProto(fields[1])
    ensures r.Ok? ==> r.value.ends.localHost == fields[2] && r.value.ends.remoteHost == fields[4]
    ensures r.Ok? ==> Decimal.Atoi(fields[3]) == Ok(r.value.ends.localPort)
    ensures r.Ok? ==> Decimal.Atoi(fields[5]) == Ok(r.value.ends.remotePort)
  {
    if |fields| != 6 then Err(ErrMapWrong + value)
    else
      var dir := Direction(fields[0]);
      if dir.None? then Err(ErrWrongMap)
      else
        var proto := NormalizeProto(fields[1]);
        if !(proto == "tcp" || proto == "udp") then Err(ErrUnknownProtocol)
        else
          var localPort := Decimal.Atoi(fields[3]);
          if localPort.Err? then Err(localPort.error)
          else
            var remotePort := Decimal.Atoi(fields[5]);
            if remotePort.Err? then Err(remotePort.error)
            else Ok(Spec(proto, Endpoints(fields[2], localPort.value, fields[4], remotePort.value, dir.value)))
  }

  /** The legacy client's 5-field form `r|f:local_host:local_port:remote_host:remote_port`. */
  function ParseLegacy(value: string): (r: Result<Endpoints>)
    ensures |Split(value)| != 5 ==> r == Err(ErrMapWrong + value)
    ensures r.Ok? ==>
      var L := Split(value);
      |L| == 5 && Direction(L[0]) == Some(r.value.reverse)
      && r.value.localHost == L[1] && r.value.remoteHost == L[3]
      && Decimal.Atoi(L[2]) == Ok(r.value.localPort)
      && Decimal.Atoi(L[4]) == Ok(r.value.remotePort)
  {
    var L := Split(value);
    if |L| != 5 then Err(ErrMapWrong + value)
    else
      var dir := Direction(L[0]);
      if dir.None? then Err(ErrWrongMap)
      else
        var localPort := Decimal.Atoi(L[2]);
        if localPort.Err? then Err(localPort.error)
        else
          var remotePort := Decimal.Atoi(L[4]);
          if remotePort.Err? then Err(remotePort.error)
          else Ok(Endpoints(L[1], localPort.value, L[3], remotePort.value, dir.value))
  }

  // ------------------------------------------------------------ printers

  /** The endpoints can be written in the spec syntax when the hosts hold no colon
      and the ports fit Go's `int`. */
  predicate Printable(e: Endpoints) {
    ColonFree(e.localHost) && ColonFree(e.remoteHost)
    && Decimal.INT64_MIN <= e.localPort <= Decimal.INT64_MAX
    && Decimal.INT64_MIN <= e.remotePort <= Decimal.INT64_MAX
  }

  function Format(s: Spec): string {
    Join([DirectionField(s.ends.reverse), s.proto, s.ends.localHost, Decimal.IntStr(s.ends.localPort),
          s.ends.remoteHost, Decimal.IntStr(s.ends.remotePort)])
  }

  function FormatLegacy(e: Endpoints): string {
    Join([DirectionField(e.reverse), e.localHost, Decimal.IntStr(e.localPort),
          e.remoteHost, Decimal.IntStr(e.remotePort)])
  }

  lemma IntStrColonFree(n: int)
    ensures ColonFree(Decimal.IntStr(n))
  {
    var s := Decimal.IntStr(n);
    forall i | 0 <= i < |s|
      ensures s[i] != Separator
    {
      if n >= 0 {
        assert Decimal.IsDigit(s[i]);
      } else if i > 0 {
        assert s[1..][i - 1] == s[i];
        assert Decimal.IsDigit(s[1..][i - 1]);
      }
    }
  }

  /** Every tcp or udp spec with printable endpoints parses back from its text. */
  lemma ParseFormat(s: Spec)
    requires s.proto in {"tcp", "udp"} && Printable(s.ends)
    ensures Parse(Format(s)) == Ok(s)
  {
    var parts := [DirectionField(s.ends.reverse), s.proto, s.ends.localHost,
                  Decimal.IntStr(s.ends.localPort), s.ends.remoteHost, Decimal.IntStr(s.ends.remotePort)];
    IntStrColonFree(s.ends.localPort);
    IntStrColonFree(s.ends.remotePort);
    JoinSplit(parts);
    assert Split(Format(s)) == parts;
    assert Widen(parts) == parts;
    assert Direction(parts[0]) == Some(s.ends.reverse);
    NormalizeKnown(s.proto);
    Decimal.AtoiIntStr(s.ends.localPort);
    Decimal.AtoiIntStr(s.ends.remotePort);
  }

  /** The legacy parser reads back what the legacy printer writes. */
  lemma ParseLegacyFormat(e: Endpoints)
    requires Printable(e)
    ensures ParseLegacy(FormatLegacy(e)) == Ok(e)
  {
    var parts := [DirectionField(e.reverse), e.localHost, Decimal.IntStr(e.localPort),
                  e.remoteHost, Decimal.IntStr(e.remotePort)];
    IntStrColonFree(e.localPort);
    IntStrColonFree(e.remotePort);
    JoinSplit(parts);
    Decimal.AtoiIntStr(e.localPort);
    Decimal.AtoiIntStr(e.remotePort);
  }

  /** On a 5-field spec the two clients agree: the current one reads it as the
      legacy one does, with protocol "tcp", and fails exactly when it fails. */
  lemma FiveFieldsAgree(value: string)
    requires |Split(value)| == 5
    ensures ParseLegacy(value).Ok? <==> Parse(value).Ok?
    ensures ParseLegacy(value).Ok? ==> Parse(value) == Ok(Spec(DefaultProto, ParseLegacy(value).value))
    ensures ParseLegacy(value).Err? ==> Parse(value) == ParseLegacy(value).PropagateFailure()
  {
    var L := Split(value);
    var fields := Widen(L);
    assert fields[2] == L[1] && fields[3] == L[2] && fields[4] == L[3] && fields[5] == L[4];
    NormalizeKnown(DefaultProto);
  }

  /** A 5-field spec means the same as the 6-field spec with "tcp" inserted second. */
  lemma TcpInserted(d: string, lh: string, lp: string, rh: string, rp: string)
    requires ColonFree(d) && ColonFree(lh) && ColonFree(lp) && ColonFree(rh) && ColonFree(rp)
    ensures Parse(Join([d, lh, lp, rh, rp])) == Parse(Join([d, DefaultProto, lh, lp, rh, rp]))
  {
    var five := [d, lh, lp, rh, rp];
    var six := [d, DefaultProto, lh, lp, rh, rp];
    JoinSplit(five);
    JoinSplit(six);
    assert Widen(five) == six;
    assert Widen(six) == six;
    ParseFieldsIgnoresValue(Join(five), Join(six), six);
  }

  /** Once there are six fields, the original text only shows in no result. */
  lemma ParseFieldsIgnoresValue(v1: string, v2: string, fields: seq<string>)
    requires |fields| == 6
    ensures ParseFields(v1, fields) == ParseFields(v2, fields)
  {
  }
}

=== FILE: udp_message.dfy ===
/** Reliable-UDP messages: the sender prefixes a message with its own length
    and cuts it into segments of at most 1386 body bytes; the receiver saves
    segments in whatever order they arrive and hands back the message once all
    of its bytes are there.
 */
module UdpMessage {
  import opened Bytes
  import opened Wrappers
  import opened UdpSegment
  import UdpUtil

  const PanicShortFirstSegment: string := "first segment shorter than its length prefix"
  const PanicOrderBeyondMessage: string := "segment order ID beyond the message"

  /** The largest prefixed message whose segment count still fits a uint16. */
  const MaxPrefixedLength: nat := (UINT16_LIMIT - 1) * SegmentBodyMaxSize

  // ================================================================ sending

  datatype Sending = Sending(types: byte, flags: uint16, streamID: uint32, transID: uint16,
                             message: bytes)

  /** `newMsgSending`: the stored message is the original behind a 4-byte
      big-endian count of the original length plus 4, truncated to 32 bits. */
  function NewMsgSending(types: byte, flags: uint16, streamID: uint32, transID: uint16,
                         message: bytes): (m: Sending)
    ensures m.types == types && m.flags == flags && m.streamID == streamID && m.transID == transID
    ensures |m.message| == |message| + 4 && m.message[4..] == message
    ensures ReadBE32(m.message) == (|message| + 4) % UINT32_LIMIT
  {
    var count := (|message| + 4) % UINT32_LIMIT;
    var prefixed := BE32(count) + message;
    assert prefixed[..2] == BE32(count)[..2] && prefixed[2..4] == BE32(count)[2..4];
    BE32RoundTrip(count);
    Sending(types, flags, streamID, transID, prefixed)
  }

  /** `segmentCount`: the number of 1386-byte pieces, rounded up, as a uint16. */
  function SegmentCount(m: Sending): (c: uint16)
    ensures |m.message| <= MaxPrefixedLength ==>
              c * SegmentBodyMaxSize >= |m.message|
              && (c == 0 || (c - 1) * SegmentBodyMaxSize < |m.message|)
    ensures |m.message| <= MaxPrefixedLength && |m.message| > 0 ==> c > 0
  {
    var length := |m.message|;
    var c := length / SegmentBodyMaxSize + (if length % SegmentBodyMaxSize != 0 then 1 else 0);
    c % UINT16_LIMIT
  }

  /** Order IDs below the (possibly truncated) count start inside the message. */
  lemma CountedChunkStarts(m: Sending, i: nat)
    requires i < SegmentCount(m)
    ensures i * SegmentBodyMaxSize < |m.message|
  {
    var length := |m.message|;
    var c := length / SegmentBodyMaxSize + (if length % SegmentBodyMaxSize != 0 then 1 else 0);
    assert i < c;
    assert length == (length / SegmentBodyMaxSize) * SegmentBodyMaxSize + length % SegmentBodyMaxSize;
  }

  /** The body of order ID `i`: bytes [i*1386, min((i+1)*1386, len)). */
  function Chunk(m: Sending, i: nat): (b: bytes)
    requires i * SegmentBodyMaxSize <= |m.message|
    ensures |b| <= SegmentBodyMaxSize
    ensures i * SegmentBodyMaxSize < |m.message| ==> |b| > 0
  {
    var start := i * SegmentBodyMaxSize;
    var end := if start + SegmentBodyMaxSize > |m.message| then |m.message| else start + SegmentBodyMaxSize;
    m.message[start..end]
  }

  function SegmentAt(m: Sending, i: nat): (seg: Segment)
    requires i < SegmentCount(m)
    ensures OrderID(seg.h) == i && seg.b == Chunk(m, i) && |seg.b| > 0
    ensures Type(seg.h) == m.types && Flags(seg.h) == m.flags
    ensures StreamID(seg.h) == m.streamID && TransID(seg.h) == m.transID
  {
    CountedChunkStarts(m, i);
    NewSegment(m.types, m.flags, m.streamID, m.transID, i, Chunk(m, i)).value
  }

  /** `IterBufferd`: the segments with order IDs 0 .. count-1, in order. */
  function IterBufferd(m: Sending): (segs: seq<Segment>)
    ensures |segs| == SegmentCount(m)
    ensures forall i :: 0 <= i < |segs| ==> segs[i] == SegmentAt(m, i)
  {
    seq(SegmentCount(m), i requires 0 <= i < SegmentCount(m) => SegmentAt(m, i))
  }

  /** `GetSegmentByOrderID`: the same slice computation for one order ID; an ID
      whose start lies past the end of the message panics on the slice. */
  function GetSegmentByOrderID(m: Sending, orderID: uint16): (r: Step<Segment>)
    ensures !r.Blocks?
    ensures r.Done? <==> orderID * SegmentBodyMaxSize <= |m.message|
    ensures r.Done? ==> OrderID(r.value.h) == orderID && r.value.b == Chunk(m, orderID)
  {
    var start := orderID * SegmentBodyMaxSize;
    if start > |m.message| then Panics(PanicOrderBeyondMessage)
    else Done(NewSegment(m.types, m.flags, m.streamID, m.transID, orderID, Chunk(m, orderID)).value)
  }

  /** Fetching one segment by order ID gives the segment `IterBufferd` yields there. */
  lemma GetSegmentMatchesIter(m: Sending, i: nat)
    requires i < SegmentCount(m)
    ensures GetSegmentByOrderID(m, i) == Done(IterBufferd(m)[i])
  {
    CountedChunkStarts(m, i);
  }

  /** The bodies of a run of segments, joined in order. */
  function Concat(segs: seq<Segment>): (r: bytes)
    ensures segs != [] ==> |r| >= |segs[0].b|
    decreases |segs|
  {
    if segs == [] then []
    else
      var init := segs[..|segs| - 1];
      assert |segs| > 1 ==> init[0] == segs[0];
      Concat(init) + segs[|segs| - 1].b
  }

  lemma ConcatSnoc(segs: seq<Segment>, k: nat)
    requires k < |segs|
    ensures Concat(segs[..k + 1]) == Concat(segs[..k]) + segs[k].b
  {
    assert segs[..k + 1][..k] == segs[..k];
  }

  function Min(a: nat, b: nat): nat {
    if a < b then a else b
  }

  /** Segment `i` is the slice starting at i*1386 and ending 1386 bytes later
      or at the end of the message. */
  lemma ChunkRange(m: Sending, i: nat)
    requires i < SegmentCount(m)
    ensures i * SegmentBodyMaxSize < |m.message|
    ensures IterBufferd(m)[i].b
         == m.message[i * SegmentBodyMaxSize..Min((i + 1) * SegmentBodyMaxSize, |m.message|)]
  {
    CountedChunkStarts(m, i);
    assert (i + 1) * SegmentBodyMaxSize == i * SegmentBodyMaxSize + SegmentBodyMaxSize;
  }

  lemma SliceJoin(s: bytes, a: nat, b: nat)
    requires a <= b <= |s|
    ensures s[..a] + s[a..b] == s[..b]
  {
  }

  /** The first k segments of `IterBufferd` carry the first min(k*1386, len) bytes. */
  lemma {:induction false} IterPrefix(m: Sending, k: nat)
    requires k <= SegmentCount(m)
    ensures Concat(IterBufferd(m)[..k]) == m.message[..Min(k * SegmentBodyMaxSize, |m.message|)]
  {
    var segs := IterBufferd(m);
    if k == 0 {
      assert segs[..0] == [];
    } else {
      var start := (k - 1) * SegmentBodyMaxSize;
      var end := Min(k * SegmentBodyMaxSize, |m.message|);
      IterPrefix(m, k - 1);
      ChunkRange(m, k - 1);
      assert Min(start, |m.message|) == start;
      ConcatSnoc(segs, k - 1);
      SliceJoin(m.message, start, end);
    }
  }

  /** Joined in order, the segments give back the prefixed message. */
  lemma IterBufferdConcat(m: Sending)
    requires |m.message| <= MaxPrefixedLength
    ensures Concat(IterBufferd(m)) == m.message
  {
    var c := SegmentCount(m);
    IterPrefix(m, c);
    assert IterBufferd(m)[..c] == IterBufferd(m);
    assert Min(c * SegmentBodyMaxSize, |m.message|) == |m.message|;
  }

  /** Dropping the 4-byte count from the joined segments gives back the original. */
  lemma SegmentsCarryMessage(types: byte, flags: uint16, streamID: uint32, transID: uint16,
                             message: bytes)
    requires |message| + 4 <= MaxPrefixedLength
    ensures Concat(IterBufferd(NewMsgSending(types, flags, streamID, transID, message)))[4..] == message
  {
    IterBufferdConcat(NewMsgSending(types, flags, streamID, transID, message));
  }

  // ============================================================== receiving

  datatype Recving = Recving(readBuf: bytes, needLength: uint32, readLength: uint32,
                             saved: map<uint16, Segment>, nextID: uint16,
                             largestOrderID: uint16, completed: bool)

  function NewMsgRecving(): (m: Recving)
    ensures m.saved == map[] && m.nextID == 0 && m.readBuf == [] && !m.completed
    ensures m.needLength == 0 && m.readLength == 0
  {
    Recving([], 0, 0, map[], 0, 0, false)
  }

  /** The order IDs in [lo, hi), ascending, whose membership in `keys` is `present`. */
  function Scan(keys: set<uint16>, lo: nat, hi: nat, present: bool): (r: seq<uint16>)
    requires hi <= UINT16_LIMIT
    ensures forall x: uint16 :: x in r <==> lo <= x < hi && (x in keys) == present
    ensures forall a :: 0 <= a < |r| ==> lo <= r[a]
    ensures forall a, b :: 0 <= a < b < |r| ==> r[a] < r[b]
    ensures UdpUtil.Sorted(r)
    decreases hi - lo
  {
    if lo >= hi then []
    else
      var x := lo as uint16;
      var rest := Scan(keys, lo + 1, hi, present);
      (if (x in keys) == present then [x] else []) + rest
  }

  /** `GetMissing`: after completion (0, none); before it, the largest order ID
      seen and, ascending, the IDs from `nextID` up to it not yet saved. */
  function GetMissing(m: Recving): (r: (uint16, seq<uint16>))
    ensures m.completed ==> r == (0, [])
    ensures !m.completed ==> r.0 == m.largestOrderID
    ensures !m.completed ==> forall x: uint16 :: x in r.1 <==> m.nextID <= x < m.largestOrderID && x !in m.saved
    ensures forall a, b :: 0 <= a < b < |r.1| ==> r.1[a] < r.1[b]
  {
    if m.completed then (0, [])
    else (m.largestOrderID, Scan(m.saved.Keys, m.nextID, m.largestOrderID, false))
  }

  function IsCompleted(m: Recving): bool {
    m.completed
  }

  /** Bodies of saved segments for the given keys, in that order. */
  function BodiesOf(saved: map<uint16, Segment>, keys: seq<uint16>): bytes
    requires forall k :: k in keys ==> k in saved
  {
    if keys == [] then [] else saved[keys[0]].b + BodiesOf(saved, keys[1..])
  }

  /** The saved bodies in ascending order-ID order, as the sorted key list gives them. */
  function SortedBodies(saved: map<uint16, Segment>): (r: bytes)
    ensures saved == map[] ==> r == []
  {
    BodiesOf(saved, Scan(saved.Keys, 0, UINT16_LIMIT, true))
  }

  /** The loop after an in-order segment: keep moving `nextID` on while the next
      segment is already saved, appending its body and forgetting it. */
  function Drain(buf: bytes, saved: map<uint16, Segment>, next: uint16): (bytes, map<uint16, Segment>, uint16)
    decreases |saved.Keys|
  {
    var n := IncU16(next);
    if n in saved then
      assert (saved - {n}).Keys == saved.Keys - {n};
      Drain(buf + saved[n].b, saved - {n}, n)
    else (buf, saved, n)
  }

  /** What a segment that is neither stale nor a duplicate does to the state,
      before the completion check. Segment 0 must carry the 4-byte count. */
  function Accept(m: Recving, seg: Segment): (r: Step<Recving>)
    ensures !r.Blocks?
    ensures r.Panics? <==> OrderID(seg.h) == m.nextID == 0 && |seg.b| < 4
    ensures r.Done? ==> r.value.readLength == (m.readLength + |seg.b|) % UINT32_LIMIT
    ensures r.Done? && OrderID(seg.h) != m.nextID ==>
              r.value == m.(saved := m.saved[OrderID(seg.h) := seg],
                             readLength := r.value.readLength, largestOrderID := r.value.largestOrderID)
    ensures r.Done? ==> r.value.largestOrderID >= m.largestOrderID && r.value.largestOrderID >= OrderID(seg.h)
  {
    var oid := OrderID(seg.h);
    var readLength := (m.readLength + |seg.b|) % UINT32_LIMIT;
    var largest := if m.largestOrderID < oid then oid else m.largestOrderID;
    var counted := m.(readLength := readLength, largestOrderID := largest);
    if oid == m.nextID then
      if oid == 0 && |seg.b| < 4 then Panics(PanicShortFirstSegment)
      else
        var need := if oid == 0 then ReadBE32(seg.b) else m.needLength;
        var buf := m.readBuf + (if oid == 0 then seg.b[4..] else seg.b);
        var drained := Drain(buf, m.saved - {oid}, oid);
        Done(counted.(readBuf := drained.0, needLength := need, saved := drained.1, nextID := drained.2))
    else Done(counted.(saved := m.saved[oid := seg]))
  }

  /** The completion test: the count from segment 0 is known and reached. */
  predicate Complete(m: Recving) {
    m.needLength > 0 && m.needLength <= m.readLength
  }

  /** `msgRecving.Save`: a stale or duplicate segment changes nothing; otherwise
      it is taken in, and once complete the buffered tail is appended in
      ascending order and the whole message returned. */
  function Save(m: Recving, seg: Segment): (r: Step<(Option<bytes>, Recving)>)
    ensures !r.Blocks?
    ensures OrderID(seg.h) < m.nextID || OrderID(seg.h) in m.saved ==> r == Done((None, m))
    ensures r.Panics? <==> OrderID(seg.h) == m.nextID == 0 && OrderID(seg.h) !in m.saved && |seg.b| < 4
    ensures r.Done? && r.value.0.Some? ==> r.value.0.value == r.value.1.readBuf && r.value.1.completed
    ensures r.Done? && r.value != (None, m) ==>
              (r.value.0.Some? <==> Complete(r.value.1))
              && r.value.1.completed == (m.completed || Complete(r.value.1))
  {
    var oid := OrderID(seg.h);
    if oid < m.nextID || oid in m.saved then Done((None, m))
    else
      var accepted := Accept(m, seg);
      if accepted.Panics? then Panics(accepted.reason)
      else
        var a := accepted.value;
        if Complete(a) then
          var buf := a.readBuf + SortedBodies(a.saved);
          Done((Some(buf), a.(readBuf := buf, completed := true)))
        else Done((None, a))
  }

  /** Save the segments `segs[order[0]]`, `segs[order[1]]`, … one after another,
      collecting what each save returns. */
  function SaveInOrder(m: Recving, segs: seq<Segment>, order: seq<nat>): (r: Step<(seq<Option<bytes>>, Recving)>)
    requires forall k :: 0 <= k < |order| ==> order[k] < |segs|
    ensures r.Done? ==> |r.value.0| == |order|
    decreases |order|
  {
    if order == [] then Done(([], m))
    else
      var first := Save(m, segs[order[0]]);
      if first.Panics? then Panics(first.reason)
      else if first.Blocks? then Blocks
      else
        var rest := SaveInOrder(first.value.1, segs, order[1..]);
        if rest.Done? then Done(([first.value.0] + rest.value.0, rest.value.1)) else rest
  }

  // ======================================================= reassembly proof

  /** Segments 0 .. n-1 that carry, in order, the prefixed message `whole`:
      every body is non-empty and the first begins with the total length. */
  ghost predicate Reassemblable(segs: seq<Segment>, whole: bytes) {
    && 1 <= |segs| < UINT16_LIMIT
    && |whole| < UINT32_LIMIT
    && (forall i :: 0 <= i < |segs| ==> OrderID(segs[i].h) == i && |segs[i].b| > 0)
    && |segs[0].b| >= 4 && ReadBE32(segs[0].b) == |whole|
    && Concat(segs) == whole
  }

  /** Total body length of the segments whose indices below j are in S. */
  ghost function SumTo(segs: seq<Segment>, S: set<int>, j: nat): nat
    requires j <= |segs|
  {
    if j == 0 then 0 else SumTo(segs, S, j - 1) + (if j - 1 in S then |segs[j - 1].b| else 0)
  }

  lemma {:induction false} SumEmpty(segs: seq<Segment>, j: nat)
    requires j <= |segs|
    ensures SumTo(segs, {}, j) == 0
  {
    if j > 0 {
      SumEmpty(segs, j - 1);
    }
  }

  lemma {:induction false} SumAdd(segs: seq<Segment>, S: set<int>, i: int, j: nat)
    requires j <= |segs| && 0 <= i < j && i !in S
    ensures SumTo(segs, S + {i}, j) == SumTo(segs, S, j) + |segs[i].b|
  {
    if i < j - 1 {
      SumAdd(segs, S, i, j - 1);
    } else {
      SumSame(segs, S, S + {i}, j - 1);
    }
  }

  lemma {:induction false} SumSame(segs: seq<Segment>, S: set<int>, T: set<int>, j: nat)
    requires j <= |segs|
    requires forall x :: 0 <= x < j ==> (x in S <==> x in T)
    ensures SumTo(segs, S, j) == SumTo(segs, T, j)
  {
    if j > 0 {
      SumSame(segs, S, T, j - 1);
    }
  }

  /** The sum over a set is at most the length of the joined prefix, and equal
      to it when every index below j is in the set. */
  lemma {:induction false} SumAtMost(segs: seq<Segment>, S: set<int>, j: nat)
    requires j <= |segs|
    ensures SumTo(segs, S, j) <= |Concat(segs[..j])|
    ensures Covers(S, j) ==> SumTo(segs, S, j) == |Concat(segs[..j])|
  {
    if j == 0 {
      assert segs[..0] == [];
    } else {
      SumAtMost(segs, S, j - 1);
      ConcatSnoc(segs, j - 1);
    }
  }

  /** A missing segment with a non-empty body makes the sum fall short. */
  lemma {:induction false} SumBelow(segs: seq<Segment>, S: set<int>, j: nat, x: nat)
    requires j <= |segs| && x < j && x !in S && |segs[x].b| > 0
    ensures SumTo(segs, S, j) < |Concat(segs[..j])|
  {
    ConcatSnoc(segs, j - 1);
    if x < j - 1 {
      SumBelow(segs, S, j - 1, x);
    } else {
      SumAtMost(segs, S, j - 1);
    }
  }

  predicate InRange(S: set<int>, n: nat) {
    forall j :: j in S ==> 0 <= j < n
  }

  /** g is the first index in [0, n) missing from S, or n when none is. */
  predicate FirstGap(S: set<int>, g: nat, n: nat) {
    g <= n && (forall j :: 0 <= j < g ==> j in S) && (g == n || g !in S)
  }

  /** The saved map holds exactly the segments of S beyond `next`. */
  predicate Waiting(saved: map<uint16, Segment>, segs: seq<Segment>, S: set<int>, next: nat) {
    && (forall k: uint16 :: k in saved <==> k in S && k > next)
    && (forall k :: k in saved ==> k < |segs| && saved[k] == segs[k])
  }

  /** The buffer holds the bodies before `next`, without the 4-byte count. */
  predicate Buffered(buf: bytes, segs: seq<Segment>, next: nat)
    requires next <= |segs|
  {
    if next == 0 then buf == []
    else |Concat(segs[..next])| >= 4 && buf == Concat(segs[..next])[4..]
  }

  /** The receiver's state after the segments with indices in S have been saved:
      `nextID` is the first missing index, the buffer holds everything before it
      without the count, and the later saved ones wait in `saved`. */
  ghost predicate Inv(r: Recving, segs: seq<Segment>, whole: bytes, S: set<int>) {
    && InRange(S, |segs|)
    && Placed(r, segs, whole, S)
    && r.readLength == SumTo(segs, S, |segs|)
  }

  /** The part of the invariant about where the saved segments went. */
  predicate Placed(r: Recving, segs: seq<Segment>, whole: bytes, S: set<int>) {
    && FirstGap(S, r.nextID, |segs|)
    && Waiting(r.saved, segs, S, r.nextID)
    && Buffered(r.readBuf, segs, r.nextID)
    && r.needLength == (if r.nextID == 0 then 0 else |whole|)
    && !r.completed
  }

  /** The shape the drain proof needs: order IDs fit, and segment 0 holds the count. */
  predicate CountFirst(segs: seq<Segment>) {
    1 <= |segs| < UINT16_LIMIT && |segs[0].b| >= 4
  }

  lemma ConcatPrefixLong(segs: seq<Segment>, g: nat)
    requires CountFirst(segs) && 1 <= g <= |segs|
    ensures |Concat(segs[..g])| >= 4
  {
    assert segs[..g][0] == segs[0];
  }

  /** Appending the next body to a prefix with the count removed. */
  lemma AppendAfterCount(segs: seq<Segment>, g: nat)
    requires CountFirst(segs) && 1 <= g < |segs|
    ensures Concat(segs[..g])[4..] + segs[g].b == Concat(segs[..g + 1])[4..]
  {
    ConcatPrefixLong(segs, g);
    ConcatSnoc(segs, g);
  }

  lemma WaitingTake(saved: map<uint16, Segment>, segs: seq<Segment>, S: set<int>, next: nat, n: uint16)
    requires Waiting(saved, segs, S, next) && n == next + 1 && n in saved
    ensures n in S && n < |segs| && saved[n] == segs[n]
    ensures Waiting(saved - {n}, segs, S, n)
  {
  }

  lemma WaitingStop(saved: map<uint16, Segment>, segs: seq<Segment>, S: set<int>, next: nat, n: uint16)
    requires Waiting(saved, segs, S, next) && n == next + 1 && n !in saved
    ensures n !in S
    ensures Waiting(saved, segs, S, n)
  {
  }

  /** Before a drain turn: indices up to `next` are all in and the later ones
      wait in the map. */
  predicate KeysFrom(segs: seq<Segment>, S: set<int>, saved: map<uint16, Segment>, next: nat) {
    && |segs| < UINT16_LIMIT && InRange(S, |segs|)
    && next < |segs| && (forall j :: 0 <= j <= next ==> j in S)
    && Waiting(saved, segs, S, next)
  }

  /** One turn of the drain loop: the next index was saved, so it leaves the map. */
  lemma KeysTake(segs: seq<Segment>, S: set<int>, saved: map<uint16, Segment>, next: uint16, n: uint16)
    requires KeysFrom(segs, S, saved, next)
    requires n == next + 1 && n in saved
    ensures KeysFrom(segs, S, saved - {n}, n)
    ensures n < |segs| && saved[n] == segs[n]
    ensures |(saved - {n}).Keys| < |saved.Keys|
  {
    WaitingTake(saved, segs, S, next, n);
    assert (saved - {n}).Keys == saved.Keys - {n};
  }

  /** The loop stops at the first index not saved, which is the first gap. */
  lemma KeysStop(segs: seq<Segment>, S: set<int>, saved: map<uint16, Segment>, next: uint16, n: uint16)
    requires KeysFrom(segs, S, saved, next)
    requires n == next + 1 && n !in saved
    ensures FirstGap(S, n, |segs|) && Waiting(saved, segs, S, n)
  {
    WaitingStop(saved, segs, S, next, n);
  }

  /** The drain loop moves `nextID` to the first index missing from S and
      leaves in the map exactly the saved segments beyond it. */
  lemma {:induction false} DrainAdvances(segs: seq<Segment>, S: set<int>,
                                         buf: bytes, saved: map<uint16, Segment>, next: uint16)
    requires KeysFrom(segs, S, saved, next)
    ensures next < Drain(buf, saved, next).2
    ensures FirstGap(S, Drain(buf, saved, next).2, |segs|)
    ensures Waiting(Drain(buf, saved, next).1, segs, S, Drain(buf, saved, next).2)
    decreases |saved.Keys|
  {
    var n := IncU16(next);
    assert n == next + 1;
    if n in saved {
      KeysTake(segs, S, saved, next, n);
      DrainAdvances(segs, S, buf + saved[n].b, saved - {n}, n);
    } else {
      KeysStop(segs, S, saved, next, n);
    }
  }

  /** What the buffer half of the drain needs: segment 0 carries the count,
      `next` is an index, and every waiting segment is the one at its index. */
  predicate SavedMatch(segs: seq<Segment>, saved: map<uint16, Segment>, next: nat) {
    && CountFirst(segs) && next < |segs|
    && (forall k :: k in saved ==> k < |segs| && saved[k] == segs[k])
  }

  /** Before a drain turn, buffer side: the buffer holds the bodies up to
      `next`, without the count. */
  predicate BufferFrom(segs: seq<Segment>, buf: bytes, saved: map<uint16, Segment>, next: nat) {
    SavedMatch(segs, saved, next) && buf == Concat(segs[..next + 1])[4..]
  }

  /** One turn of the drain loop, buffer side: the next body is appended. */
  lemma BufferTake(segs: seq<Segment>, buf: bytes, saved: map<uint16, Segment>, next: uint16, n: uint16)
    requires BufferFrom(segs, buf, saved, next) && n == next + 1 && n in saved
    ensures BufferFrom(segs, buf + saved[n].b, saved - {n}, n)
    ensures |(saved - {n}).Keys| < |saved.Keys|
  {
    AppendAfterCount(segs, n);
    assert (saved - {n}).Keys == saved.Keys - {n};
  }

  /** The drain loop appends the bodies of the indices it passes, so the buffer
      holds every body before the stop index, without the count. */
  lemma {:induction false} DrainBuffers(segs: seq<Segment>, buf: bytes, saved: map<uint16, Segment>, next: uint16)
    requires BufferFrom(segs, buf, saved, next)
    ensures Drain(buf, saved, next).2 <= |segs|
    ensures Buffered(Drain(buf, saved, next).0, segs, Drain(buf, saved, next).2)
    decreases |saved.Keys|
  {
    var n := IncU16(next);
    assert n == next + 1;
    if n in saved {
      BufferTake(segs, buf, saved, next, n);
      DrainBuffers(segs, buf + saved[n].b, saved - {n}, n);
    } else {
      ConcatPrefixLong(segs, n);
    }
  }

  /** The count of received bytes cannot wrap: it never exceeds the message. */
  lemma CountNoWrap(segs: seq<Segment>, S: set<int>, i: nat, before: nat)
    requires |Concat(segs)| < UINT32_LIMIT
    requires i < |segs| && i !in S && before == SumTo(segs, S, |segs|)
    ensures (before + |segs[i].b|) % UINT32_LIMIT == SumTo(segs, S + {i}, |segs|)
  {
    SumAdd(segs, S, i, |segs|);
    SumAtMost(segs, S + {i}, |segs|);
    assert segs[..|segs|] == segs;
    SmallMod(before + |segs[i].b|, UINT32_LIMIT);
  }

  lemma SmallMod(x: nat, m: nat)
    requires x < m
    ensures x % m == x
  {
  }

  /** Taking in the segment `nextID` waits for: the buffer and `nextID` move on. */
  lemma AcceptNext(segs: seq<Segment>, whole: bytes, S: set<int>, r: Recving, i: nat)
    requires Reassemblable(segs, whole) && Inv(r, segs, whole, S)
    requires i < |segs| && i !in S && i == r.nextID
    ensures Accept(r, segs[i]).Done?
    ensures Placed(Accept(r, segs[i]).value, segs, whole, S + {i})
    ensures Accept(r, segs[i]).value.nextID > 0
  {
    var seg := segs[i];
    var S' := S + {i};
    assert OrderID(seg.h) == i;
    var buf := r.readBuf + (if i == 0 then seg.b[4..] else seg.b);
    if i == 0 {
      assert segs[..1] == [segs[0]];
      assert Concat(segs[..1]) == Concat([]) + seg.b;
    } else {
      AppendAfterCount(segs, i);
    }
    assert buf == Concat(segs[..i + 1])[4..];
    assert r.saved - {i as uint16} == r.saved;
    assert Waiting(r.saved, segs, S', i);
    assert KeysFrom(segs, S', r.saved, i);
    DrainAdvances(segs, S', buf, r.saved, i as uint16);
    assert BufferFrom(segs, buf, r.saved, i);
    DrainBuffers(segs, buf, r.saved, i as uint16);
  }

  /** Taking in a segment beyond `nextID`: it waits in `saved`. */
  lemma AcceptLater(segs: seq<Segment>, whole: bytes, S: set<int>, r: Recving, i: nat)
    requires Reassemblable(segs, whole) && Inv(r, segs, whole, S)
    requires i < |segs| && i !in S && i > r.nextID
    ensures Accept(r, segs[i]).Done?
    ensures Placed(Accept(r, segs[i]).value, segs, whole, S + {i})
  {
    assert OrderID(segs[i].h) == i;
  }

  /** Every index below n is in T. */
  predicate Covers(T: set<int>, n: nat) {
    forall j :: 0 <= j < n ==> j in T
  }

  /** A segment not yet saved is neither stale nor a duplicate. */
  lemma FreshIndex(segs: seq<Segment>, whole: bytes, S: set<int>, r: Recving, i: nat)
    requires Reassemblable(segs, whole) && Inv(r, segs, whole, S)
    requires i < |segs| && i !in S
    ensures OrderID(segs[i].h) == i && r.nextID <= i && (i as uint16) !in r.saved
  {
    assert OrderID(segs[i].h) == i;
  }

  /** Taking in a segment not yet saved keeps the invariant with its index
      added. */
  lemma AcceptKeeps(segs: seq<Segment>, whole: bytes, S: set<int>, r: Recving, i: nat)
    requires Reassemblable(segs, whole) && Inv(r, segs, whole, S)
    requires i < |segs| && i !in S
    ensures Accept(r, segs[i]).Done?
    ensures Inv(Accept(r, segs[i]).value, segs, whole, S + {i})
  {
    assert OrderID(segs[i].h) == i;
    if i == r.nextID {
      AcceptNext(segs, whole, S, r, i);
    } else {
      AcceptLater(segs, whole, S, r, i);
    }
    var a := Accept(r, segs[i]).value;
    assert a.readLength == (r.readLength + |segs[i].b|) % UINT32_LIMIT;
    CountNoWrap(segs, S, i, r.readLength);
    assert InRange(S + {i}, |segs|);
  }

  /** Under the invariant the completion test holds exactly when every index is
      in. */
  lemma InvComplete(segs: seq<Segment>, whole: bytes, T: set<int>, a: Recving)
    requires Reassemblable(segs, whole) && Inv(a, segs, whole, T)
    ensures Complete(a) <==> Covers(T, |segs|)
  {
    SumAtMost(segs, T, |segs|);
    assert segs[..|segs|] == segs;
    if !Covers(T, |segs|) {
      var x :| 0 <= x < |segs| && x !in T;
      SumBelow(segs, T, |segs|, x);
    } else {
      ConcatPrefixLong(segs, |segs|);
    }
  }

  /** Once every index is in, nothing is left waiting and the buffer is the
      message without its count. */
  lemma InvCovered(segs: seq<Segment>, whole: bytes, T: set<int>, a: Recving)
    requires Reassemblable(segs, whole) && Inv(a, segs, whole, T) && Covers(T, |segs|)
    ensures a.readBuf + SortedBodies(a.saved) == whole[4..]
  {
    assert segs[..|segs|] == segs;
    assert a.nextID == |segs|;
    assert a.saved == map[];
  }

  /** Saving one new segment keeps the invariant, or completes the message
      exactly when it was the last one missing. */
  lemma SaveStep(segs: seq<Segment>, whole: bytes, S: set<int>, r: Recving, i: nat)
    requires Reassemblable(segs, whole) && Inv(r, segs, whole, S)
    requires i < |segs| && i !in S
    ensures Save(r, segs[i]).Done?
    ensures Covers(S + {i}, |segs|) ==> Save(r, segs[i]).value.0 == Some(whole[4..])
    ensures !Covers(S + {i}, |segs|) ==>
              Save(r, segs[i]).value.0 == None && Inv(Save(r, segs[i]).value.1, segs, whole, S + {i})
  {
    FreshIndex(segs, whole, S, r, i);
    AcceptKeeps(segs, whole, S, r, i);
    InvComplete(segs, whole, S + {i}, Accept(r, segs[i]).value);
    if Covers(S + {i}, |segs|) {
      InvCovered(segs, whole, S + {i}, Accept(r, segs[i]).value);
    }
  }

  /** A permutation of 0 .. n-1: every index occurs, none twice, none out of range. */
  predicate IsPermutation(order: seq<nat>, n: nat) {
    && (forall k :: 0 <= k < |order| ==> order[k] < n)
    && (forall a, b :: 0 <= a < b < |order| ==> order[a] != order[b])
    && (forall j :: 0 <= j < n ==> j in order)
  }

  /** Only the last save returns anything, and it returns `v`. */
  predicate LastOnly(outs: seq<Option<bytes>>, v: bytes) {
    && |outs| >= 1
    && outs[|outs| - 1] == Some(v)
    && (forall k :: 0 <= k < |outs| - 1 ==> outs[k] == None)
  }

  /** One step of `SaveInOrder` when the first save does not panic. */
  lemma SaveInOrderCons(m: Recving, segs: seq<Segment>, order: seq<nat>,
                        first: Step<(Option<bytes>, Recving)>, rest: Step<(seq<Option<bytes>>, Recving)>)
    requires |order| >= 1 && forall k :: 0 <= k < |order| ==> order[k] < |segs|
    requires first == Save(m, segs[order[0]]) && first.Done?
    requires rest == SaveInOrder(first.value.1, segs, order[1..]) && rest.Done?
    ensures SaveInOrder(m, segs, order) == Done(([first.value.0] + rest.value.0, rest.value.1))
  {
  }

  /** Prepending a save that returned nothing keeps "only the last returns". */
  lemma LastOnlyCons(x: Option<bytes>, outs: seq<Option<bytes>>, v: bytes)
    requires (outs == [] && x == Some(v)) || (LastOnly(outs, v) && x == None)
    ensures LastOnly([x] + outs, v)
  {
    var all := [x] + outs;
    forall k | 0 <= k < |all| - 1
      ensures all[k] == None
    {
      if k > 0 {
        assert all[k] == outs[k - 1];
      }
    }
  }

  /** `order` lists, without repetition, exactly the indices below n missing from S. */
  predicate Pending(S: set<int>, order: seq<nat>, n: nat) {
    && (forall k :: 0 <= k < |order| ==> order[k] < n && order[k] !in S)
    && (forall a, b :: 0 <= a < b < |order| ==> order[a] != order[b])
    && (forall j :: 0 <= j < n ==> j in S || j in order)
  }

  /** Saving the first pending index leaves the rest pending, and all is
      covered exactly when it was the last. */
  lemma PendingRest(S: set<int>, order: seq<nat>, n: nat)
    requires Pending(S, order, n) && |order| >= 1
    ensures Pending(S + {order[0]}, order[1..], n)
    ensures Covers(S + {order[0]}, n) <==> |order| == 1
  {
    var tail := order[1..];
    forall j | 0 <= j < n
      ensures j in S + {order[0]} || j in tail
    {
      if j !in S && j != order[0] {
        var k :| 0 <= k < |order| && order[k] == j;
        assert tail[k - 1] == j;
      }
    }
    if |order| > 1 {
      assert order[1] != order[0];
      assert !(order[1] in S + {order[0]});
    }
  }

  /** Saving the rest of a permutation from an invariant state: nothing is
      returned until the last segment, which returns the message without its count. */
  lemma {:induction false} SaveRemaining(segs: seq<Segment>, whole: bytes, S: set<int>, r: Recving,
                                         order: seq<nat>)
    requires Reassemblable(segs, whole) && Inv(r, segs, whole, S)
    requires |order| >= 1 && Pending(S, order, |segs|)
    ensures SaveInOrder(r, segs, order).Done?
    ensures LastOnly(SaveInOrder(r, segs, order).value.0, whole[4..])
    decreases |order|
  {
    var i := order[0];
    SaveStep(segs, whole, S, r, i);
    PendingRest(S, order, |segs|);
    var first := Save(r, segs[i]);
    var tail := order[1..];
    var rest := SaveInOrder(first.value.1, segs, tail);
    if |order| == 1 {
      assert tail == [];
      assert rest == Done(([], first.value.1));
    } else {
      SaveRemaining(segs, whole, S + {i}, first.value.1, tail);
    }
    LastOnlyCons(first.value.0, rest.value.0, whole[4..]);
    SaveInOrderCons(r, segs, order, first, rest);
  }

  /** Saved in any order, the segments of a reassemblable message give nothing
      until the last one, which returns the message without its count. */
  lemma ReassembleAnyOrder(segs: seq<Segment>, whole: bytes, order: seq<nat>)
    requires Reassemblable(segs, whole) && IsPermutation(order, |segs|)
    ensures var out := SaveInOrder(NewMsgRecving(), segs, order);
      && out.Done? && |out.value.0| == |order| >= 1
      && out.value.0[|order| - 1] == Some(whole[4..])
      && (forall k :: 0 <= k < |order| - 1 ==> out.value.0[k] == None)
  {
    SumEmpty(segs, |segs|);
    assert Inv(NewMsgRecving(), segs, whole, {});
    assert 0 in order;
    assert Pending({}, order, |segs|);
    SaveRemaining(segs, whole, {}, NewMsgRecving(), order);
  }

  /** Only the first four bytes of a buffer make up its big-endian count. */
  lemma ReadBE32Prefix(a: bytes, b: bytes)
    requires |a| >= 4 && |b| >= 4 && a[..4] == b[..4]
    ensures ReadBE32(a) == ReadBE32(b)
  {
    assert a[..2] == a[..4][..2] && b[..2] == b[..4][..2];
    assert a[2..4] == a[..4][2..4] && b[2..4] == b[..4][2..4];
  }

  /** Segment 0 of a prefixed message starts with the whole 4-byte count. */
  lemma FirstSegmentCount(m: Sending)
    requires 4 <= |m.message| <= MaxPrefixedLength
    ensures |IterBufferd(m)| >= 1
    ensures |IterBufferd(m)[0].b| >= 4
    ensures ReadBE32(IterBufferd(m)[0].b) == ReadBE32(m.message)
  {
    var b0 := IterBufferd(m)[0].b;
    ChunkRange(m, 0);
    assert b0 == m.message[0..Min(SegmentBodyMaxSize, |m.message|)];
    assert b0[..4] == m.message[..4];
    ReadBE32Prefix(b0, m.message);
  }

  /** Every segment `IterBufferd` yields carries its index and a non-empty body. */
  lemma IterBufferdNumbered(m: Sending)
    ensures forall i :: 0 <= i < |IterBufferd(m)| ==>
              OrderID(IterBufferd(m)[i].h) == i && |IterBufferd(m)[i].b| > 0
  {
  }

  /** A message that starts with its own length cuts into reassemblable segments. */
  lemma PrefixedReassemblable(m: Sending)
    requires 4 <= |m.message| <= MaxPrefixedLength && ReadBE32(m.message) == |m.message|
    ensures Reassemblable(IterBufferd(m), m.message)
  {
    IterBufferdConcat(m);
    FirstSegmentCount(m);
    IterBufferdNumbered(m);
  }

  /** What `IterBufferd` produces for a message of bounded size is reassemblable. */
  lemma SendingReassemblable(types: byte, flags: uint16, streamID: uint32, transID: uint16,
                             message: bytes)
    requires |message| + 4 <= MaxPrefixedLength
    ensures var m := NewMsgSending(types, flags, streamID, transID, message);
      Reassemblable(IterBufferd(m), m.message)
  {
    PrefixedReassemblable(NewMsgSending(types, flags, streamID, transID, message));
  }

  /** The sender's segments, saved by a fresh receiver in any order, give back
      the original message at the last save and nothing before it. */
  lemma SendReceiveRoundTrip(types: byte, flags: uint16, streamID: uint32, transID: uint16,
                             message: bytes, order: seq<nat>)
    requires |message| + 4 <= MaxPrefixedLength
    requires IsPermutation(order, SegmentCount(NewMsgSending(types, flags, streamID, transID, message)))
    ensures var segs := IterBufferd(NewMsgSending(types, flags, streamID, transID, message));
      var out := SaveInOrder(NewMsgRecving(), segs, order);
      && out.Done? && |out.value.0| == |order| >= 1
      && out.value.0[|order| - 1] == Some(message)
      && (forall k :: 0 <= k < |order| - 1 ==> out.value.0[k] == None)
  {
    var m := NewMsgSending(types, flags, streamID, transID, message);
    SendingReassemblable(types, flags, streamID, transID, message);
    ReassembleAnyOrder(IterBufferd(m), m.message, order);
  }
}

=== FILE: udp_segment.dfy ===
/** The reliable-UDP segment: a 14-byte big-endian header
    | Version(1) | Type(1) | Flags(2) | StreamID(4) | TransID(2) | OrderID(2) | Length(2) |
    followed by at most 1386 body bytes, so that a whole segment fits 1400 bytes.
 */
module UdpSegment {
  import opened Bytes
  import opened Wrappers

  const ProtoVersion: byte := 0
  const HeaderSize: nat := 14
  const SegmentMaxSize: nat := 1400
  const SegmentBodyMaxSize: nat := SegmentMaxSize - HeaderSize

  const SegTypeMsgSYN: byte := 1
  const SegTypeMsgACK: byte := 2
  const SegTypeMsgPingReq: byte := 3
  const SegTypeMsgPingRep: byte := 4
  const SegTypeMsgReq: byte := 5
  const SegTypeMsgRep: byte := 6

  const ErrSegmentBodyTooLarge: string := "segment body is too large"
  const PanicShortSegment: string := "data shorter than a segment header"

  /** The handshake key "ES HANDSHAKE" as ASCII bytes. */
  const HandshakeKey: bytes := [0x45, 0x53, 0x20, 0x48, 0x41, 0x4E, 0x44, 0x53, 0x48, 0x41, 0x4B, 0x45]

  /** Headers are always allocated with exactly `HeaderSize` bytes. */
  type Header = h: bytes | |h| == HeaderSize witness [0, 0, 0, 0, 0, 0, 0, 0, 0, 0, 0, 0, 0, 0]

  function Version(h: Header): byte { h[0] }
  function Type(h: Header): byte { h[1] }
  function Flags(h: Header): uint16 { ReadBE16(h[2..4]) }
  function StreamID(h: Header): uint32 { ReadBE32(h[4..8]) }
  function TransID(h: Header): uint16 { ReadBE16(h[8..10]) }
  function OrderID(h: Header): uint16 { ReadBE16(h[10..12]) }
  function Length(h: Header): uint16 { ReadBE16(h[12..14]) }

  /** `header.encode`: every byte of the header is overwritten, version first. */
  function Encode(segType: byte, flags: uint16, streamID: uint32, transID: uint16,
                  orderID: uint16, length: uint16): (h: Header)
    ensures Version(h) == ProtoVersion && Type(h) == segType
    ensures Flags(h) == flags && StreamID(h) == streamID && TransID(h) == transID
    ensures OrderID(h) == orderID && Length(h) == length
  {
    var h := [ProtoVersion, segType] + BE16(flags) + BE32(streamID) + BE16(transID)
             + BE16(orderID) + BE16(length);
    assert h[2..4] == BE16(flags) && h[4..8] == BE32(streamID) && h[8..10] == BE16(transID);
    assert h[10..12] == BE16(orderID) && h[12..14] == BE16(length);
    BE32RoundTrip(streamID);
    h
  }

  /** A version-0 header is rebuilt exactly by encoding its own fields. */
  lemma EncodeFields(h: Header)
    requires Version(h) == ProtoVersion
    ensures Encode(Type(h), Flags(h), StreamID(h), TransID(h), OrderID(h), Length(h)) == h
  {
    BE16Inverse(h[2..4]);
    BE32Inverse(h[4..8]);
    BE16Inverse(h[8..10]);
    BE16Inverse(h[10..12]);
    BE16Inverse(h[12..14]);
    var e := Encode(Type(h), Flags(h), StreamID(h), TransID(h), OrderID(h), Length(h));
    assert e[2..4] == h[2..4] && e[4..8] == h[4..8] && e[8..10] == h[8..10];
    assert e[10..12] == h[10..12] && e[12..14] == h[12..14];
    assert e == e[..2] + e[2..4] + e[4..8] + e[8..10] + e[10..12] + e[12..14];
    assert h == h[..2] + h[2..4] + h[4..8] + h[8..10] + h[10..12] + h[12..14];
  }

  datatype Segment = Segment(h: Header, b: bytes)

  /** `segment.bytes`: the header followed by the body. */
  function SegmentBytes(seg: Segment): (r: bytes)
    ensures |r| == SegmentLength(seg)
    ensures r[..HeaderSize] == seg.h && r[HeaderSize..] == seg.b
  {
    seg.h + seg.b
  }

  /** `segment.length`. */
  function SegmentLength(seg: Segment): nat {
    HeaderSize + |seg.b|
  }

  /** `newSegment`: bodies over 1386 bytes are refused; a nil body is the empty one. */
  function NewSegment(segType: byte, flags: uint16, streamID: uint32, transID: uint16,
                      orderID: uint16, message: bytes): (r: Result<Segment>)
    ensures r.Ok? <==> |message| <= SegmentBodyMaxSize
    ensures r.Err? ==> r.error == ErrSegmentBodyTooLarge
    ensures r.Ok? ==> r.value.b == message && Length(r.value.h) == |message|
    ensures r.Ok? ==> Version(r.value.h) == ProtoVersion && Type(r.value.h) == segType
                      && Flags(r.value.h) == flags && StreamID(r.value.h) == streamID
                      && TransID(r.value.h) == transID && OrderID(r.value.h) == orderID
    ensures r.Ok? ==> SegmentLength(r.value) <= SegmentMaxSize
  {
    if |message| > SegmentBodyMaxSize then Err(ErrSegmentBodyTooLarge)
    else Ok(Segment(Encode(segType, flags, streamID, transID, orderID, |message|), message))
  }

  /** The constructors that discard `newSegment`'s error yield nil for an oversize body. */
  function Discard(r: Result<Segment>): (o: Option<Segment>)
    ensures o.Some? <==> r.Ok?
    ensures o.Some? ==> o.value == r.value
  {
    if r.Ok? then Some(r.value) else None
  }

  /** `newSYNSegment`: type 1 carrying the handshake key. */
  function NewSYNSegment(): (seg: Segment)
    ensures Type(seg.h) == SegTypeMsgSYN && seg.b == HandshakeKey
    ensures StreamID(seg.h) == 0 && OrderID(seg.h) == 0 && Length(seg.h) == |HandshakeKey|
  {
    NewSegment(SegTypeMsgSYN, 0, 0, 0, 0, HandshakeKey).value
  }

  function NewACKSegment(key: bytes): (o: Option<Segment>)
    ensures o.Some? <==> |key| <= SegmentBodyMaxSize
    ensures o.Some? ==> Type(o.value.h) == SegTypeMsgACK && o.value.b == key
  {
    Discard(NewSegment(SegTypeMsgACK, 0, 0, 0, 0, key))
  }

  /** `newPingReqSegment`: type 3 whose body is the ping ID in 4 big-endian bytes. */
  function NewPingReqSegment(streamID: uint32, id: uint32): (seg: Segment)
    ensures Type(seg.h) == SegTypeMsgPingReq && StreamID(seg.h) == streamID
    ensures |seg.b| == 4 && ReadBE32(seg.b) == id && Length(seg.h) == 4
  {
    BE32RoundTrip(id);
    NewSegment(SegTypeMsgPingReq, 0, streamID, 0, 0, BE32(id)).value
  }

  function NewPingRepSegment(streamID: uint32, b: bytes): (o: Option<Segment>)
    ensures o.Some? <==> |b| <= SegmentBodyMaxSize
    ensures o.Some? ==> Type(o.value.h) == SegTypeMsgPingRep && StreamID(o.value.h) == streamID
                        && o.value.b == b
  {
    Discard(NewSegment(SegTypeMsgPingRep, 0, streamID, 0, 0, b))
  }

  function NewReqSegment(streamID: uint32, b: bytes): (o: Option<Segment>)
    ensures o.Some? <==> |b| <= SegmentBodyMaxSize
    ensures o.Some? ==> Type(o.value.h) == SegTypeMsgReq && StreamID(o.value.h) == streamID
                        && o.value.b == b
  {
    Discard(NewSegment(SegTypeMsgReq, 0, streamID, 0, 0, b))
  }

  function NewRepSegment(streamID: uint32, b: bytes): (o: Option<Segment>)
    ensures o.Some? <==> |b| <= SegmentBodyMaxSize
    ensures o.Some? ==> Type(o.value.h) == SegTypeMsgRep && StreamID(o.value.h) == streamID
                        && o.value.b == b
  {
    Discard(NewSegment(SegTypeMsgRep, 0, streamID, 0, 0, b))
  }

  /** `newSingleSegment` checks no size: the length field keeps the body length
      modulo 2^16. */
  function NewSingleSegment(segType: byte, flags: uint16, streamID: uint32, message: bytes): (seg: Segment)
    ensures seg.b == message && Type(seg.h) == segType && StreamID(seg.h) == streamID
    ensures Length(seg.h) == |message| % UINT16_LIMIT
    ensures |message| < UINT16_LIMIT ==> Length(seg.h) == |message|
  {
    Segment(Encode(segType, flags, streamID, 0, 0, |message| % UINT16_LIMIT), message)
  }

  /** `loadSegment`: the first 14 bytes are the header, the rest the body.  It
      never reports an error; input shorter than a header makes the slice
      operations panic. */
  function LoadSegment(data: bytes): (r: Step<Segment>)
    ensures !r.Blocks?
    ensures r.Done? <==> |data| >= HeaderSize
    ensures r.Done? ==> SegmentBytes(r.value) == data
  {
    if |data| < HeaderSize then Panics(PanicShortSegment)
    else Done(Segment(data[..HeaderSize], data[HeaderSize..]))
  }

  /** Loading the bytes of a segment gives the segment back. */
  lemma LoadSegmentBytes(seg: Segment)
    ensures LoadSegment(SegmentBytes(seg)) == Done(seg)
  {
    var d := SegmentBytes(seg);
    assert d[..HeaderSize] == seg.h && d[HeaderSize..] == seg.b;
  }
}

=== FILE: udp_util.dfy ===
/** `SIUInt16Slice`: the `sort.Interface` the receiver uses to put the order IDs
    of buffered segments in ascending order. */
module UdpUtil {
  import opened Bytes

  function Len(c: seq<uint16>): (n: nat)
    ensures n == |c|
  {
    |c|
  }

  /** `Swap(i, j)`; `sort.Sort` only calls it with indices below `Len`. */
  function Swap(c: seq<uint16>, i: nat, j: nat): (r: seq<uint16>)
    requires i < |c| && j < |c|
    ensures |r| == |c| && r[i] == c[j] && r[j] == c[i]
    ensures forall k :: 0 <= k < |c| && k != i && k != j ==> r[k] == c[k]
    ensures multiset(r) == multiset(c)
  {
    c[i := c[j]][j := c[i]]
  }

  /** Swapping the same pair twice restores the slice. */
  lemma SwapTwice(c: seq<uint16>, i: nat, j: nat)
    requires i < |c| && j < |c|
    ensures Swap(Swap(c, i, j), i, j) == c
  {
    var once := Swap(c, i, j);
    var twice := Swap(once, i, j);
    assert forall k :: 0 <= k < |c| ==> twice[k] == c[k];
  }

  predicate Less(c: seq<uint16>, i: nat, j: nat)
    requires i < |c| && j < |c|
  {
    c[i] < c[j]
  }

  /** `Less` is a strict order on positions: irreflexive and transitive, so
      `sort.Sort` may rely on it. */
  lemma LessStrictOrder(c: seq<uint16>)
    ensures forall i :: 0 <= i < |c| ==> !Less(c, i, i)
    ensures forall i, j, k ::
              (0 <= i < |c| && 0 <= j < |c| && 0 <= k < |c| && Less(c, i, j) && Less(c, j, k))
              ==> Less(c, i, k)
  {
  }

  /** What `sort.Sort(SIUInt16Slice(c))` establishes: no later element is `Less`
      than an earlier one. */
  predicate Sorted(c: seq<uint16>) {
    forall i, j :: 0 <= i < j < |c| ==> !Less(c, j, i)
  }
}

=== FILE: wrappers.dfy ===
/** Failure-carrying datatypes shared by every module of the model.

    - `Option<T>`: Go's "nil or a value" returns (`Get` on a pool).
    - `Result<T>`: Go's `(value, error)` pairs; the error is the message text
      the source builds with `errors.New`.
    - `Step<T>`: what a Go statement does when it may also block forever on a
      channel or end the program (a runtime panic, or a fatal log that exits).
 */
module Wrappers {

  datatype Option<+T> = None | Some(value: T)

  datatype Result<+T> = Ok(value: T) | Err(error: string) {

    predicate IsFailure() {
      Err?
    }

    function PropagateFailure<U>(): Result<U>
      requires Err?
    {
      Err(error)
    }

    function Extract(): T
      requires Ok?
    {
      value
    }
  }

  /** The unit value returned by operations whose only result is "no error". */
  datatype Unit = Unit

  /** The outcome of a step of Go code: it returns, it waits forever, or it
      ends the program, whether by a runtime panic or by a fatal log call that
      exits the process. */
  datatype Step<+T> = Done(value: T) | Blocks | Panics(reason: string)
}
